=== FILE: README.md ===
# Restaurant ordering: the pure core, in Dafny

This project models the sequential logic inside a multi-tenant restaurant
ordering web application (React and TypeScript, with Supabase as backend) and
proves properties of it. The logic covered is the part that needs no server or
browser:

- the customer's **cart**: unit pricing from size and add-ons, merging or
  appending a line, quantity changes and removal, and the item counters;
- the item **customization dialog**: which items open it, the add-on toggle,
  the price it shows, and the selection it keeps between openings;
- the **checkout**: subtotal, 5% tax and total, the three input checks in
  order, and the order payload;
- the shared **helpers**: slug generation, Indian mobile and e-mail
  validation, item price, order totals, the temporary-password alphabet, the
  currency fallback and the status colour;
- the restaurant's **order board**: the status tab with oldest-first order,
  the transitions its buttons offer, the cancel dialog, the pending counter,
  the badge, and the new-order sound rule;
- the staff **menu editor**: category chips, search and category filter, size
  and add-on list editing, the submit guard and payload, and the availability
  switch;
- the public **registration form**: field errors, the validity verdict, the
  insert payload and per-field editing;
- the admin **restaurant list**: search and status filter, the active counter,
  the badge, and the block/unblock guard;
- the **sales report**: revenue, average order value, per-item tallies, the
  top five, revenue per day, orders per type, and the CSV export.

Everything is immutable data and pure functions over sequences. Money is a
`real`. The clock, `Math.random`, `parseFloat`, number formatting and the
locale date format are function parameters. The source reads an order's
amount as `total_amount`, while the record type names it `total`, so the
report takes the amount as a parameter too.

Modules, one per concern:

- Foundations:
  - `Wrappers`: `Option`/`Result`.
  - `Text`: JavaScript `trim`, `toLowerCase` on ASCII, `includes`, `split`/`join`.
  - `Seqs`: order-preserving filter, index removal, sums.
  - `Sorting`: stable insertion sort by key.
  - `Tally`: insertion-ordered `Record` accumulation.
- Data:
  - `Config`: the constants of `src/config/config.ts`.
  - `Model`: records of `src/config/supabase.ts`.
- Helpers:
  - `Helpers`
  - `Slug`
  - `Validation`
- Customer pages:
  - `CustomerCart`
  - `Customization`
  - `Checkout`
  - `Catalogue`
- Staff and admin pages:
  - `OrderBoard`
  - `MenuForm`
  - `Registration`
  - `AdminRestaurants`
- Reports:
  - `Reports`
  - `ReportExport`

## Model

| member | source | states |
|---|---|---|
| Helpers.FormatCurrency | src/utils/helpers.ts:6-11 | every rendering starts with the configured currency symbol; an undefined, null or NaN amount renders as the symbol followed by "0.00" |
| Helpers.MissingAmountPrintsAsZero | src/utils/helpers.ts:6-11 | a missing or NaN amount prints exactly as the number 0 does, namely "₹0.00" |
| Slug.Dashify | src/utils/helpers.ts:19 | replacing every run of characters outside a-z0-9 by one '-' gives a string over a-z, 0-9 and '-' with no "--", no longer than the input, empty only for empty input, starting with '-' exactly when the input starts outside a-z0-9 |
| Slug.DashifyKeepsSlugChars | src/utils/helpers.ts:19 | the replacement keeps every letter and digit of the input, in order, and adds none |
| Slug.DashifyConcat | src/utils/helpers.ts:19 | the replacement works piecewise across a cut just after a letter or digit, since no run of other characters straddles it |
| Slug.DashifyLeadingSeparator | src/utils/helpers.ts:19 | a leading run of characters outside a-z0-9 in front of a letter or digit becomes exactly one '-' |
| Slug.DashifySeparates | src/utils/helpers.ts:19 | a run of other characters between a letter or digit and the next becomes exactly one '-' ("ab cd" gives "ab-cd"), and each side is replaced on its own |
| Slug.Stripped | src/utils/helpers.ts:18-20 | after the replacement and the '-' trims, the text is over a-z, 0-9 and '-', has no "--", does not start with '-', is no longer than the name, and holds exactly the letters and digits of the lower-cased name |
| Slug.GenerateSlug | src/utils/helpers.ts:16-22 | the slug has only a-z, 0-9 and '-', never starts with '-', never contains "--", and has at most 50 characters; when the stripped text fits in 50 characters the slug does not end in '-' either |
| Slug.SlugKeepsLettersAndDigits | src/utils/helpers.ts:16-22 | the slug's letters and digits are the leading ones of the lower-cased name, all of them when the name has at most 50 characters; the slug is empty exactly when the name has no letter or digit |
| Slug.SlugFixpoint | src/utils/helpers.ts:16-22 | a clean slug (the alphabet, no "--", no leading or trailing '-', at most 50 characters) is returned unchanged |
| Slug.SlugIdempotentUnlessTrailingDash | src/utils/helpers.ts:16-22 | slugging a slug again changes nothing whenever the first slug does not end in '-' |
| Slug.TruncationCanLeaveTrailingDash | src/utils/helpers.ts:16-22 | because the dash trim runs before the 50-character cut, 49 'a's then "-b" yields a slug ending in '-' |
| Helpers.GenerateTempPassword | src/utils/helpers.ts:38-45 | given eight random draws in [0,1), the password has exactly 8 characters, each from "ABCDEFGHJKLMNPQRSTUVWXYZ23456789", character i being the one at floor(draw i × 32) |
| Helpers.CalculateOrderTotals | src/utils/helpers.ts:50-56 | subtotal is the sum of `item_total` with no quantity factor, tax is subtotal × 0.05, total is subtotal + tax (= subtotal × 1.05) |
| Helpers.CalculateItemPrice | src/utils/helpers.ts:143-153 | the size's price when a size is given (else the base price), plus the sum of the add-on prices, a missing or empty add-on list adding nothing |
| Helpers.GetStatusColor | src/utils/helpers.ts:134-138 | a configured status gets its configured colour; the result is "neutral" exactly for statuses outside the configuration |
| Validation.IsValidPhone | src/utils/helpers.ts:102-105 | a phone that passes is written with nothing but digits and the separators whitespace, '-', '(' and ')', and has exactly ten digits once they are deleted |
| Validation.StripPhoneKeeps | src/utils/helpers.ts:104 | every character other than a separator survives the deletion |
| Validation.StripPhone | src/utils/helpers.ts:104 | deleting whitespace, '-', '(' and ')' leaves no such character and never lengthens the input |
| Validation.ValidPhoneNormalisesToTenDigits | src/utils/helpers.ts:102-105 | a phone that passes is, once separators are deleted, exactly ten ASCII digits, and deleting again changes nothing |
| Validation.FormattedMobileAccepted | src/utils/helpers.ts:102-105 | any valid mobile number written as "(ddd) ddd-dddd" still passes |
| Validation.MobileAccepted | src/utils/helpers.ts:102-105 | "9876543210" passes |
| Validation.ShortPhoneRejected | src/utils/helpers.ts:102-105 | "12345" fails |
| Validation.LandlineLikeRejected | src/utils/helpers.ts:102-105 | "1234567890" fails: the first digit must be 6 to 9 |
| Validation.IsValidEmail | src/utils/helpers.ts:94-97 | an address that passes has at least five characters and exactly one '@', which is neither its first nor its last character |
| Validation.EmailPatternIff | src/utils/helpers.ts:94-97 | the regular expression `^[^\s@]+@[^\s@]+\.[^\s@]+$` accepts exactly the addresses with no whitespace, exactly one '@' with a non-empty local part, and a '.' in the domain that is neither its first nor its last character |
| Validation.WellFormedAddressAccepted | src/utils/helpers.ts:94-97 | user@host.tld passes whenever the three parts are non-empty and free of whitespace and '@' |
| Validation.NoAtRejected | src/utils/helpers.ts:94-97 | any address without '@' fails |
| Validation.TwoAtRejected | src/utils/helpers.ts:94-97 | every address with two '@' characters fails |
| Validation.SpaceRejected | src/utils/helpers.ts:94-97 | every address containing an ECMAScript whitespace character fails |
| Validation.DotFirstRejected | src/utils/helpers.ts:94-97 | "owner@.in" fails: after the '@' there is no non-empty run before a '.' |
| Text.Trim | src/pages/public/RegisterPage.tsx:96-104 | `s.trim()` is s with blank text cut from both ends and none left at either end |
| Text.TrimmedFromUnique | src/pages/public/RegisterPage.tsx:96-104 | only one string can be cut from s that way, so the description fixes `trim()` exactly |
| Text.TrimEmptyIffBlank | src/pages/public/RegisterPage.tsx:48 | `!s.trim()` holds exactly when every character of s is JavaScript whitespace |
| CustomerCart.FindLine | src/pages/customer/CustomerMenu.tsx:119-124 | the index of the first line with the same item id, the same size name and an identical add-on sequence (order matters), or -1 exactly when no line matches |
| CustomerCart.AddToCart | src/pages/customer/CustomerMenu.tsx:99-135 | with a matching line, that line's quantity rises by 1, its stored unit price is kept and the length is unchanged; otherwise a line with quantity 1 and the computed unit price is appended and every existing line is unchanged |
| CustomerCart.UnitPriceIsCalculateItemPrice | src/pages/customer/CustomerMenu.tsx:104-109 | the cart's unit price agrees with `calculateItemPrice` for the same size and add-ons |
| CustomerCart.UpdateQuantity | src/pages/customer/CustomerMenu.tsx:137-144 | a line whose new quantity is at most 0 is removed; otherwise only that line's quantity changes, by delta |
| CustomerCart.RemoveFromCart | src/pages/customer/CustomerMenu.tsx:146-150 | exactly line i is removed; the others keep their order |
| CustomerCart.AddKeepsValid | src/pages/customer/CustomerMenu.tsx:111-131 | adding keeps every quantity at least 1 and no two lines with the same selection |
| CustomerCart.UpdateKeepsValid | src/pages/customer/CustomerMenu.tsx:137-144 | a quantity change keeps every quantity at least 1 and the selections distinct |
| CustomerCart.RemoveKeepsValid | src/pages/customer/CustomerMenu.tsx:146-150 | removal keeps every quantity at least 1 and the selections distinct |
| CustomerCart.CartCount | src/pages/customer/CustomerMenu.tsx:152 | the badge counts 0 for an empty cart and, in a cart whose lines all hold at least one unit, at least one per line |
| CustomerCart.CartTotal | src/pages/customer/CustomerMenu.tsx:445-448 | an empty cart owes nothing, and lines with non-negative prices and quantities never owe a negative amount |
| CustomerCart.GetItemQuantity | src/pages/customer/CustomerMenu.tsx:184-191 | with positive quantities, one item's units are between 0 and the cart's whole unit count |
| CustomerCart.AddCountsOneUnit | src/pages/customer/CustomerMenu.tsx:152 | after an add, `cartCount` is exactly one more |
| CustomerCart.AddRaisesTotalByUnitPrice | src/pages/customer/CustomerMenu.tsx:119-131 | after an add, the cart amount rises by one unit price: the merged line's stored price, or the new line's |
| CustomerCart.RepeatedAddsMerge | src/pages/customer/CustomerMenu.tsx:119-131 | adding the same selection n times to a cart without it appends one line, whose quantity is n |
| CustomerCart.FindItem | src/pages/customer/CustomerMenu.tsx:198 | the index of the first line for the item id (no earlier line carries it), or -1 exactly when there is none |
| CustomerCart.HandleRemoveItem | src/pages/customer/CustomerMenu.tsx:197-202 | an item with no line leaves the cart unchanged |
| CustomerCart.HandleRemoveItemTakesOneUnit | src/pages/customer/CustomerMenu.tsx:184-202 | on a valid cart holding the item, the card's minus button takes exactly one unit of that item, and one unit off `cartCount`, and keeps the cart valid |
| CustomerCart.ItemQuantityZeroIffAbsent | src/pages/customer/CustomerMenu.tsx:184-191 | with positive quantities, the card's counter is never negative and is 0 exactly when no line is for that item |
| Customization.HandleItemClick | src/pages/customer/CustomerMenu.tsx:154-161 | an item with at least one size opens the dialog; any other item is added directly with no size and no add-ons |
| Customization.NoSizesNoAddons | src/pages/customer/CustomerMenu.tsx:154-161 | a tap on an item without sizes adds one unit to a line with no size and no add-ons, priced at the bare base price when new, whatever add-ons the item offers |
| Customization.ToggleAddon | src/pages/customer/CustomerMenu.tsx:551-557 | the tapped name flips between selected and unselected and every other name keeps its state; an unselected add-on is appended at the end, a selected name loses every entry with that name and the rest keep their order |
| Customization.ToggleTwiceRestores | src/pages/customer/CustomerMenu.tsx:551-557 | tapping an unselected add-on twice restores the selection |
| Customization.DialogTotal | src/pages/customer/CustomerMenu.tsx:559-566 | the dialog's price is what the shared `calculateItemPrice` (helpers.ts) gives for the same size and add-ons |
| Customization.PriceSumSplit | src/pages/customer/CustomerMenu.tsx:559-566 | splitting the selection into the entries with one name and the rest splits its add-on price |
| Customization.TapMovesTotal | src/pages/customer/CustomerMenu.tsx:551-566 | a tap on an unselected add-on raises the shown price by its price; a tap on a selected one lowers it by the prices of every entry with that name |
| Customization.ConfirmDialog | src/pages/customer/CustomerMenu.tsx:639 | "Add to Cart" adds one unit; a new line carries the dialog's price |
| Customization.OpenAsWritten | src/pages/customer/CustomerMenu.tsx:540-547 | on opening, the first size is selected when the item changes and has sizes, otherwise the size is kept, and the add-on selection is carried over unchanged |
| Customization.Open | src/pages/customer/CustomerMenu.tsx:540-547 | on opening, the item's first size (if any) and no add-ons are selected |
| Customization.TapKeepsBelonging | src/pages/customer/CustomerMenu.tsx:551-557 | taps on the dialog's own add-on buttons keep every selected add-on one the item offers |
| Customization.OpenThenTapsBelongs | src/pages/customer/CustomerMenu.tsx:540-557 | with the reset, after any taps, the size and add-ons selected all belong to the item shown |
| Customization.StaleAddonCarriesOver | src/pages/customer/CustomerMenu.tsx:540-566 | as written, for two items with sizes, an add-on picked for the first stays selected on the second although it does not offer it, and its price is charged on top of the second's first size |
| Checkout.CheckoutTotals | src/pages/customer/CustomerMenu.tsx:676-681 | subtotal is the sum of unit price × quantity over the cart, tax is 5% of it, total is subtotal + tax |
| Checkout.ToOrderItems | src/pages/customer/CustomerMenu.tsx:711-720 | one order item per cart line, in order, each the frozen copy of its line |
| Checkout.PlaceOrder | src/pages/customer/CustomerMenu.tsx:683-728 | a blank name is refused first, then a phone failing `isValidPhone`, then a table order with a blank table number; otherwise the order carries type "qr" for a table and "counter" otherwise, the table number only for a table, the cart's items and the checkout totals |
| Checkout.PlacedIffValid | src/pages/customer/CustomerMenu.tsx:687-700 | an order is placed exactly when the name is not blank, the phone is valid, and a table order has a non-blank table number |
| Checkout.ItemsAddUpToSubtotal | src/pages/customer/CustomerMenu.tsx:676-720 | the frozen items, quantity × `item_total`, add up to the subtotal |
| Checkout.PlacedOrderIsConsistent | src/pages/customer/CustomerMenu.tsx:676-724 | a placed order's items add up to its subtotal, its tax is 5% of that, and its total is their sum |
| Checkout.OrderTotalsAgreeOnSingleUnits | src/utils/helpers.ts:50-56 | `calculateOrderTotals`, which ignores quantities, gives the checkout's figures when every quantity is 1 |
| Checkout.SizedLinePrice | src/pages/customer/CustomerMenu.tsx:104-109 | base 100 with a size at 150 and an add-on at 20 costs 170 per unit |
| Checkout.TwoLineTotals | src/pages/customer/CustomerMenu.tsx:676-681 | two units at 170 and two at 150 give subtotal 640, tax 32 and total 672 |
| Catalogue.Dedup | src/pages/restaurant/Menu.tsx:49 | the distinct values keep exactly the values of the input, with no repeats |
| Catalogue.DedupPrefix | src/pages/restaurant/Menu.tsx:49 | values added later never reorder the distinct values already seen |
| Catalogue.DedupOfDistinct | src/pages/restaurant/Menu.tsx:49 | a list without repeats is its own set of distinct values |
| Catalogue.Categories | src/pages/restaurant/Menu.tsx:47-50 | "all" first, then each non-empty category in use, once |
| Catalogue.CategoriesGrowAtTheEnd | src/pages/restaurant/Menu.tsx:47-50 | adding items never reorders the chips already shown |
| Catalogue.StaffItems | src/pages/restaurant/Menu.tsx:52-59 | an item is listed exactly when its lower-cased name contains the lower-cased term and its category matches the chip (or the chip is "all"), whatever its availability |
| Catalogue.CustomerItems | src/pages/customer/CustomerMenu.tsx:90-97 | an item is listed exactly when it matches the search and category and is available |
| Catalogue.CustomerSeesAvailableStaffItems | src/pages/customer/CustomerMenu.tsx:90-97 | the customer's list is the staff list with unavailable items removed, in the same order |
| Catalogue.NoFilterListsEverything | src/pages/restaurant/Menu.tsx:52-59 | an empty search with the "all" chip lists every item in order |
| Sorting.SortBy | src/pages/restaurant/Orders.tsx:63-68 | the result is a permutation of the input, ordered by the key |
| Sorting.SortStable | src/pages/restaurant/Orders.tsx:63-68 | elements with equal keys keep their relative order |
| OrderBoard.FilteredOrders | src/pages/restaurant/Orders.tsx:61-68 | the tab's list is a permutation of the orders with the selected status, oldest first |
| OrderBoard.FilteredOrdersExactly | src/pages/restaurant/Orders.tsx:61-68 | an order is in the tab exactly when it is in the list with the selected status |
| OrderBoard.FilteredOrdersStable | src/pages/restaurant/Orders.tsx:63-68 | orders created at the same instant keep their list order |
| OrderBoard.PendingCount | src/pages/restaurant/Orders.tsx:113 | the number of pending orders, never more than the list |
| OrderBoard.PendingCountIsPendingTab | src/pages/restaurant/Orders.tsx:113 | the pending counter equals the length of the pending tab |
| OrderBoard.OfferedActions | src/pages/restaurant/Orders.tsx:258-306 | no buttons for any status other than pending and accepted, and at most two |
| OrderBoard.OfferedIff | src/pages/restaurant/Orders.tsx:258-306 | the board offers a move exactly for pending→accepted, pending→cancelled, accepted→completed and accepted→cancelled |
| OrderBoard.NoWayBack | src/pages/restaurant/Orders.tsx:258-306 | no offered move reaches "pending", leaves a completed or cancelled order, or stays put |
| OrderBoard.PressAction | src/pages/restaurant/Orders.tsx:258-306 | Cancel only selects the order and opens the cancel dialog; Accept and Mark Complete send that order's update to their status at once, a move the relation allows |
| OrderBoard.ConfirmedCancelIsOffered | src/pages/restaurant/Orders.tsx:272-275 | pressing Cancel and confirming the dialog it opens sends that order to "cancelled", a move the relation allows from its status |
| OrderBoard.CancelSelected | src/pages/restaurant/Orders.tsx:508-513 | nothing is sent without a selected order; otherwise the update is that order to "cancelled" |
| OrderBoard.CancelIgnoresReason | src/pages/restaurant/Orders.tsx:508-513 | whatever reason is typed, the same update is sent |
| OrderBoard.StatusBadge | src/pages/restaurant/Orders.tsx:82-91 | the four coloured statuses get their fixed variants, and "neutral" exactly for cancelled and unknown statuses |
| OrderBoard.BadgeAgainstStatusColour | src/pages/restaurant/Orders.tsx:82-91 | the badge agrees with the shared status colour on pending, accepted, completed and rejected, and differs on cancelled |
| OrderBoard.NewPending | src/pages/restaurant/Orders.tsx:43-46 | exactly the snapshot's pending orders whose id is not in the previous list |
| OrderBoard.NothingNewInItself | src/pages/restaurant/Orders.tsx:43-46 | orders whose ids are all on screen contain nothing new |
| OrderBoard.DeliverAsWritten | src/pages/restaurant/Orders.tsx:40-51 | the sound plays when the snapshot outgrows the stored count and holds any pending order (the comparison list is the initial empty one); the stored count becomes the snapshot length |
| OrderBoard.Deliver | src/pages/restaurant/Orders.tsx:40-51 | the sound plays when the snapshot outgrows the stored count and holds a pending order not previously shown; the count and shown list become the snapshot's |
| OrderBoard.CorrectedAlertImpliesWritten | src/pages/restaurant/Orders.tsx:42-50 | every alert of the corrected rule is also raised as written |
| OrderBoard.StaleListRealerts | src/pages/restaurant/Orders.tsx:45 | as written, a pending order already shown sets the sound off again when any other order arrives |
| OrderBoard.OneNewPendingOrder | src/pages/restaurant/Orders.tsx:42-50 | with the shown list remembered, one new pending order is found, alone, and sounds |
| MenuForm.LoadForm | src/pages/restaurant/Menu.tsx:328-339 | the edit dialog shows the item's fields, a missing description, category or image URL as "", missing sizes or add-ons as empty lists, and the price as text |
| MenuForm.AddChoice | src/pages/restaurant/Menu.tsx:399-430 | with both inputs filled, the pair is appended and the inputs are cleared; otherwise nothing changes |
| MenuForm.AddSize | src/pages/restaurant/Menu.tsx:399-410 | only the size list changes, as `AddChoice` says |
| MenuForm.AddAddon | src/pages/restaurant/Menu.tsx:419-430 | only the add-on list changes, as `AddChoice` says |
| MenuForm.RemoveSize | src/pages/restaurant/Menu.tsx:412-417 | only the size list changes; an index in range drops exactly one entry |
| MenuForm.RemoveAddon | src/pages/restaurant/Menu.tsx:432-437 | only the add-on list changes; an index in range drops exactly one entry |
| MenuForm.AddThenRemoveLast | src/pages/restaurant/Menu.tsx:399-417 | adding a filled draft and removing the last entry restores the list |
| MenuForm.RemoveKeepsOthers | src/pages/restaurant/Menu.tsx:412-417 | removing entry i keeps the other entries in their order |
| Wrappers.NonEmpty | src/pages/restaurant/Menu.tsx:374-380 | an empty string or list is sent as absent, any other as it is |
| MenuForm.Submit | src/pages/restaurant/Menu.tsx:354-382 | an empty name or price is refused first, a missing restaurant id next; otherwise the payload carries the name and parsed price, empty optional text and empty lists as absent and any other as typed |
| MenuForm.EditRoundTrip | src/pages/restaurant/Menu.tsx:328-382 | opening a stored item in the edit dialog and saving it unchanged sends back the same item |
| MenuForm.ToggleAvailability | src/pages/restaurant/Menu.tsx:61-63 | the update names the item and carries the negation of its current flag |
| MenuForm.ToggleTwiceRestores | src/pages/restaurant/Menu.tsx:61-63 | switching twice brings the item back |
| Registration.PhoneError | src/pages/public/RegisterPage.tsx:56-60 | a blank phone gets "required"; otherwise there is an error exactly when `isValidPhone` fails |
| Registration.EmailError | src/pages/public/RegisterPage.tsx:62-66 | a blank e-mail gets "required"; otherwise there is an error exactly when `isValidEmail` fails |
| Registration.BlankPhoneInvalid | src/pages/public/RegisterPage.tsx:56-60 | a blank phone would also fail the format check, so the order of the checks decides only the message |
| Registration.BlankEmailInvalid | src/pages/public/RegisterPage.tsx:62-66 | a blank e-mail would also fail the format check |
| Registration.FieldError | src/pages/public/RegisterPage.tsx:46-75 | restaurant name, owner name and city err exactly when blank after trim, restaurant type when empty; phone and e-mail as above; other fields never |
| Registration.FormErrors | src/pages/public/RegisterPage.tsx:46-77 | the error map has an entry, with its message, exactly for the fields that err |
| Registration.ValidateForm | src/pages/public/RegisterPage.tsx:46-78 | true exactly when no field errs |
| Registration.RequestOf | src/pages/public/RegisterPage.tsx:93-107 | restaurant name, owner name and city are the typed text with surrounding whitespace cut; e-mail, address and notes are null exactly when blank and otherwise trimmed likewise; "heard from" is null exactly when empty and otherwise as chosen; the phone is stripped of separators; the type is kept; the status is "pending" |
| Registration.Submit | src/pages/public/RegisterPage.tsx:81-107 | the request is built exactly when the form is acceptable; otherwise the non-empty error map is returned |
| Registration.AcceptedRequestIsWellFormed | src/pages/public/RegisterPage.tsx:81-107 | an accepted request carries a ten-digit mobile number starting 6 to 9, the e-mail exactly as typed, a non-empty restaurant name not starting with whitespace, and non-empty owner and city |
| Registration.Set | src/pages/public/RegisterPage.tsx:136 | the named field takes the value and every other field is unchanged |
| Registration.HandleChange | src/pages/public/RegisterPage.tsx:130-141 | the named field takes the value; its error, if recorded, is cleared; no error is added or removed and no other error changes |
| Registration.HandleChangeTouchesOneField | src/pages/public/RegisterPage.tsx:130-141 | editing one field changes no other field or message |
| AdminRestaurants.FilterRestaurants | src/pages/admin/AllRestaurants.tsx:58-79 | the filtered list is never longer than the list |
| AdminRestaurants.FilterIsOnePass | src/pages/admin/AllRestaurants.tsx:58-79 | the two passes equal one order-preserving filter: term empty or matched in name, owner, phone or city, and status "all" or equal |
| AdminRestaurants.FilterMembership | src/pages/admin/AllRestaurants.tsx:58-79 | a restaurant is listed exactly when it passes both filters |
| AdminRestaurants.ActiveCount | src/pages/admin/AllRestaurants.tsx:138 | the number of restaurants with status "active" |
| AdminRestaurants.ActiveCountIsActiveTab | src/pages/admin/AllRestaurants.tsx:138 | the counter equals the length of the "active" tab with no search |
| AdminRestaurants.StatusBadge | src/pages/admin/AllRestaurants.tsx:91-102 | active, blocked and trial map to success, error and warning, and "neutral" exactly for any other status |
| AdminRestaurants.HandleToggle | src/pages/admin/AllRestaurants.tsx:465-478 | blocking with a blank reason is refused before anything else; otherwise, with a restaurant, the call carries its id, its current "blocked" state as the new active flag, and the reason or null |
| AdminRestaurants.ToggleFlipsActivity | src/services/adminService.ts:177-186 | unblocking always goes through and reactivates; blocking with a reason deactivates and records the reason |
| Reports.Fetched | src/pages/restaurant/Reports.tsx:58-63 | exactly the orders with status completed, ready, preparing or accepted, each from the list |
| Reports.FetchedExcludesUnfinished | src/pages/restaurant/Reports.tsx:63 | pending, cancelled and rejected orders never reach the figures |
| Reports.TotalRevenue | src/pages/restaurant/Reports.tsx:68-69 | no orders give a revenue of 0, and orders with non-negative amounts never a negative revenue |
| Reports.AverageOrderValue | src/pages/restaurant/Reports.tsx:68-71 | 0 with no orders; otherwise average × number of orders equals the revenue |
| Reports.AverageWithinBounds | src/pages/restaurant/Reports.tsx:68-71 | the average lies between the smallest and largest order amount |
| Reports.ItemCounts | src/pages/restaurant/Reports.tsx:74-83 | one entry per item name: a name has an entry exactly when some item line has it, and no name has two |
| Reports.ItemCountsPerName | src/pages/restaurant/Reports.tsx:74-83 | a name's count is the sum of the quantities, and its revenue the sum of `item_total`, over the item lines with that name; a name has an entry exactly when some line has it |
| Reports.ItemCountsGrandTotal | src/pages/restaurant/Reports.tsx:74-83 | across names, the counts add up to all units sold and the revenues to all `item_total` |
| Reports.TopItems | src/pages/restaurant/Reports.tsx:85-88 | min(5, number of names) entries, by non-increasing revenue, taken from the tally without repeating any |
| Reports.TopItemsRanking | src/pages/restaurant/Reports.tsx:85-88 | an entry left out of the top five earned no more than any entry in it |
| Reports.TopItemsTiesInTableOrder | src/pages/restaurant/Reports.tsx:85-88 | the stable sort breaks revenue ties by table order: the top entries with a given revenue are the first such entries of the table, in order |
| Sorting.WithKeyPrefix | src/pages/restaurant/Reports.tsx:85-88 | cutting a sequence to its first n elements keeps, for each key, a leading part of the elements with that key |
| Reports.DailyData | src/pages/restaurant/Reports.tsx:91-102 | one entry per day: a day has an entry exactly when some order falls on it, and no day has two |
| Reports.DailyDataTotals | src/pages/restaurant/Reports.tsx:91-102 | the day entries count every order once and add up to the total revenue |
| Reports.DailyRevenue | src/pages/restaurant/Reports.tsx:104-106 | the last min(14, number of days) day entries, in order |
| Reports.TypeCounts | src/pages/restaurant/Reports.tsx:109-117 | one entry per order type: a type ("unknown" for none) has an entry exactly when some order has it, and no type has two |
| Reports.TypeCountsCoverEveryOrder | src/pages/restaurant/Reports.tsx:109-113 | the type counts add up to the number of orders |
| Reports.UnknownBucket | src/pages/restaurant/Reports.tsx:111 | "unknown" counts the orders without a type (and any typed "unknown"), and exists exactly when there is one |
| Reports.BuildReport | src/pages/restaurant/Reports.tsx:119-126 | the report counts every fetched order and holds at most 5 top items and 14 days |
| Reports.ReportFiguresAgree | src/pages/restaurant/Reports.tsx:68-126 | the type counts add up to the order count, the days before the cut add up to the revenue, and the top items are drawn from the per-item table |
| Tally.TallyPerKey | src/pages/restaurant/Reports.tsx:74-83 | accumulating into an insertion-ordered record gives each key the sums over exactly the elements with that key |
| Tally.TallyGrandTotals | src/pages/restaurant/Reports.tsx:74-83 | the record's totals add up to the sums over all elements |
| Tally.TallyKeySet | src/pages/restaurant/Reports.tsx:74-83 | for every key at once: the record has an entry for it exactly when it occurs |
| Tally.TallyKeys | src/pages/restaurant/Reports.tsx:74-83 | the record has an entry exactly for the keys that occur |
| ReportExport.CsvRows | src/pages/restaurant/Reports.tsx:137-149 | 6 + number of top items rows: the header, the revenue and average rows formatted as currency, the order count row, an empty row, the item header, and one name, count, revenue row per top item |
| ReportExport.Lines | src/pages/restaurant/Reports.tsx:150 | one line per row, its cells joined with "," |
| ReportExport.ExportRoundTrip | src/pages/restaurant/Reports.tsx:137-151 | when no cell holds ',' or a newline, splitting the text on newlines gives 6 + number of top items lines, and splitting each on ',' gives back its row |
| ReportExport.CommaInNameShiftsColumns | src/pages/restaurant/Reports.tsx:144-150 | an item name containing ',' reads back as four cells, not three |
| Text.SplitJoin | src/pages/restaurant/Reports.tsx:150-151 | splitting a join of pieces free of the separator gives back the pieces |
| Text.JoinSplit | src/pages/restaurant/Reports.tsx:150-151 | joining the pieces of a split gives back the text |

## Left out

- Supabase I/O is not modelled: the live subscriptions with their refetches, `createOrder`, the status update, the inserts and the RPCs. Their concerns are ordering and concurrency across the network. The model stops at the values these calls are given.
- Authentication, the browser session in local storage, and password hashing are not modelled. They are foreign calls and browser storage; the session's restaurant id is an `Option` parameter where a guard reads it.
- JavaScript numbers are modelled as exact `real` values: there is no rounding, no `toFixed`, and `parseFloat` and `toString` are parameters.
  - `NaN` from `parseFloat` is not modelled.
  - The `|| 0` fallback on a non-numeric revenue is not modelled.
- `generateOrderNumber`, `formatDateTime`, `formatDate` and `formatTime` are not modelled. They read the clock, `Math.random` and `Intl`.
  - The report's period start and its day bucketing by `toLocaleDateString` are a parameter: `dayOf`.
  - The order's amount (`total_amount`) is also a parameter: `amountOf`.
- `toLowerCase` is modelled on ASCII letters only, with no Unicode case mapping. JavaScript whitespace for `trim` and `\s` is the ECMAScript set, listed character by character.
- `Object.entries` is modelled as first-insertion order. JavaScript lists integer-like keys first, in numeric order; that is not modelled.
- Keys inherited from `Object.prototype`, such as an item named "constructor", are not modelled.
- React object identity is not modelled.
  - `addToCart` mutates the merged line in place through a shallow copy; the model produces a new cart with the same contents.
  - The cart line keeps a copy of the menu item with the unit price; the model stores the item and the unit price side by side.
- Debounce, file download, clipboard, sound playback and the QR canvas are not modelled. They are DOM and timers; the sound is the `alert` flag.
- Presentation-only pages and components are not modelled: the landing page, routing, analytics, dashboards and UI components.
- `generateTempPassword`'s randomness is a parameter: a sequence of draws in [0, 1).
- The CSV export writes cells without quoting, and the model writes them the same way. `ReportExport.CommaInNameShiftsColumns` shows the effect; the round trip is proved for cells without ',' or a newline.
- Reports.BuildReport: does not restate the average relation or the per-item figures for the assembled report; `Reports.AverageOrderValue`, `Reports.ItemCountsPerName` and `Reports.TopItems` state them for the same expressions, and `Reports.ReportFiguresAgree` ties the type counts, daily revenue and top items to the report's totals.
- AdminRestaurants.FilterRestaurants: its own contract states only the length bound. Membership and order are stated by `AdminRestaurants.FilterIsOnePass` and `AdminRestaurants.FilterMembership`.

## Findings

| source | as written | input that shows it | evidently intended | confidence | as-written member | corrected member |
|---|---|---|---|---|---|---|
| src/pages/restaurant/Orders.tsx:45 | the subscription callback looks for "new" pending orders in the `orders` captured when the effect first ran, which is always the initial empty list | a pending order A is shown; then a snapshot [A, B] arrives with B not pending; the list grew, and A is pending and "not in" the empty list, so the sound plays again | sound only for a pending order not already on screen | not executed | OrderBoard.DeliverAsWritten (shown by OrderBoard.StaleListRealerts) | OrderBoard.Deliver (OrderBoard.OneNewPendingOrder, OrderBoard.NothingNewInItself, OrderBoard.CorrectedAlertImpliesWritten) |
| src/pages/customer/CustomerMenu.tsx:540-547 | the customization dialog stays mounted and its effect resets only the size when the item changes, never the add-on selection | for items X and Z that both have sizes (only those open the dialog): pick add-on "Cheese" on X, close, open Z, which has no "Cheese"; the dialog still selects it and "Add to Cart" adds Z with Cheese at Cheese's price | opening the dialog on an item starts from no add-ons | not executed | Customization.OpenAsWritten (shown by Customization.StaleAddonCarriesOver) | Customization.Open (Customization.OpenThenTapsBelongs) |

=== FILE: cart.dfy ===
/** The customer's cart (src/pages/customer/CustomerMenu.tsx): pricing a
    selection, merging an identical selection into an existing line, quantity
    updates and removal, and the derived counts and amounts. */
module CustomerCart {
  import opened Wrappers
  import opened Model
  import opened Seqs
  import opened Helpers

  /** A cart entry: the menu item as it was when added, how many, the chosen size
      and add-ons, and the unit price computed when the line was created. */
  datatype CartLine = CartLine(
    item: MenuItem,
    quantity: int,
    selectedSize: Option<Choice>,
    selectedAddons: seq<Choice>,
    itemTotal: real)

  type Cart = seq<CartLine>

  /** The selected size's price, else the item's base price, plus the sum of the
      selected add-ons' prices. */
  function UnitPrice(item: MenuItem, size: Option<Choice>, addons: seq<Choice>): real {
    (if size.Some? then size.value.price else item.basePrice) + PriceSum(addons)
  }

  /** `selectedSize?.name`. */
  function SizeName(size: Option<Choice>): Option<string> {
    if size.Some? then Some(size.value.name) else None
  }

  /** The size's price as `calculateItemPrice` takes it. */
  function SizePrice(size: Option<Choice>): Option<real> {
    if size.Some? then Some(size.value.price) else None
  }

  /** The source's line identity: same item id, same size name (prices are not
      compared), and add-on lists equal element by element in the same order,
      as `JSON.stringify` compares them. */
  predicate SameSelection(line: CartLine, item: MenuItem, size: Option<Choice>, addons: seq<Choice>) {
    && line.item.id == item.id
    && SizeName(line.selectedSize) == SizeName(size)
    && line.selectedAddons == addons
  }

  /** `cart.findIndex(...)` for the selection: the first matching line, or -1. */
  function FindLine(cart: Cart, item: MenuItem, size: Option<Choice>, addons: seq<Choice>): (i: int)
    ensures -1 <= i < |cart|
    ensures i == -1 <==> forall k | 0 <= k < |cart| :: !SameSelection(cart[k], item, size, addons)
    ensures i >= 0 ==> SameSelection(cart[i], item, size, addons)
    ensures i >= 0 ==> forall k | 0 <= k < i :: !SameSelection(cart[k], item, size, addons)
  {
    if cart == [] then -1
    else if SameSelection(cart[0], item, size, addons) then 0
    else
      var j := FindLine(cart[1..], item, size, addons);
      assert forall k | 1 <= k < |cart| :: cart[k] == cart[1..][k - 1];
      if j == -1 then -1 else j + 1
  }

  /** `addToCart(item, size, addons)`. If a line with the same selection exists,
      the first such line's quantity rises by one and nothing else changes (its
      stored unit price is not recomputed); otherwise a line of quantity one,
      priced by `UnitPrice`, is appended. */
  function AddToCart(cart: Cart, item: MenuItem, size: Option<Choice>, addons: seq<Choice>): (r: Cart)
    ensures (exists k | 0 <= k < |cart| :: SameSelection(cart[k], item, size, addons)) ==>
      && |r| == |cart|
      && var i := FindLine(cart, item, size, addons);
         && r[i] == cart[i].(quantity := cart[i].quantity + 1)
         && forall k | 0 <= k < |cart| && k != i :: r[k] == cart[k]
    ensures (forall k | 0 <= k < |cart| :: !SameSelection(cart[k], item, size, addons)) ==>
      && |r| == |cart| + 1
      && r[..|cart|] == cart
      && r[|cart|] == CartLine(item, 1, size, addons, UnitPrice(item, size, addons))
  {
    var i := FindLine(cart, item, size, addons);
    if i >= 0 then cart[i := cart[i].(quantity := cart[i].quantity + 1)]
    else cart + [CartLine(item, 1, size, addons, UnitPrice(item, size, addons))]
  }

  /** `updateQuantity(index, delta)`: line `index` gets `delta` more; a line whose
      quantity drops to zero or below is removed. The index must name a line (the
      source dereferences it). */
  function UpdateQuantity(cart: Cart, index: nat, delta: int): (r: Cart)
    requires index < |cart|
    ensures cart[index].quantity + delta <= 0 ==> r == RemoveAt(cart, index)
    ensures cart[index].quantity + delta > 0 ==>
      && |r| == |cart|
      && r[index] == cart[index].(quantity := cart[index].quantity + delta)
      && forall k | 0 <= k < |cart| && k != index :: r[k] == cart[k]
  {
    var q := cart[index].quantity + delta;
    if q <= 0 then RemoveAt(cart, index) else cart[index := cart[index].(quantity := q)]
  }

  /** `removeFromCart(index)`: exactly line `index` goes; the rest keep their order. */
  function RemoveFromCart(cart: Cart, index: nat): (r: Cart)
    requires index < |cart|
    ensures |r| == |cart| - 1
    ensures r == cart[..index] + cart[index + 1..]
  {
    RemoveAt(cart, index)
  }

  /** The cart invariant: every line has a positive quantity. */
  predicate AllPositive(cart: Cart) {
    forall k | 0 <= k < |cart| :: cart[k].quantity >= 1
  }

  /** No two lines carry the same selection, so every selection has at most one line. */
  predicate DistinctSelections(cart: Cart) {
    forall j, k | 0 <= j < k < |cart| ::
      !SameSelection(cart[k], cart[j].item, cart[j].selectedSize, cart[j].selectedAddons)
  }

  /** The well-formed carts: the state every cart operation starts from and returns to. */
  predicate ValidCart(cart: Cart) {
    AllPositive(cart) && DistinctSelections(cart)
  }

  lemma AddKeepsValid(cart: Cart, item: MenuItem, size: Option<Choice>, addons: seq<Choice>)
    requires ValidCart(cart)
    ensures ValidCart(AddToCart(cart, item, size, addons))
  {
    var r := AddToCart(cart, item, size, addons);
    if FindLine(cart, item, size, addons) == -1 {
      forall j, k | 0 <= j < k < |r|
        ensures !SameSelection(r[k], r[j].item, r[j].selectedSize, r[j].selectedAddons)
      {
        if k == |cart| {
          assert r[j] == cart[j];
          assert !SameSelection(cart[j], item, size, addons);
        }
      }
    }
  }

  lemma UpdateKeepsValid(cart: Cart, index: nat, delta: int)
    requires index < |cart|
    requires ValidCart(cart)
    ensures ValidCart(UpdateQuantity(cart, index, delta))
  {
  }

  lemma RemoveKeepsValid(cart: Cart, index: nat)
    requires index < |cart|
    requires ValidCart(cart)
    ensures ValidCart(RemoveFromCart(cart, index))
  {
    var r := RemoveFromCart(cart, index);
    forall j, k | 0 <= j < k < |r|
      ensures !SameSelection(r[k], r[j].item, r[j].selectedSize, r[j].selectedAddons)
    {
      var j' := if j < index then j else j + 1;
      var k' := if k < index then k else k + 1;
      assert r[j] == cart[j'] && r[k] == cart[k'] && j' < k';
    }
  }

  function LineQuantity(line: CartLine): int {
    line.quantity
  }

  function LineAmount(line: CartLine): real {
    line.itemTotal * line.quantity as real
  }

  /** `cartCount`: the number of units in the cart. In a well-formed cart every
      line holds at least one unit, so the count is zero only for an empty cart. */
  function CartCount(cart: Cart): (n: int)
    ensures cart == [] ==> n == 0
    ensures AllPositive(cart) ==> n >= |cart|
  {
    UnitsAtLeastLines(cart);
    IntSum(cart, LineQuantity)
  }

  lemma {:induction false} UnitsAtLeastLines(cart: Cart)
    ensures AllPositive(cart) ==> IntSum(cart, LineQuantity) >= |cart|
    decreases |cart|
  {
    if cart != [] {
      var init := cart[..|cart| - 1];
      UnitsAtLeastLines(init);
      assert forall k | 0 <= k < |init| :: init[k] == cart[k];
    }
  }

  /** The amount shown on the cart bar and in the cart and checkout dialogs:
      each line's unit price times its quantity, summed. Nothing is owed for an
      empty cart, and lines with non-negative prices and quantities never owe a
      negative amount. */
  function CartTotal(cart: Cart): (total: real)
    ensures cart == [] ==> total == 0.0
    ensures (forall k | 0 <= k < |cart| :: cart[k].itemTotal >= 0.0 && cart[k].quantity >= 0) ==> total >= 0.0
  {
    LineAmountsNonNegative(cart);
    SumNonNegative(cart, LineAmount);
    Sum(cart, LineAmount)
  }

  lemma LineAmountsNonNegative(cart: Cart)
    ensures (forall k | 0 <= k < |cart| :: cart[k].itemTotal >= 0.0 && cart[k].quantity >= 0) ==>
      forall k | 0 <= k < |cart| :: LineAmount(cart[k]) >= 0.0
  {
  }

  /** Adding a selection adds exactly one unit to the cart. */
  lemma AddCountsOneUnit(cart: Cart, item: MenuItem, size: Option<Choice>, addons: seq<Choice>)
    ensures CartCount(AddToCart(cart, item, size, addons)) == CartCount(cart) + 1
  {
    var i := FindLine(cart, item, size, addons);
    if i >= 0 {
      var line := cart[i].(quantity := cart[i].quantity + 1);
      assert AddToCart(cart, item, size, addons) == cart[i := line];
      IntSumUpdate(cart, i, line, LineQuantity);
    } else {
      var line := CartLine(item, 1, size, addons, UnitPrice(item, size, addons));
      assert AddToCart(cart, item, size, addons) == cart + [line];
      IntSumConcat(cart, [line], LineQuantity);
      IntSumSingleton(line, LineQuantity);
    }
  }

  /** Adding a selection raises the amount by one unit price: the stored one of
      the line it merges into, or the freshly computed one of a new line. */
  lemma AddRaisesTotalByUnitPrice(cart: Cart, item: MenuItem, size: Option<Choice>, addons: seq<Choice>)
    ensures var i := FindLine(cart, item, size, addons);
      CartTotal(AddToCart(cart, item, size, addons))
        == CartTotal(cart) + (if i >= 0 then cart[i].itemTotal else UnitPrice(item, size, addons))
  {
    var i := FindLine(cart, item, size, addons);
    if i >= 0 {
      MergeRaisesTotal(cart, i, AddToCart(cart, item, size, addons));
    } else {
      var line := CartLine(item, 1, size, addons, UnitPrice(item, size, addons));
      AppendRaisesTotal(cart, line, AddToCart(cart, item, size, addons));
    }
  }

  lemma MergeRaisesTotal(cart: Cart, i: nat, r: Cart)
    requires i < |cart|
    requires r == cart[i := cart[i].(quantity := cart[i].quantity + 1)]
    ensures CartTotal(r) == CartTotal(cart) + cart[i].itemTotal
  {
    SumUpdate(cart, i, r[i], LineAmount);
    OneMoreUnit(cart[i]);
  }

  lemma AppendRaisesTotal(cart: Cart, line: CartLine, r: Cart)
    requires line.quantity == 1
    requires r == cart + [line]
    ensures CartTotal(r) == CartTotal(cart) + line.itemTotal
  {
    SumConcat(cart, [line], LineAmount);
    SumSingleton(line, LineAmount);
  }

  /** One more unit of a line costs one more unit price. */
  lemma OneMoreUnit(line: CartLine)
    ensures LineAmount(line.(quantity := line.quantity + 1)) == LineAmount(line) + line.itemTotal
  {
    var q := line.quantity as real;
    assert (line.quantity + 1) as real == q + 1.0;
    assert line.itemTotal * (q + 1.0) == line.itemTotal * q + line.itemTotal;
  }

  /** The selection's line in the cart, if any. */
  function QuantityOfSelection(cart: Cart, item: MenuItem, size: Option<Choice>, addons: seq<Choice>): int {
    var i := FindLine(cart, item, size, addons);
    if i >= 0 then cart[i].quantity else 0
  }

  /** Adding the same selection `n` times, starting from a cart without it,
      leaves exactly one line for it, of quantity `n`, after the original lines. */
  lemma {:induction false} RepeatedAddsMerge(cart: Cart, item: MenuItem, size: Option<Choice>,
                                              addons: seq<Choice>, n: nat)
    requires n >= 1
    requires FindLine(cart, item, size, addons) == -1
    ensures var r := AddRepeatedly(cart, item, size, addons, n);
      && |r| == |cart| + 1
      && r[..|cart|] == cart
      && FindLine(r, item, size, addons) == |cart|
      && r[|cart|].quantity == n
    decreases n
  {
    var r := AddRepeatedly(cart, item, size, addons, n);
    if n > 1 {
      var prev := AddRepeatedly(cart, item, size, addons, n - 1);
      RepeatedAddsMerge(cart, item, size, addons, n - 1);
      assert r == prev[|cart| := prev[|cart|].(quantity := prev[|cart|].quantity + 1)];
      assert r[..|cart|] == prev[..|cart|];
    } else {
      assert r == cart + [CartLine(item, 1, size, addons, UnitPrice(item, size, addons))];
    }
    FirstMatchAfter(r, cart, item, size, addons);
  }

  /** A selection that matches no line of a prefix `cart` but matches the line
      right after it is found there. */
  lemma FirstMatchAfter(r: Cart, cart: Cart, item: MenuItem, size: Option<Choice>, addons: seq<Choice>)
    requires |cart| < |r| && r[..|cart|] == cart
    requires FindLine(cart, item, size, addons) == -1
    requires SameSelection(r[|cart|], item, size, addons)
    ensures FindLine(r, item, size, addons) == |cart|
  {
    var i := FindLine(r, item, size, addons);
    assert forall k | 0 <= k < |cart| :: !SameSelection(r[k], item, size, addons) by {
      forall k | 0 <= k < |cart| ensures !SameSelection(r[k], item, size, addons) {
        assert r[k] == cart[k];
      }
    }
    assert i != -1;
    assert i <= |cart|;
  }

  /** `n` consecutive `addToCart` calls with the same selection. */
  function AddRepeatedly(cart: Cart, item: MenuItem, size: Option<Choice>, addons: seq<Choice>, n: nat): Cart
    decreases n
  {
    if n == 0 then cart else AddToCart(AddRepeatedly(cart, item, size, addons, n - 1), item, size, addons)
  }

  /** `getItemQuantity(itemId)`'s summand: a line's quantity when it is for `itemId`. */
  function QuantityFor(itemId: string): CartLine -> int {
    (line: CartLine) => if line.item.id == itemId then line.quantity else 0
  }

  /** `getItemQuantity(itemId)`: units of that menu item over all its lines,
      whatever their sizes and add-ons. */
  function GetItemQuantity(cart: Cart, itemId: string): (n: int)
    ensures AllPositive(cart) ==> 0 <= n <= CartCount(cart)
  {
    ItemUnitsWithinCount(cart, itemId);
    IntSum(cart, QuantityFor(itemId))
  }

  /** One item's units are some of the cart's units. */
  lemma {:induction false} ItemUnitsWithinCount(cart: Cart, itemId: string)
    ensures AllPositive(cart) ==> 0 <= IntSum(cart, QuantityFor(itemId)) <= IntSum(cart, LineQuantity)
    decreases |cart|
  {
    if cart != [] {
      var init := cart[..|cart| - 1];
      ItemUnitsWithinCount(init, itemId);
      assert forall k | 0 <= k < |init| :: init[k] == cart[k];
    }
  }

  /** The first line for `itemId`, or -1: `cart.findIndex(ci => ci.id === itemId)`. */
  function FindItem(cart: Cart, itemId: string): (i: int)
    ensures -1 <= i < |cart|
    ensures i == -1 <==> forall k | 0 <= k < |cart| :: cart[k].item.id != itemId
    ensures i >= 0 ==> cart[i].item.id == itemId
    ensures i >= 0 ==> forall k | 0 <= k < i :: cart[k].item.id != itemId
  {
    if cart == [] then -1
    else if cart[0].item.id == itemId then 0
    else
      var j := FindItem(cart[1..], itemId);
      assert forall k | 1 <= k < |cart| :: cart[k] == cart[1..][k - 1];
      if j == -1 then -1 else j + 1
  }

  /** `handleRemoveItem(itemId)`: one unit less on the first line for that item. */
  function HandleRemoveItem(cart: Cart, itemId: string): (r: Cart)
    ensures FindItem(cart, itemId) == -1 ==> r == cart
  {
    var i := FindItem(cart, itemId);
    if i >= 0 then UpdateQuantity(cart, i, -1) else cart
  }

  /** The minus button on a menu card takes exactly one unit of that item out of
      the cart (when there is one), and keeps the cart well formed. */
  lemma HandleRemoveItemTakesOneUnit(cart: Cart, itemId: string)
    requires ValidCart(cart)
    requires FindItem(cart, itemId) >= 0
    ensures GetItemQuantity(HandleRemoveItem(cart, itemId), itemId) == GetItemQuantity(cart, itemId) - 1
    ensures CartCount(HandleRemoveItem(cart, itemId)) == CartCount(cart) - 1
    ensures ValidCart(HandleRemoveItem(cart, itemId))
  {
    var i := FindItem(cart, itemId);
    UpdateKeepsValid(cart, i, -1);
    assert HandleRemoveItem(cart, itemId) == UpdateQuantity(cart, i, -1);
    OneUnitLess(cart, i, QuantityFor(itemId));
    OneUnitLess(cart, i, LineQuantity);
  }

  /** Taking one unit off line `i` lowers any per-line quantity sum that counts
      that line's quantity in full by one. */
  lemma OneUnitLess(cart: Cart, i: nat, f: CartLine -> int)
    requires i < |cart| && cart[i].quantity >= 1
    requires forall line: CartLine :: line.item == cart[i].item ==> f(line) == line.quantity
    ensures IntSum(UpdateQuantity(cart, i, -1), f) == IntSum(cart, f) - 1
  {
    if cart[i].quantity == 1 {
      assert UpdateQuantity(cart, i, -1) == RemoveAt(cart, i);
      assert f(cart[i]) == 1;
      IntSumRemoveAt(cart, i, f);
    } else {
      var line := cart[i].(quantity := cart[i].quantity - 1);
      assert UpdateQuantity(cart, i, -1) == cart[i := line];
      assert f(line) == f(cart[i]) - 1;
      IntSumUpdate(cart, i, line, f);
    }
  }

  /** In a well-formed cart, the quantity badge on a menu card is zero exactly
      when no line is for that item. */
  lemma {:induction false} ItemQuantityZeroIffAbsent(cart: Cart, itemId: string)
    requires AllPositive(cart)
    ensures GetItemQuantity(cart, itemId) == 0 <==> FindItem(cart, itemId) == -1
    ensures GetItemQuantity(cart, itemId) >= 0
    decreases |cart|
  {
    if cart != [] {
      var init := cart[..|cart| - 1];
      ItemQuantityZeroIffAbsent(init, itemId);
      assert forall k | 0 <= k < |init| :: init[k] == cart[k];
    }
  }

  /** A line's stored unit price is what `calculateItemPrice` gives for the same
      selection. */
  lemma UnitPriceIsCalculateItemPrice(item: MenuItem, size: Option<Choice>, addons: seq<Choice>)
    ensures UnitPrice(item, size, addons)
      == CalculateItemPrice(item.basePrice, SizePrice(size), Some(addons))
  {
  }
}

=== FILE: catalogue.dfy ===
/** The menu lists: the category chips and the search/category filter, shared by
    the staff menu screen (src/pages/restaurant/Menu.tsx) and the customer menu
    (src/pages/customer/CustomerMenu.tsx), which also hides unavailable items. */
module Catalogue {
  import opened Wrappers
  import opened Model
  import opened Seqs
  import opened Text

  /** The first occurrence of each value, in order of first appearance: what
      spreading a `Set` built from `s` yields. */
  function Dedup(s: seq<string>): (r: seq<string>)
    ensures forall x :: x in r <==> x in s
    ensures forall i, j | 0 <= i < j < |r| :: r[i] != r[j]
    decreases |s|
  {
    if s == [] then []
    else
      var d := Dedup(s[..|s| - 1]);
      var last := s[|s| - 1];
      assert s == s[..|s| - 1] + [last];
      if last in d then d else d + [last]
  }

  /** Later values never reorder the ones already seen: the distinct values of
      a prefix are a prefix of the distinct values of the whole. */
  lemma {:induction false} DedupPrefix(a: seq<string>, b: seq<string>)
    ensures |Dedup(a)| <= |Dedup(a + b)|
    ensures Dedup(a + b)[..|Dedup(a)|] == Dedup(a)
    decreases |b|
  {
    if b == [] {
      assert a + b == a;
    } else {
      var b' := b[..|b| - 1];
      assert (a + b)[..|a + b| - 1] == a + b';
      DedupPrefix(a, b');
    }
  }

  /** A list without repeats is its own set of distinct values. */
  lemma {:induction false} DedupOfDistinct(s: seq<string>)
    requires forall i, j | 0 <= i < j < |s| :: s[i] != s[j]
    ensures Dedup(s) == s
    decreases |s|
  {
    if s != [] {
      var init := s[..|s| - 1];
      DedupOfDistinct(init);
      assert s[|s| - 1] !in init;
      assert init + [s[|s| - 1]] == s;
    }
  }

  /** `items.map(i => i.category).filter(Boolean)`: the categories that are set
      and non-empty, one per item, in item order. */
  function CategoryValues(items: seq<MenuItem>): (r: seq<string>)
    ensures forall c :: c in r <==> c != [] && exists k | 0 <= k < |items| :: items[k].category == Some(c)
    decreases |items|
  {
    if items == [] then []
    else
      var init := items[..|items| - 1];
      var rest := CategoryValues(init);
      var last := items[|items| - 1];
      assert forall k | 0 <= k < |init| :: init[k] == items[k];
      if last.category.Some? && last.category.value != [] then rest + [last.category.value] else rest
  }

  /** `categories`: "all", then each category in use, once, in order of first
      appearance. */
  function Categories(items: seq<MenuItem>): (r: seq<string>)
    ensures |r| >= 1 && r[0] == "all"
    ensures forall c :: c in r[1..] <==> c != [] && exists k | 0 <= k < |items| :: items[k].category == Some(c)
    ensures forall i, j | 1 <= i < j < |r| :: r[i] != r[j]
  {
    var d := Dedup(CategoryValues(items));
    assert (["all"] + d)[1..] == d;
    ["all"] + d
  }

  /** Adding items to the menu never reorders the category chips already shown. */
  lemma CategoriesGrowAtTheEnd(items: seq<MenuItem>, more: seq<MenuItem>)
    ensures |Categories(items)| <= |Categories(items + more)|
    ensures Categories(items + more)[..|Categories(items)|] == Categories(items)
  {
    CategoryValuesConcat(items, more);
    DedupPrefix(CategoryValues(items), CategoryValues(more));
    var d := Dedup(CategoryValues(items));
    var e := Dedup(CategoryValues(items + more));
    assert (["all"] + e)[..1 + |d|] == ["all"] + e[..|d|];
  }

  lemma {:induction false} CategoryValuesConcat(a: seq<MenuItem>, b: seq<MenuItem>)
    ensures CategoryValues(a + b) == CategoryValues(a) + CategoryValues(b)
    decreases |b|
  {
    if b == [] {
      assert a + b == a;
    } else {
      var b' := b[..|b| - 1];
      assert (a + b)[..|a + b| - 1] == a + b';
      CategoryValuesConcat(a, b');
    }
  }

  /** The lower-cased name contains the lower-cased search term. */
  predicate MatchesSearch(item: MenuItem, term: string) {
    Contains(ToLower(item.name), ToLower(term))
  }

  /** The "all" chip, or the item's category is the chosen one. */
  predicate MatchesCategory(item: MenuItem, categoryFilter: string) {
    categoryFilter == "all" || item.category == Some(categoryFilter)
  }

  function StaffMatch(term: string, categoryFilter: string): MenuItem -> bool {
    (item: MenuItem) => MatchesSearch(item, term) && MatchesCategory(item, categoryFilter)
  }

  function CustomerMatch(term: string, categoryFilter: string): MenuItem -> bool {
    (item: MenuItem) => MatchesSearch(item, term) && MatchesCategory(item, categoryFilter) && item.isAvailable
  }

  /** The staff screen's `filteredItems`: search and category only, so
      unavailable items stay listed. */
  function StaffItems(items: seq<MenuItem>, term: string, categoryFilter: string): (r: seq<MenuItem>)
    ensures forall k | 0 <= k < |r| ::
      r[k] in items && MatchesSearch(r[k], term) && MatchesCategory(r[k], categoryFilter)
    ensures forall k | 0 <= k < |items| ::
      MatchesSearch(items[k], term) && MatchesCategory(items[k], categoryFilter) ==> items[k] in r
  {
    var r := Filter(items, StaffMatch(term, categoryFilter));
    assert forall k | 0 <= k < |r| :: StaffMatch(term, categoryFilter)(r[k]);
    assert forall k | 0 <= k < |items| :: StaffMatch(term, categoryFilter)(items[k]) ==> items[k] in r;
    r
  }

  /** The customer menu's `filteredItems`: the same search and category, and
      only items that are available. */
  function CustomerItems(items: seq<MenuItem>, term: string, categoryFilter: string): (r: seq<MenuItem>)
    ensures forall k | 0 <= k < |r| :: r[k] in items && r[k].isAvailable
    ensures forall k | 0 <= k < |items| ::
      (MatchesSearch(items[k], term) && MatchesCategory(items[k], categoryFilter) && items[k].isAvailable)
      ==> items[k] in r
  {
    var r := Filter(items, CustomerMatch(term, categoryFilter));
    assert forall k | 0 <= k < |r| :: CustomerMatch(term, categoryFilter)(r[k]);
    assert forall k | 0 <= k < |items| :: CustomerMatch(term, categoryFilter)(items[k]) ==> items[k] in r;
    r
  }

  function Available(): MenuItem -> bool {
    (item: MenuItem) => item.isAvailable
  }

  /** The customer sees exactly the staff list with unavailable items removed,
      in the same order. */
  lemma {:induction false} CustomerSeesAvailableStaffItems(items: seq<MenuItem>, term: string, categoryFilter: string)
    ensures CustomerItems(items, term, categoryFilter)
         == Filter(StaffItems(items, term, categoryFilter), Available())
    decreases |items|
  {
    if items != [] {
      var init := items[..|items| - 1];
      CustomerSeesAvailableStaffItems(init, term, categoryFilter);
      var last := items[|items| - 1];
      if StaffMatch(term, categoryFilter)(last) {
        FilterConcat(Filter(init, StaffMatch(term, categoryFilter)), [last], Available());
        assert Filter([last], Available()) == (if last.isAvailable then [last] else []) by {
          assert [last][..0] == [];
        }
      }
    }
  }

  /** With an empty search and the "all" chip, the staff screen lists every item. */
  lemma {:induction false} NoFilterListsEverything(items: seq<MenuItem>)
    ensures StaffItems(items, "", "all") == items
    decreases |items|
  {
    if items != [] {
      var init := items[..|items| - 1];
      NoFilterListsEverything(init);
      ContainsEmpty(ToLower(items[|items| - 1].name));
      assert ToLower("") == "";
      assert init + [items[|items| - 1]] == items;
    }
  }
}

=== FILE: checkout.dfy ===
/** The checkout dialog of src/pages/customer/CustomerMenu.tsx: the amounts it
    shows, the checks made before an order is placed, and the order row it
    builds from the cart. */
module Checkout {
  import opened Wrappers
  import opened Model
  import opened Seqs
  import opened Text
  import opened Config
  import opened Helpers
  import Validation
  import opened CustomerCart

  /** Where the customer eats: at a table (a QR order) or away (a counter order). */
  datatype Seating = AtTable | Takeaway

  /** The dialog's inputs, exactly as typed. */
  datatype CheckoutForm = CheckoutForm(
    customerName: string,
    customerPhone: string,
    seating: Seating,
    tableNumber: string,
    notes: string)

  /** Why an order is refused, in the order the checks are made. */
  datatype CheckoutError = NameRequired | InvalidPhone | TableNumberRequired

  function ErrorMessage(e: CheckoutError): string {
    match e
    case NameRequired => "Please enter your name"
    case InvalidPhone => "Please enter a valid 10-digit phone number"
    case TableNumberRequired => "Please enter table number"
  }

  /** The order handed to `createOrder`. The name, phone, table number and notes
      are sent as typed (untrimmed). */
  datatype NewOrder = NewOrder(
    restaurantId: string,
    orderType: string,
    tableNumber: Option<string>,
    customerName: string,
    customerPhone: string,
    items: seq<OrderItem>,
    totals: Totals,
    customerNotes: string)

  /** The dialog's amounts: the cart amount as subtotal, 5% of it as tax, and
      their sum. */
  function CheckoutTotals(cart: Cart): (t: Totals)
    ensures t.subtotal == Sum(cart, LineAmount)
    ensures t.tax == t.subtotal * TaxRate
    ensures t.total == t.subtotal + t.tax && t.total == t.subtotal * 1.05
  {
    var subtotal := CartTotal(cart);
    var tax := subtotal * 0.05;
    Totals(subtotal, tax, subtotal + tax)
  }

  /** A cart line frozen into an order item: the item's id, name and base price,
      the line's quantity, size, add-ons and unit price, no instructions. */
  function ToOrderItem(line: CartLine): OrderItem {
    OrderItem(line.item.id, line.item.name, line.quantity, line.item.basePrice,
              line.selectedSize, Some(line.selectedAddons), line.itemTotal, None)
  }

  function ToOrderItems(cart: Cart): (items: seq<OrderItem>)
    ensures |items| == |cart|
    ensures forall k | 0 <= k < |cart| :: items[k] == ToOrderItem(cart[k])
  {
    seq(|cart|, k requires 0 <= k < |cart| => ToOrderItem(cart[k]))
  }

  /** `handleSubmit`: the first failing check refuses the order; otherwise the
      order row. */
  function PlaceOrder(form: CheckoutForm, cart: Cart, restaurantId: string): (r: Result<NewOrder, CheckoutError>)
    ensures r == Failure(NameRequired) <==> IsBlank(form.customerName)
    ensures r == Failure(InvalidPhone) <==>
      !IsBlank(form.customerName) && !Validation.IsValidPhone(form.customerPhone)
    ensures r == Failure(TableNumberRequired) <==>
      && !IsBlank(form.customerName) && Validation.IsValidPhone(form.customerPhone)
      && form.seating == AtTable && IsBlank(form.tableNumber)
    ensures r.Success? ==>
      && r.value.restaurantId == restaurantId
      && r.value.customerName == form.customerName
      && r.value.customerPhone == form.customerPhone
      && r.value.customerNotes == form.notes
      && r.value.orderType == (if form.seating == AtTable then "qr" else "counter")
      && r.value.tableNumber == (if form.seating == AtTable then Some(form.tableNumber) else None)
      && r.value.items == ToOrderItems(cart)
      && r.value.totals == CheckoutTotals(cart)
  {
    TrimEmptyIffBlank(form.customerName);
    TrimEmptyIffBlank(form.tableNumber);
    if Trim(form.customerName) == [] then Failure(NameRequired)
    else if !Validation.IsValidPhone(form.customerPhone) then Failure(InvalidPhone)
    else if form.seating == AtTable && Trim(form.tableNumber) == [] then Failure(TableNumberRequired)
    else
      Success(NewOrder(
        restaurantId,
        if form.seating == AtTable then "qr" else "counter",
        if form.seating == AtTable then Some(form.tableNumber) else None,
        form.customerName,
        form.customerPhone,
        ToOrderItems(cart),
        CheckoutTotals(cart),
        form.notes))
  }

  /** An order is placed exactly when all three checks pass. */
  lemma PlacedIffValid(form: CheckoutForm, cart: Cart, restaurantId: string)
    ensures PlaceOrder(form, cart, restaurantId).Success? <==>
      && !IsBlank(form.customerName)
      && Validation.IsValidPhone(form.customerPhone)
      && (form.seating == AtTable ==> !IsBlank(form.tableNumber))
  {
  }

  /** An order item's share of the order: unit price times quantity. */
  function ItemAmount(item: OrderItem): real {
    item.itemTotal * item.quantity as real
  }

  /** The frozen items carry the same amount the subtotal was computed from. */
  lemma {:induction false} ItemsAddUpToSubtotal(cart: Cart)
    ensures Sum(ToOrderItems(cart), ItemAmount) == CheckoutTotals(cart).subtotal
    decreases |cart|
  {
    if cart != [] {
      var init := cart[..|cart| - 1];
      ItemsAddUpToSubtotal(init);
      assert ToOrderItems(cart)[..|cart| - 1] == ToOrderItems(init);
    }
  }

  /** The placed order's items add up, quantity times unit price, to its
      subtotal, and its total is 105% of that. */
  lemma PlacedOrderIsConsistent(form: CheckoutForm, cart: Cart, restaurantId: string)
    requires PlaceOrder(form, cart, restaurantId).Success?
    ensures var o := PlaceOrder(form, cart, restaurantId).value;
      && Sum(o.items, ItemAmount) == o.totals.subtotal
      && o.totals.total == o.totals.subtotal * 1.05
      && |o.items| == |cart|
      && forall k | 0 <= k < |cart| ::
           o.items[k].quantity == cart[k].quantity && o.items[k].itemTotal == cart[k].itemTotal
  {
    ItemsAddUpToSubtotal(cart);
  }

  /** `calculateOrderTotals`, which ignores quantities, agrees with the checkout
      amounts whenever every line has quantity one. */
  lemma {:induction false} OrderTotalsAgreeOnSingleUnits(cart: Cart)
    requires forall k | 0 <= k < |cart| :: cart[k].quantity == 1
    ensures CalculateOrderTotals(ToOrderItems(cart)) == CheckoutTotals(cart)
    decreases |cart|
  {
    if cart != [] {
      var init := cart[..|cart| - 1];
      OrderTotalsAgreeOnSingleUnits(init);
      assert ToOrderItems(cart)[..|cart| - 1] == ToOrderItems(init);
      assert CalculateOrderTotals(ToOrderItems(init)).subtotal == CheckoutTotals(init).subtotal;
    }
  }

  /** A size priced 150 with one add-on priced 20 on an item of base price 100
      costs 170 a unit. */
  lemma SizedLinePrice(item: MenuItem, large: Choice, cheese: Choice)
    requires item.basePrice == 100.0 && large.price == 150.0 && cheese.price == 20.0
    ensures UnitPrice(item, Some(large), [cheese]) == 170.0
  {
    assert [cheese][..0] == [];
    assert PriceSum([cheese]) == 20.0;
  }

  /** Two units at 170 and two at 150 make a subtotal of 640, tax 32, total 672. */
  lemma TwoLineTotals(a: CartLine, b: CartLine)
    requires a.itemTotal == 170.0 && a.quantity == 2
    requires b.itemTotal == 150.0 && b.quantity == 2
    ensures CheckoutTotals([a, b]) == Totals(640.0, 32.0, 672.0)
  {
    assert [a, b][..1] == [a];
    SumSingleton(a, LineAmount);
    assert LineAmount(a) == 340.0 && LineAmount(b) == 300.0;
    assert CartTotal([a, b]) == Sum([a], LineAmount) + LineAmount(b);
  }
}

=== FILE: config.dfy ===
/** Application constants (src/config/config.ts). */
module Config {
  import opened Wrappers

  /** GST rate applied to every order subtotal: 5%. */
  const TaxRate: real := 0.05

  /** Symbol prefixed to every formatted amount. */
  const Currency: string := "₹"

  /** Alphabet of generated temporary passwords: upper-case letters and digits
      without the look-alikes I, O, 0 and 1. */
  const TempPasswordChars: string := "ABCDEFGHJKLMNPQRSTUVWXYZ23456789"

  /** Number of characters in a generated temporary password. */
  const TempPasswordLength: nat := 8

  /** Order statuses the configuration knows, in declaration order. */
  const OrderStatuses: seq<string> :=
    ["pending", "accepted", "preparing", "ready", "completed", "cancelled", "rejected"]

  /** The `color` entry of `orderStatuses[status]`, absent for an unknown status. */
  function OrderStatusColor(status: string): Option<string> {
    match status
    case "pending" => Some("warning")
    case "accepted" => Some("accent-secondary")
    case "preparing" => Some("accent-secondary")
    case "ready" => Some("success")
    case "completed" => Some("success")
    case "cancelled" => Some("error")
    case "rejected" => Some("error")
    case _ => None
  }
}

=== FILE: customization.dfy ===
/** The item customization dialog of src/pages/customer/CustomerMenu.tsx: which
    items open it, the size and add-on selection it keeps between openings, the
    price it shows, and what its "Add to Cart" button adds. */
module Customization {
  import opened Wrappers
  import opened Model
  import opened Seqs
  import opened CustomerCart
  import Helpers

  /** The item's sizes, a missing list read as empty. */
  function SizesOf(item: MenuItem): seq<Choice> {
    if item.sizes.Some? then item.sizes.value else []
  }

  /** The item's add-ons, a missing list read as empty. */
  function AddonsOf(item: MenuItem): seq<Choice> {
    if item.addons.Some? then item.addons.value else []
  }

  /** The dialog's state. The dialog stays mounted between openings, so its
      selection outlives the item it was made for. */
  datatype Dialog = Dialog(item: Option<MenuItem>, size: Option<Choice>, addons: seq<Choice>)

  const Closed := Dialog(None, None, [])

  /** What a tap on a menu card does. */
  datatype Click = OpenDialog(item: MenuItem) | AddedDirectly(cart: Cart)

  /** `handleItemClick(item)`: an item with at least one size opens the dialog;
      any other item goes straight into the cart with no size and no add-ons. */
  function HandleItemClick(cart: Cart, item: MenuItem): (c: Click)
    ensures c.OpenDialog? <==> |SizesOf(item)| > 0
    ensures c.OpenDialog? ==> c.item == item
    ensures c.AddedDirectly? ==> c.cart == AddToCart(cart, item, None, [])
  {
    if item.sizes.Some? && |item.sizes.value| > 0 then OpenDialog(item)
    else AddedDirectly(AddToCart(cart, item, None, []))
  }

  /** A tap on an item without sizes never reaches the dialog, so whatever
      add-ons the item offers, the cart line it lands in has none selected and a
      new line is priced at the bare base price. */
  lemma {:induction false} NoSizesNoAddons(cart: Cart, item: MenuItem)
    requires |SizesOf(item)| == 0
    ensures var c := HandleItemClick(cart, item);
      && c.AddedDirectly?
      && CartCount(c.cart) == CartCount(cart) + 1
      && var i := FindLine(c.cart, item, None, []);
         && 0 <= i < |c.cart|
         && c.cart[i].selectedAddons == [] && c.cart[i].selectedSize.None?
         && (FindLine(cart, item, None, []) == -1 ==> c.cart[i].itemTotal == item.basePrice)
  {
    var r := AddToCart(cart, item, None, []);
    AddCountsOneUnit(cart, item, None, []);
    var i := FindLine(cart, item, None, []);
    if i >= 0 {
      assert SameSelection(r[i], item, None, []);
    } else {
      assert SameSelection(r[|cart|], item, None, []);
      assert FindLine(r, item, None, []) == |cart| by {
        assert forall k | 0 <= k < |cart| :: r[k] == cart[k];
      }
    }
  }

  /** An add-on with this name is selected. */
  predicate Selected(addons: seq<Choice>, name: string) {
    exists k | 0 <= k < |addons| :: addons[k].name == name
  }

  function OtherName(name: string): Choice -> bool {
    (a: Choice) => a.name != name
  }

  /** `toggleAddon(addon)`: a selected name is deselected (every add-on of that
      name goes), an unselected one is appended. */
  function ToggleAddon(addons: seq<Choice>, addon: Choice): (r: seq<Choice>)
    ensures Selected(r, addon.name) <==> !Selected(addons, addon.name)
    ensures forall name :: name != addon.name ==> (Selected(r, name) <==> Selected(addons, name))
    ensures !Selected(addons, addon.name) ==> r == addons + [addon]
    ensures Selected(addons, addon.name) ==> r == Filter(addons, OtherName(addon.name))
  {
    if Selected(addons, addon.name) then
      var r := Filter(addons, OtherName(addon.name));
      assert forall name :: name != addon.name ==> (Selected(r, name) <==> Selected(addons, name)) by {
        forall name | name != addon.name
          ensures Selected(r, name) <==> Selected(addons, name)
        {
          if Selected(addons, name) {
            var k :| 0 <= k < |addons| && addons[k].name == name;
            assert addons[k] in r;
          }
        }
      }
      r
    else
      var r := addons + [addon];
      assert r[|addons|] == addon;
      assert forall k | 0 <= k < |addons| :: r[k] == addons[k];
      r
  }

  /** Toggling an unselected add-on twice restores the selection. */
  lemma ToggleTwiceRestores(addons: seq<Choice>, addon: Choice)
    requires !Selected(addons, addon.name)
    ensures ToggleAddon(ToggleAddon(addons, addon), addon) == addons
  {
    var once := addons + [addon];
    assert Filter(once, OtherName(addon.name)) == addons by {
      FilterConcat(addons, [addon], OtherName(addon.name));
      assert Filter([addon], OtherName(addon.name)) == [] by {
        assert [addon][..0] == [];
      }
      FilterKeepsAll(addons, OtherName(addon.name));
    }
  }

  /** `calculateTotal()`: the price the dialog shows. It is what the shared
      `calculateItemPrice` gives for the same selection, and the unit price the
      cart line gets when the selection is added. */
  function DialogTotal(d: Dialog): (total: real)
    requires d.item.Some?
    ensures total == Helpers.CalculateItemPrice(d.item.value.basePrice, SizePrice(d.size), Some(d.addons))
    ensures total == UnitPrice(d.item.value, d.size, d.addons)
  {
    (if d.size.Some? then d.size.value.price else d.item.value.basePrice) + PriceSum(d.addons)
  }

  function SameName(name: string): Choice -> bool {
    (a: Choice) => a.name == name
  }

  /** Splitting a selection by one name splits its price. */
  lemma {:induction false} PriceSumSplit(s: seq<Choice>, name: string)
    ensures PriceSum(s) == PriceSum(Filter(s, OtherName(name))) + PriceSum(Filter(s, SameName(name)))
    decreases |s|
  {
    if s != [] {
      var init, last := s[..|s| - 1], s[|s| - 1];
      PriceSumSplit(init, name);
      var others, same := Filter(init, OtherName(name)), Filter(init, SameName(name));
      SinglePrice(last);
      if last.name == name {
        PriceSumConcat(same, [last]);
      } else {
        PriceSumConcat(others, [last]);
      }
    }
  }

  /** Tapping an add-on moves the shown price by exactly that add-on: up by its
      price when it was not selected, down by the price of every selected entry
      with its name when it was. The size and base price do not move. */
  lemma TapMovesTotal(d: Dialog, k: nat)
    requires d.item.Some?
    requires k < |AddonsOf(d.item.value)|
    ensures var a := AddonsOf(d.item.value)[k];
      && (!Selected(d.addons, a.name) ==> DialogTotal(Tap(d, k)) == DialogTotal(d) + a.price)
      && (Selected(d.addons, a.name) ==>
            DialogTotal(Tap(d, k)) == DialogTotal(d) - PriceSum(Filter(d.addons, SameName(a.name))))
  {
    var a := AddonsOf(d.item.value)[k];
    if Selected(d.addons, a.name) {
      PriceSumSplit(d.addons, a.name);
    } else {
      PriceSumConcat(d.addons, [a]);
      SinglePrice(a);
    }
  }

  /** The "Add to Cart" button: `addToCart(item, selectedSize, selectedAddons)`. */
  function ConfirmDialog(cart: Cart, d: Dialog): (r: Cart)
    requires d.item.Some?
    ensures |r| == |cart| || |r| == |cart| + 1
    ensures |r| == |cart| + 1 ==> r[|cart|].itemTotal == DialogTotal(d)
    ensures CartCount(r) == CartCount(cart) + 1
  {
    AddCountsOneUnit(cart, d.item.value, d.size, d.addons);
    AddToCart(cart, d.item.value, d.size, d.addons)
  }

  /** Opening the dialog on `item`, as written: the effect keyed on the item
      selects the first size when the item changes and has sizes; the add-on
      selection is never cleared. */
  function OpenAsWritten(d: Dialog, item: MenuItem): (r: Dialog)
    ensures r.item == Some(item)
    ensures r.addons == d.addons
    ensures d.item != Some(item) && |SizesOf(item)| > 0 ==> r.size == Some(SizesOf(item)[0])
    ensures !(d.item != Some(item) && |SizesOf(item)| > 0) ==> r.size == d.size
  {
    if d.item != Some(item) && item.sizes.Some? && |item.sizes.value| > 0 then
      Dialog(Some(item), Some(item.sizes.value[0]), d.addons)
    else
      Dialog(Some(item), d.size, d.addons)
  }

  /** Opening the dialog on `item` with the selection reset: the first size (if
      any) and no add-ons. */
  function Open(item: MenuItem): (r: Dialog)
    ensures r.item == Some(item) && r.addons == []
    ensures r.size.Some? <==> |SizesOf(item)| > 0
    ensures r.size.Some? ==> r.size.value == SizesOf(item)[0]
  {
    Dialog(Some(item), if item.sizes.Some? && |item.sizes.value| > 0 then Some(item.sizes.value[0]) else None, [])
  }

  /** Every selected add-on is one the dialog's item offers, and the size is one
      of its sizes. */
  predicate SelectionBelongs(d: Dialog) {
    && d.item.Some?
    && (forall k | 0 <= k < |d.addons| :: d.addons[k] in AddonsOf(d.item.value))
    && (d.size.Some? ==> d.size.value in SizesOf(d.item.value))
  }

  /** A tap on one of the dialog's own add-on buttons. */
  function Tap(d: Dialog, k: nat): Dialog
    requires d.item.Some?
    requires k < |AddonsOf(d.item.value)|
  {
    d.(addons := ToggleAddon(d.addons, AddonsOf(d.item.value)[k]))
  }

  /** Taps on the item's own add-ons keep the selection within the item. */
  lemma TapKeepsBelonging(d: Dialog, k: nat)
    requires SelectionBelongs(d)
    requires k < |AddonsOf(d.item.value)|
    ensures SelectionBelongs(Tap(d, k))
  {
    var a := AddonsOf(d.item.value)[k];
    var r := Tap(d, k);
    if !Selected(d.addons, a.name) {
      assert r.addons == d.addons + [a];
      assert forall j | 0 <= j < |d.addons| :: r.addons[j] == d.addons[j];
    } else {
      assert forall j | 0 <= j < |r.addons| :: r.addons[j] in d.addons;
    }
  }

  /** The dialog after opening `item` and tapping the listed add-on buttons. */
  function AfterTaps(d: Dialog, taps: seq<nat>): Dialog
    requires d.item.Some?
    decreases |taps|
  {
    if taps == [] then d
    else
      var prev := AfterTaps(d, taps[..|taps| - 1]);
      var k := taps[|taps| - 1];
      if k < |AddonsOf(d.item.value)| && prev.item == d.item then Tap(prev, k) else prev
  }

  lemma {:induction false} AfterTapsKeepsItem(d: Dialog, taps: seq<nat>)
    requires d.item.Some?
    ensures AfterTaps(d, taps).item == d.item
    decreases |taps|
  {
    if taps != [] {
      AfterTapsKeepsItem(d, taps[..|taps| - 1]);
    }
  }

  /** With the reset, whatever the previous dialog held, the item added to the
      cart carries only sizes and add-ons it offers. */
  lemma {:induction false} OpenThenTapsBelongs(item: MenuItem, taps: seq<nat>)
    ensures SelectionBelongs(AfterTaps(Open(item), taps))
    decreases |taps|
  {
    var d := Open(item);
    if taps != [] {
      var init := taps[..|taps| - 1];
      OpenThenTapsBelongs(item, init);
      AfterTapsKeepsItem(d, init);
      var k := taps[|taps| - 1];
      if k < |AddonsOf(item)| {
        TapKeepsBelonging(AfterTaps(d, init), k);
      }
    }
  }

  /** As written, an add-on picked for one item with sizes is still selected
      when the dialog opens on another item with sizes that does not offer it,
      so "Add to Cart" adds that item with a foreign add-on and charges its
      price. */
  lemma StaleAddonCarriesOver(cart: Cart, x: MenuItem, z: MenuItem, k: nat)
    requires |SizesOf(x)| > 0 && |SizesOf(z)| > 0
    requires k < |AddonsOf(x)|
    requires AddonsOf(x)[k] !in AddonsOf(z)
    ensures var d := OpenAsWritten(Tap(OpenAsWritten(Closed, x), k), z);
      && !SelectionBelongs(d)
      && d.addons == [AddonsOf(x)[k]]
      && d.size == Some(SizesOf(z)[0])
      && DialogTotal(d) == UnitPrice(z, d.size, []) + AddonsOf(x)[k].price
  {
    var a := AddonsOf(x)[k];
    var tapped := Tap(OpenAsWritten(Closed, x), k);
    FirstTap(OpenAsWritten(Closed, x), k);
    var d := OpenAsWritten(tapped, z);
    assert d.addons == [a];
    assert d.addons[0] !in AddonsOf(z);
    SinglePrice(a);
  }

  /** The first tap on a dialog with nothing selected selects that add-on alone. */
  lemma FirstTap(d: Dialog, k: nat)
    requires d.item.Some? && d.addons == []
    requires k < |AddonsOf(d.item.value)|
    ensures Tap(d, k).item == d.item
    ensures Tap(d, k).addons == [AddonsOf(d.item.value)[k]]
  {
    assert !Selected([], AddonsOf(d.item.value)[k].name);
  }

  lemma SinglePrice(a: Choice)
    ensures PriceSum([a]) == a.price
  {
    assert [a][..0] == [];
  }
}

=== FILE: export.dfy ===
/** The report's CSV download (`exportReport` in src/pages/restaurant/Reports.tsx):
    a fixed header block followed by one row per top item, cells joined by
    commas and rows by newlines, with no quoting. Printing a count
    (`toString`) and a money figure's two decimals (`toFixed(2)`) are
    parameters. */
module ReportExport {
  import opened Text
  import opened Config
  import opened Helpers
  import opened Tally
  import opened Reports

  type Row = seq<string>

  /** The rows before they are joined. */
  function CsvRows(data: ReportData, toFixed2: real -> string, show: int -> string): (rows: seq<Row>)
    ensures |rows| == 6 + |data.topItems|
    ensures rows[0] == ["Metric", "Value"]
    ensures rows[1] == ["Total Revenue", FormatCurrency(Num(data.totalRevenue), toFixed2)]
    ensures rows[2] == ["Total Orders", show(data.totalOrders)]
    ensures rows[3] == ["Average Order Value", FormatCurrency(Num(data.avgOrderValue), toFixed2)]
    ensures rows[4] == [""]
    ensures rows[5] == ["Top Items", "Quantity", "Revenue"]
    ensures forall k | 0 <= k < |data.topItems| ::
      rows[6 + k] == [data.topItems[k].key, show(data.topItems[k].count),
                      FormatCurrency(Num(data.topItems[k].revenue), toFixed2)]
  {
    [ ["Metric", "Value"],
      ["Total Revenue", FormatCurrency(Num(data.totalRevenue), toFixed2)],
      ["Total Orders", show(data.totalOrders)],
      ["Average Order Value", FormatCurrency(Num(data.avgOrderValue), toFixed2)],
      [""],
      ["Top Items", "Quantity", "Revenue"] ]
    + seq(|data.topItems|, k requires 0 <= k < |data.topItems| =>
          [data.topItems[k].key, show(data.topItems[k].count),
           FormatCurrency(Num(data.topItems[k].revenue), toFixed2)])
  }

  /** Each row joined with commas. */
  function Lines(rows: seq<Row>): (lines: seq<string>)
    ensures |lines| == |rows|
    ensures forall k | 0 <= k < |rows| :: lines[k] == Join(rows[k], ',')
  {
    seq(|rows|, k requires 0 <= k < |rows| => Join(rows[k], ','))
  }

  /** The downloaded text. */
  function CsvContent(data: ReportData, toFixed2: real -> string, show: int -> string): string {
    Join(Lines(CsvRows(data, toFixed2, show)), '\n')
  }

  /** A cell that a CSV reader splitting on commas and newlines keeps whole. */
  predicate Plain(cell: string) {
    !HasChar(cell, ',') && !HasChar(cell, '\n')
  }

  /** When every cell is plain, reading the text back (split on newlines, then
      on commas) recovers exactly the rows: one line per row, so six lines plus
      one per top item. */
  lemma ExportRoundTrip(data: ReportData, toFixed2: real -> string, show: int -> string)
    requires forall x :: Plain(toFixed2(x))
    requires forall n :: Plain(show(n))
    requires forall k | 0 <= k < |data.topItems| :: Plain(data.topItems[k].key)
    ensures var lines := Split(CsvContent(data, toFixed2, show), '\n');
      && |lines| == 6 + |data.topItems|
      && forall k | 0 <= k < |lines| :: Split(lines[k], ',') == CsvRows(data, toFixed2, show)[k]
  {
    var rows := CsvRows(data, toFixed2, show);
    var lines := Lines(rows);
    forall k | 0 <= k < |rows| ensures forall j | 0 <= j < |rows[k]| :: Plain(rows[k][j]) {
      forall j | 0 <= j < |rows[k]| ensures Plain(rows[k][j]) {
        CellsPlain(data, toFixed2, show, k, j);
      }
    }
    forall k | 0 <= k < |rows| ensures !HasChar(lines[k], '\n') && Split(lines[k], ',') == rows[k] {
      JoinAvoids(rows[k], ',', '\n');
      SplitJoin(rows[k], ',');
    }
    SplitJoin(lines, '\n');
  }

  /** A money cell is plain when its digits are: the currency sign is. */
  lemma MoneyPlain(v: real, toFixed2: real -> string)
    requires Plain(toFixed2(v))
    ensures Plain(FormatCurrency(Num(v), toFixed2))
  {
    HasCharConcat(Currency, toFixed2(v), ',');
    HasCharConcat(Currency, toFixed2(v), '\n');
  }

  lemma CellsPlain(data: ReportData, toFixed2: real -> string, show: int -> string, k: nat, j: nat)
    requires forall x :: Plain(toFixed2(x))
    requires forall n :: Plain(show(n))
    requires forall i | 0 <= i < |data.topItems| :: Plain(data.topItems[i].key)
    requires k < |CsvRows(data, toFixed2, show)| && j < |CsvRows(data, toFixed2, show)[k]|
    ensures Plain(CsvRows(data, toFixed2, show)[k][j])
  {
    var rows := CsvRows(data, toFixed2, show);
    if k >= 6 {
      var e := data.topItems[k - 6];
      MoneyPlain(e.revenue, toFixed2);
      assert rows[k] == [e.key, show(e.count), FormatCurrency(Num(e.revenue), toFixed2)];
    } else {
      HeaderPlain(data, toFixed2, show, k, j);
    }
  }

  lemma HeaderPlain(data: ReportData, toFixed2: real -> string, show: int -> string, k: nat, j: nat)
    requires Plain(toFixed2(data.totalRevenue)) && Plain(toFixed2(data.avgOrderValue))
    requires Plain(show(data.totalOrders))
    requires k < 6 && j < |CsvRows(data, toFixed2, show)[k]|
    ensures Plain(CsvRows(data, toFixed2, show)[k][j])
  {
    var row := CsvRows(data, toFixed2, show)[k];
    MetricLabelsPlain();
    ItemLabelsPlain();
    if k == 1 {
      MoneyPlain(data.totalRevenue, toFixed2);
      assert row == ["Total Revenue", FormatCurrency(Num(data.totalRevenue), toFixed2)];
    } else if k == 3 {
      MoneyPlain(data.avgOrderValue, toFixed2);
      assert row == ["Average Order Value", FormatCurrency(Num(data.avgOrderValue), toFixed2)];
    }
  }

  lemma MetricLabelsPlain()
    ensures Plain("Metric") && Plain("Value") && Plain("Total Revenue")
    ensures Plain("Total Orders") && Plain("Average Order Value")
  {
  }

  lemma ItemLabelsPlain()
    ensures Plain("") && Plain("Top Items") && Plain("Quantity") && Plain("Revenue")
  {
  }

  /** Without quoting, a comma inside an item name splits it into two cells: the
      item's line reads back as four cells, and its quantity lands in the
      "Revenue" column. */
  lemma CommaInNameShiftsColumns(data: ReportData, toFixed2: real -> string, show: int -> string,
                                 k: nat, before: string, after: string)
    requires k < |data.topItems|
    requires data.topItems[k].key == before + "," + after
    requires Plain(before) && Plain(after)
    requires forall x :: Plain(toFixed2(x))
    requires forall n :: Plain(show(n))
    ensures var line := Lines(CsvRows(data, toFixed2, show))[6 + k];
      Split(line, ',') == [before, after, show(data.topItems[k].count),
                           FormatCurrency(Num(data.topItems[k].revenue), toFixed2)]
  {
    var e := data.topItems[k];
    var count := show(e.count);
    var money := FormatCurrency(Num(e.revenue), toFixed2);
    MoneyPlain(e.revenue, toFixed2);
    var cells := [before, after, count, money];
    assert Join([e.key, count, money], ',') == Join(cells, ',') by {
      assert Join([money], ',') == money;
      assert Join([e.key, count, money], ',') == e.key + [','] + (count + [','] + money) by {
        assert [e.key, count, money][1..] == [count, money];
        assert [count, money][1..] == [money];
      }
      assert Join(cells, ',') == before + [','] + (after + [','] + (count + [','] + money)) by {
        assert cells[1..] == [after, count, money];
        assert [after, count, money][1..] == [count, money];
        assert [count, money][1..] == [money];
      }
    }
    SplitJoin(cells, ',');
  }
}

=== FILE: helpers.dfy ===
/** Pure helpers of src/utils/helpers.ts other than slugs and input validation. */
module Helpers {
  import opened Wrappers
  import opened Config
  import opened Model

  /** What `formatCurrency` may be handed: a number, `undefined`, `null` or `NaN`. */
  datatype Amount = Undefined | Null | NaN | Num(value: real)

  /** `formatCurrency(amount)`. The two-decimal rendering of a number
      (`toFixed(2)`) is a parameter, since floating-point formatting is not
      modelled. */
  function FormatCurrency(amount: Amount, toFixed2: real -> string): (r: string)
    ensures |r| >= |Currency| && r[..|Currency|] == Currency
    ensures !amount.Num? ==> r[|Currency|..] == "0.00"
  {
    match amount
    case Num(v) => Currency + toFixed2(v)
    case _ => Currency + "0.00"
  }

  /** A missing or NaN amount is printed exactly as a zero amount is, whenever the
      number formatter renders zero as "0.00". */
  lemma MissingAmountPrintsAsZero(amount: Amount, toFixed2: real -> string)
    requires !amount.Num?
    requires toFixed2(0.0) == "0.00"
    ensures FormatCurrency(amount, toFixed2) == FormatCurrency(Num(0.0), toFixed2)
    ensures FormatCurrency(amount, toFixed2) == "₹0.00"
  {
  }

  /** `calculateItemPrice(basePrice, selectedSize, selectedAddons)`: the size's
      price when one is given, otherwise the base price, plus every add-on's
      price; a missing or empty add-on list adds nothing. */
  function CalculateItemPrice(basePrice: real, selectedSize: Option<real>,
                              selectedAddons: Option<seq<Choice>>): (price: real)
    ensures selectedAddons.None? ==> price == selectedSize.GetOr(basePrice)
    ensures selectedAddons.Some? ==>
      price == selectedSize.GetOr(basePrice) + PriceSum(selectedAddons.value)
  {
    var price := if selectedSize.Some? then selectedSize.value else basePrice;
    if selectedAddons.Some? && |selectedAddons.value| > 0 then
      price + PriceSum(selectedAddons.value)
    else price
  }

  /** The sum of `item_total` over `items`, quantities ignored. */
  function ItemTotalSum(items: seq<OrderItem>): real {
    if items == [] then 0.0 else ItemTotalSum(items[..|items| - 1]) + items[|items| - 1].itemTotal
  }

  /** `calculateOrderTotals(items)`: the subtotal adds each item's `item_total`
      once, WITHOUT multiplying by its quantity; tax and total follow from the
      configured rate. */
  function CalculateOrderTotals(items: seq<OrderItem>): (t: Totals)
    ensures t.subtotal == ItemTotalSum(items)
    ensures t.tax == t.subtotal * TaxRate
    ensures t.total == t.subtotal + t.tax
    ensures t.total == t.subtotal * 1.05
  {
    var subtotal := ItemTotalSum(items);
    var tax := subtotal * TaxRate;
    Totals(subtotal, tax, subtotal + tax)
  }

  /** `generateTempPassword()`, with `Math.random()` replaced by a stream of
      draws in [0, 1): character i is `chars[floor(draws[i] * chars.length)]`. */
  method GenerateTempPassword(draws: seq<real>) returns (password: string)
    requires |draws| >= TempPasswordLength
    requires forall i | 0 <= i < |draws| :: 0.0 <= draws[i] < 1.0
    ensures |password| == TempPasswordLength
    ensures forall i | 0 <= i < |password| :: password[i] in TempPasswordChars
    ensures forall i | 0 <= i < |password| ::
      password[i] == TempPasswordChars[(draws[i] * |TempPasswordChars| as real).Floor]
  {
    password := "";
    var i := 0;
    while i < TempPasswordLength
      invariant 0 <= i <= TempPasswordLength
      invariant |password| == i
      invariant forall k | 0 <= k < i ::
        password[k] == TempPasswordChars[(draws[k] * |TempPasswordChars| as real).Floor]
    {
      var index := (draws[i] * |TempPasswordChars| as real).Floor;
      password := password + [TempPasswordChars[index]];
      i := i + 1;
    }
  }

  /** `getStatusColor(status)`: the configured colour of a known order status,
      "neutral" otherwise. */
  function GetStatusColor(status: string): (color: string)
    ensures status in OrderStatuses ==> color == OrderStatusColor(status).value
    ensures color == "neutral" <==> status !in OrderStatuses
  {
    match OrderStatusColor(status)
    case Some(c) => c
    case None => "neutral"
  }
}

=== FILE: menuform.dfy ===
/** The staff's menu item dialog and availability switch
    (src/pages/restaurant/Menu.tsx): loading an item into the form, editing its
    size and add-on lists, the submit guard and the record it sends.
    `parseFloat` and `Number.prototype.toString` are parameters: number parsing
    and printing are not modelled. */
module MenuForm {
  import opened Wrappers
  import opened Model
  import opened Seqs

  /** The dialog's fields, as text where the inputs are text. */
  datatype ItemForm = ItemForm(
    name: string,
    description: string,
    category: string,
    basePrice: string,
    imageUrl: string,
    isAvailable: bool,
    sizes: seq<Choice>,
    addons: seq<Choice>)

  /** The "new size" / "new add-on" inputs. */
  datatype Draft = Draft(name: string, price: string)

  const EmptyDraft := Draft("", "")

  /** The form of the "add" dialog. */
  const EmptyForm := ItemForm("", "", "", "", "", true, [], [])

  /** The form of the "edit" dialog: the item's fields, missing optional text as
      "", missing lists as empty, the price printed by `show`. */
  function LoadForm(item: MenuItem, show: real -> string): (f: ItemForm)
    ensures f.name == item.name && f.isAvailable == item.isAvailable
    ensures f.basePrice == show(item.basePrice)
    ensures f.description == item.description.GetOr("") && f.category == item.category.GetOr("")
    ensures f.imageUrl == item.imageUrl.GetOr("")
    ensures f.sizes == item.sizes.GetOr([]) && f.addons == item.addons.GetOr([])
  {
    ItemForm(item.name, item.description.GetOr(""), item.category.GetOr(""), show(item.basePrice),
             item.imageUrl.GetOr(""), item.isAvailable,
             item.sizes.GetOr([]), item.addons.GetOr([]))
  }

  /** `addSize` / `addAddon`: with both inputs filled, the pair is appended and
      the inputs cleared; otherwise nothing changes. */
  function AddChoice(list: seq<Choice>, draft: Draft, parse: string -> real): (r: (seq<Choice>, Draft))
    ensures draft.name != [] && draft.price != [] ==>
      r.0 == list + [Choice(draft.name, parse(draft.price))] && r.1 == EmptyDraft
    ensures draft.name == [] || draft.price == [] ==> r == (list, draft)
  {
    if draft.name != [] && draft.price != [] then (list + [Choice(draft.name, parse(draft.price))], EmptyDraft)
    else (list, draft)
  }

  /** `addSize`: the size list grows by the draft; nothing else in the form changes. */
  function AddSize(form: ItemForm, draft: Draft, parse: string -> real): (r: (ItemForm, Draft))
    ensures r.0 == form.(sizes := AddChoice(form.sizes, draft, parse).0)
    ensures r.1 == AddChoice(form.sizes, draft, parse).1
  {
    var (sizes, d) := AddChoice(form.sizes, draft, parse);
    (form.(sizes := sizes), d)
  }

  /** `addAddon`: the add-on list grows by the draft; nothing else in the form changes. */
  function AddAddon(form: ItemForm, draft: Draft, parse: string -> real): (r: (ItemForm, Draft))
    ensures r.0 == form.(addons := AddChoice(form.addons, draft, parse).0)
    ensures r.1 == AddChoice(form.addons, draft, parse).1
  {
    var (addons, d) := AddChoice(form.addons, draft, parse);
    (form.(addons := addons), d)
  }

  /** `removeSize(i)`: `filter((_, j) => j !== i)`, so an index outside the list
      removes nothing. */
  function RemoveSize(form: ItemForm, i: int): (r: ItemForm)
    ensures 0 <= i < |form.sizes| ==> |r.sizes| == |form.sizes| - 1
    ensures r == form.(sizes := RemoveIndex(form.sizes, i))
  {
    form.(sizes := RemoveIndex(form.sizes, i))
  }

  /** `removeAddon(i)`, likewise on the add-on list. */
  function RemoveAddon(form: ItemForm, i: int): (r: ItemForm)
    ensures 0 <= i < |form.addons| ==> |r.addons| == |form.addons| - 1
    ensures r == form.(addons := RemoveIndex(form.addons, i))
  {
    form.(addons := RemoveIndex(form.addons, i))
  }

  /** Adding a filled draft and then removing the last entry restores the list. */
  lemma AddThenRemoveLast(list: seq<Choice>, draft: Draft, parse: string -> real)
    requires draft.name != [] && draft.price != []
    ensures RemoveIndex(AddChoice(list, draft, parse).0, |list|) == list
  {
    var grown := AddChoice(list, draft, parse).0;
    assert RemoveAt(grown, |list|) == list;
  }

  /** Removing entry `i` keeps the others in their order. */
  lemma RemoveKeepsOthers(list: seq<Choice>, i: nat)
    requires i < |list|
    ensures RemoveIndex(list, i) == list[..i] + list[i + 1..]
  {
  }

  /** The record sent to `createMenuItem` / `updateMenuItem`. */
  datatype MenuItemData = MenuItemData(
    restaurantId: string,
    name: string,
    description: Option<string>,
    category: Option<string>,
    basePrice: real,
    imageUrl: Option<string>,
    isAvailable: bool,
    sizes: Option<seq<Choice>>,
    addons: Option<seq<Choice>>)

  datatype SubmitError = NameAndPriceRequired | RestaurantNotFound

  function ErrorMessage(e: SubmitError): string {
    match e
    case NameAndPriceRequired => "Name and base price are required"
    case RestaurantNotFound => "Restaurant ID not found"
  }

  /** `handleSubmit`: the name and price must be filled and the session must
      carry a restaurant id (`restaurantId`, absent or empty when it does not);
      empty optional text and empty lists are sent as absent. */
  function Submit(form: ItemForm, restaurantId: Option<string>, parse: string -> real): (r: Result<MenuItemData, SubmitError>)
    ensures r == Failure(NameAndPriceRequired) <==> form.name == [] || form.basePrice == []
    ensures r == Failure(RestaurantNotFound) <==>
      form.name != [] && form.basePrice != [] && (restaurantId.None? || restaurantId.value == [])
    ensures r.Success? ==>
      && r.value.restaurantId == restaurantId.value
      && r.value.name == form.name
      && r.value.basePrice == parse(form.basePrice)
      && r.value.isAvailable == form.isAvailable
      && (r.value.description.None? <==> form.description == [])
      && (r.value.category.None? <==> form.category == [])
      && (r.value.imageUrl.None? <==> form.imageUrl == [])
      && (r.value.sizes.None? <==> form.sizes == [])
      && (r.value.addons.None? <==> form.addons == [])
      && (r.value.description.Some? ==> r.value.description.value == form.description)
      && (r.value.category.Some? ==> r.value.category.value == form.category)
      && (r.value.imageUrl.Some? ==> r.value.imageUrl.value == form.imageUrl)
      && (r.value.sizes.Some? ==> r.value.sizes.value == form.sizes)
      && (r.value.addons.Some? ==> r.value.addons.value == form.addons)
  {
    if form.name == [] || form.basePrice == [] then Failure(NameAndPriceRequired)
    else if restaurantId.None? || restaurantId.value == [] then Failure(RestaurantNotFound)
    else
      Success(MenuItemData(
        restaurantId.value,
        form.name,
        NonEmpty(form.description),
        NonEmpty(form.category),
        parse(form.basePrice),
        NonEmpty(form.imageUrl),
        form.isAvailable,
        NonEmpty(form.sizes),
        NonEmpty(form.addons)))
  }

  /** The stored shape of an item: optional text is absent rather than empty,
      and a list is absent rather than empty. */
  predicate Normalised(item: MenuItem) {
    && item.description != Some([])
    && item.category != Some([])
    && item.imageUrl != Some([])
    && item.sizes != Some([])
    && item.addons != Some([])
  }

  /** Opening a stored item in the edit dialog and saving it unchanged sends the
      item's own fields back, provided printing and parsing the price round-trips. */
  lemma EditRoundTrip(item: MenuItem, show: real -> string, parse: string -> real)
    requires Normalised(item)
    requires item.name != [] && show(item.basePrice) != []
    requires parse(show(item.basePrice)) == item.basePrice
    ensures var r := Submit(LoadForm(item, show), Some(item.restaurantId), parse);
      item.restaurantId != [] ==>
        r == Success(MenuItemData(item.restaurantId, item.name, item.description, item.category,
                                  item.basePrice, item.imageUrl, item.isAvailable, item.sizes, item.addons))
  {
  }

  /** The availability switch: the item's id with the negation of its current flag. */
  datatype AvailabilityUpdate = AvailabilityUpdate(itemId: string, isAvailable: bool)

  /** `handleToggleAvailability(item)`. */
  function ToggleAvailability(item: MenuItem): (u: AvailabilityUpdate)
    ensures u.itemId == item.id
    ensures u.isAvailable != item.isAvailable
  {
    AvailabilityUpdate(item.id, !item.isAvailable)
  }

  /** Applying the update and switching again brings the item back. */
  lemma ToggleTwiceRestores(item: MenuItem)
    ensures var once := item.(isAvailable := ToggleAvailability(item).isAvailable);
      once.(isAvailable := ToggleAvailability(once).isAvailable) == item
  {
  }
}

=== FILE: model.dfy ===
/** The database records the core works on (src/config/supabase.ts). Fields no
    modelled operation reads (payment data, audit timestamps other than
    creation) are omitted. */
module Model {
  import opened Wrappers

  /** A `{ name, price }` pair: one size of a menu item, or one add-on. */
  datatype Choice = Choice(name: string, price: real)

  /** A dish on a restaurant's menu. `sizes` are alternative prices; `addons`
      are extras priced on top. */
  datatype MenuItem = MenuItem(
    id: string,
    restaurantId: string,
    name: string,
    description: Option<string>,
    basePrice: real,
    category: Option<string>,
    imageUrl: Option<string>,
    isAvailable: bool,
    sizes: Option<seq<Choice>>,
    addons: Option<seq<Choice>>)

  /** One line of a placed order: a frozen copy of a cart line. */
  datatype OrderItem = OrderItem(
    menuItemId: string,
    name: string,
    quantity: int,
    basePrice: real,
    selectedSize: Option<Choice>,
    selectedAddons: Option<seq<Choice>>,
    itemTotal: real,
    specialInstructions: Option<string>)

  /** A placed order. `orderType` and `status` are the strings stored in the row;
      an order whose type is missing carries the empty string. `createdAt` is the
      creation time in milliseconds, the value `new Date(created_at).getTime()`
      yields. */
  datatype Order = Order(
    id: string,
    restaurantId: string,
    orderNumber: string,
    orderType: string,
    tableNumber: Option<string>,
    customerName: Option<string>,
    customerPhone: Option<string>,
    items: seq<OrderItem>,
    subtotal: real,
    tax: real,
    total: real,
    status: string,
    customerNotes: Option<string>,
    createdAt: int)

  /** A tenant as listed on the admin screens. */
  datatype Restaurant = Restaurant(
    id: string,
    name: string,
    slug: string,
    ownerName: Option<string>,
    phone: string,
    email: string,
    city: Option<string>,
    status: string,
    isActive: bool,
    blockReason: Option<string>)

  /** Subtotal, tax and total of an order. */
  datatype Totals = Totals(subtotal: real, tax: real, total: real)

  /** The sum of the prices of `cs`: `cs.reduce((sum, c) => sum + c.price, 0)`. */
  function PriceSum(cs: seq<Choice>): real {
    if cs == [] then 0.0 else PriceSum(cs[..|cs| - 1]) + cs[|cs| - 1].price
  }

  lemma {:induction false} PriceSumConcat(a: seq<Choice>, b: seq<Choice>)
    ensures PriceSum(a + b) == PriceSum(a) + PriceSum(b)
    decreases |b|
  {
    if b == [] {
      assert a + b == a;
    } else {
      assert (a + b)[..|a + b| - 1] == a + b[..|b| - 1];
      PriceSumConcat(a, b[..|b| - 1]);
    }
  }
}

=== FILE: orders.dfy ===
/** The restaurant's order board (src/pages/restaurant/Orders.tsx): the status
    tabs, the actions offered on each order, the pending counter, the status
    badge and the "new order" alert. */
module OrderBoard {
  import opened Wrappers
  import opened Model
  import opened Seqs
  import opened Sorting
  import Helpers

  /** The creation time as the sort key. */
  function CreatedKey(o: Order): real {
    o.createdAt as real
  }

  function StatusIs(status: string): Order -> bool {
    (o: Order) => o.status == status
  }

  /** `filteredOrders`: the orders in the selected status tab, oldest first;
      orders created at the same instant keep their list order. */
  function FilteredOrders(orders: seq<Order>, statusFilter: string): (r: seq<Order>)
    ensures SortedBy(r, CreatedKey)
    ensures multiset(r) == multiset(Filter(orders, StatusIs(statusFilter)))
  {
    SortBy(Filter(orders, StatusIs(statusFilter)), CreatedKey)
  }

  /** The tab lists exactly the orders of the selected status. */
  lemma FilteredOrdersExactly(orders: seq<Order>, statusFilter: string)
    ensures forall o :: o in FilteredOrders(orders, statusFilter) <==> o in orders && o.status == statusFilter
  {
    var f := Filter(orders, StatusIs(statusFilter));
    var r := FilteredOrders(orders, statusFilter);
    SameElements(r, f);
    forall o ensures o in f <==> o in orders && o.status == statusFilter {
      if o in f {
        var j :| 0 <= j < |f| && f[j] == o;
        assert StatusIs(statusFilter)(f[j]);
      }
      if o in orders && o.status == statusFilter {
        var j :| 0 <= j < |orders| && orders[j] == o;
        assert StatusIs(statusFilter)(orders[j]);
      }
    }
  }

  /** Two sequences with the same multiset have the same elements. */
  lemma SameElements<T>(a: seq<T>, b: seq<T>)
    requires multiset(a) == multiset(b)
    ensures forall x :: x in a <==> x in b
  {
    forall x ensures x in a <==> x in b {
      assert x in a <==> x in multiset(a);
      assert x in b <==> x in multiset(b);
    }
  }

  /** Orders created at the same instant appear in the tab in the order the
      list delivered them. */
  lemma FilteredOrdersStable(orders: seq<Order>, statusFilter: string, createdAt: int)
    ensures WithKey(FilteredOrders(orders, statusFilter), CreatedKey, createdAt as real)
         == WithKey(Filter(orders, StatusIs(statusFilter)), CreatedKey, createdAt as real)
  {
    SortStable(Filter(orders, StatusIs(statusFilter)), CreatedKey, createdAt as real);
  }

  /** `pendingCount`: the orders waiting for the kitchen. */
  function PendingCount(orders: seq<Order>): (n: nat)
    ensures n <= |orders|
  {
    Count(orders, StatusIs("pending"))
  }

  /** The counter next to the "pending" tab is the number of orders that tab lists. */
  lemma PendingCountIsPendingTab(orders: seq<Order>)
    ensures PendingCount(orders) == |FilteredOrders(orders, "pending")|
  {
    var f := Filter(orders, StatusIs("pending"));
    assert |multiset(FilteredOrders(orders, "pending"))| == |multiset(f)|;
  }

  /** The buttons on an order card. */
  datatype Action = Accept | MarkComplete | Cancel

  /** The status each button sends. */
  function Target(a: Action): string {
    match a
    case Accept => "accepted"
    case MarkComplete => "completed"
    case Cancel => "cancelled"
  }

  /** The buttons an order card shows for a status: Accept and Cancel on a
      pending order, Mark Complete and Cancel on an accepted one, none otherwise. */
  function OfferedActions(status: string): (r: seq<Action>)
    ensures status != "pending" && status != "accepted" ==> r == []
    ensures |r| <= 2
  {
    if status == "pending" then [Accept, Cancel]
    else if status == "accepted" then [MarkComplete, Cancel]
    else []
  }

  /** The board lets an order move from `from` to `to`. */
  predicate Offered(from: string, to: string) {
    exists k | 0 <= k < |OfferedActions(from)| :: Target(OfferedActions(from)[k]) == to
  }

  /** The transition relation the board offers is exactly four pairs. */
  lemma OfferedIff(from: string, to: string)
    ensures Offered(from, to) <==>
      || (from == "pending" && to == "accepted")
      || (from == "pending" && to == "cancelled")
      || (from == "accepted" && to == "completed")
      || (from == "accepted" && to == "cancelled")
  {
    if from == "pending" {
      if to == "accepted" { assert Target(OfferedActions(from)[0]) == to; }
      if to == "cancelled" { assert Target(OfferedActions(from)[1]) == to; }
    } else if from == "accepted" {
      if to == "completed" { assert Target(OfferedActions(from)[0]) == to; }
      if to == "cancelled" { assert Target(OfferedActions(from)[1]) == to; }
    }
  }

  /** No offered move reaches "pending", and none leaves a completed or
      cancelled order. */
  lemma NoWayBack(from: string, to: string)
    requires Offered(from, to)
    ensures to != "pending"
    ensures from != "completed" && from != "cancelled"
    ensures from != to
  {
    OfferedIff(from, to);
  }

  /** What the board asks the service to store. */
  datatype StatusUpdate = StatusUpdate(orderId: string, newStatus: string)

  /** What pressing a button on an order card does: Accept and Mark Complete
      send their update at once; Cancel only selects the order and opens the
      cancel dialog, which sends nothing until it is confirmed. */
  datatype Press = SendUpdate(update: StatusUpdate) | OpenCancelDialog(selected: Order)

  /** The `onClick` of an offered button on an order card. */
  function PressAction(order: Order, a: Action): (r: Press)
    requires a in OfferedActions(order.status)
    ensures a == Cancel <==> r.OpenCancelDialog?
    ensures r.OpenCancelDialog? ==> r.selected == order
    ensures r.SendUpdate? ==> r.update == StatusUpdate(order.id, Target(a))
    ensures r.SendUpdate? ==> Offered(order.status, r.update.newStatus)
    ensures r.SendUpdate? ==> r.update.newStatus != "cancelled"
  {
    var k := if OfferedActions(order.status)[0] == a then 0 else 1;
    assert Target(OfferedActions(order.status)[k]) == Target(a);
    if a == Cancel then OpenCancelDialog(order) else SendUpdate(StatusUpdate(order.id, Target(a)))
  }

  /** `RejectOrderModal.handleCancel`: nothing without a selected order; otherwise
      the order is set to "cancelled". The reason typed into the dialog is passed
      as a third argument that `handleStatusUpdate` does not take, so it is lost. */
  function CancelSelected(order: Option<Order>, reason: string): (u: Option<StatusUpdate>)
    ensures order.None? <==> u.None?
    ensures u.Some? ==> u.value == StatusUpdate(order.value.id, "cancelled")
  {
    if order.None? then None else Some(StatusUpdate(order.value.id, "cancelled"))
  }

  /** Pressing Cancel on a card and confirming the dialog it opens cancels that
      order, which is a move the board offers for its status. */
  lemma {:induction false} ConfirmedCancelIsOffered(order: Order, reason: string)
    requires Cancel in OfferedActions(order.status)
    ensures var r := PressAction(order, Cancel);
      && r.OpenCancelDialog?
      && var u := CancelSelected(Some(r.selected), reason);
      && u == Some(StatusUpdate(order.id, "cancelled"))
      && Offered(order.status, u.value.newStatus)
  {
    OfferedIff(order.status, "cancelled");
  }

  /** Whatever reason is typed, the same update is sent. */
  lemma CancelIgnoresReason(order: Option<Order>, reason1: string, reason2: string)
    ensures CancelSelected(order, reason1) == CancelSelected(order, reason2)
  {
  }

  /** `getStatusBadge(status)`: the badge variant of the five statuses the board
      knows, "neutral" for any other. */
  function StatusBadge(status: string): (variant: string)
    ensures status == "pending" ==> variant == "warning"
    ensures status == "accepted" ==> variant == "accent-secondary"
    ensures status == "completed" ==> variant == "success"
    ensures status == "rejected" ==> variant == "error"
    ensures variant == "neutral" <==>
      status != "pending" && status != "accepted" && status != "completed" && status != "rejected"
  {
    if status == "pending" then "warning"
    else if status == "accepted" then "accent-secondary"
    else if status == "completed" then "success"
    else if status == "cancelled" then "neutral"
    else if status == "rejected" then "error"
    else "neutral"
  }

  /** The board's badge agrees with the shared status colour on pending,
      accepted, completed and rejected orders, but shows a cancelled order as
      neutral where the shared table says error. */
  lemma BadgeAgainstStatusColour(status: string)
    ensures status in {"pending", "accepted", "completed", "rejected"} ==>
      StatusBadge(status) == Helpers.GetStatusColor(status)
    ensures status == "cancelled" ==>
      StatusBadge(status) == "neutral" && Helpers.GetStatusColor(status) == "error"
  {
  }

  /** An order with this id is in the list. */
  predicate HasId(orders: seq<Order>, id: string) {
    exists k | 0 <= k < |orders| :: orders[k].id == id
  }

  /** The snapshot's pending orders that `previous` does not hold. */
  function NewPending(previous: seq<Order>, snapshot: seq<Order>): (r: seq<Order>)
    ensures |r| <= |snapshot|
    ensures forall k | 0 <= k < |r| :: r[k] in snapshot
    ensures forall k | 0 <= k < |r| :: r[k].status == "pending" && !HasId(previous, r[k].id)
    ensures forall k | 0 <= k < |snapshot| ::
      snapshot[k].status == "pending" && !HasId(previous, snapshot[k].id) ==> snapshot[k] in r
    decreases |snapshot|
  {
    if snapshot == [] then []
    else
      var init := NewPending(previous, snapshot[..|snapshot| - 1]);
      var last := snapshot[|snapshot| - 1];
      assert forall k | 0 <= k < |snapshot| - 1 :: snapshot[k] == snapshot[..|snapshot| - 1][k];
      if last.status == "pending" && !HasId(previous, last.id) then init + [last] else init
  }

  /** The alert rule: the list grew past the stored count and holds a pending
      order `previous` did not. */
  predicate ShouldAlert(prevCount: int, previous: seq<Order>, snapshot: seq<Order>) {
    |snapshot| > prevCount && |NewPending(previous, snapshot)| > 0
  }

  /** The subscriber's memory: the stored count, and the list it last showed. */
  datatype Listener = Listener(prevCount: int, shown: seq<Order>)

  const Initial := Listener(0, [])

  /** One delivery's effect: whether the sound plays, and the next memory. */
  datatype Delivery = Delivery(alert: bool, next: Listener)

  /** A delivery as written: the callback compares against the `orders` it
      captured when the subscription was made, which is always the initial empty
      list. */
  function DeliverAsWritten(l: Listener, snapshot: seq<Order>): (d: Delivery)
    ensures d.alert <==> ShouldAlert(l.prevCount, [], snapshot)
    ensures d.next == Listener(|snapshot|, snapshot)
  {
    Delivery(ShouldAlert(l.prevCount, [], snapshot), Listener(|snapshot|, snapshot))
  }

  /** A delivery compared against the list shown before it. */
  function Deliver(l: Listener, snapshot: seq<Order>): (d: Delivery)
    ensures d.alert <==> ShouldAlert(l.prevCount, l.shown, snapshot)
    ensures d.alert ==> |snapshot| > l.prevCount
    ensures d.next == Listener(|snapshot|, snapshot)
  {
    Delivery(ShouldAlert(l.prevCount, l.shown, snapshot), Listener(|snapshot|, snapshot))
  }

  /** Every alert the corrected rule raises is also raised as written: the
      written rule only over-fires. */
  lemma CorrectedAlertImpliesWritten(l: Listener, snapshot: seq<Order>)
    requires Deliver(l, snapshot).alert
    ensures DeliverAsWritten(l, snapshot).alert
  {
    var o := NewPending(l.shown, snapshot)[0];
    assert o in snapshot;
    var k :| 0 <= k < |snapshot| && snapshot[k] == o;
    assert snapshot[k] in NewPending([], snapshot);
  }

  /** As written, a pending order that was already on screen sets the sound off
      again as soon as any other order (here one that is not pending) arrives;
      compared against the list on screen, nothing new is pending and no sound
      plays. */
  lemma StaleListRealerts(a: Order, b: Order)
    requires a.status == "pending" && b.status != "pending"
    ensures var l := Deliver(Initial, [a]).next;
      && DeliverAsWritten(l, [a, b]).alert
      && !Deliver(l, [a, b]).alert
  {
    var l := Deliver(Initial, [a]).next;
    assert l.shown == [a];
    assert [a, b][0] == a;
    assert a in NewPending([], [a, b]);
    assert NewPending([a], [a, b]) == [] by {
      assert HasId([a], a.id);
      assert NewPending([a], [a]) == [] by {
        assert [a][..0] == [];
      }
      assert [a, b][..1] == [a];
    }
  }

  /** With the list on screen remembered, a delivery that adds one new pending
      order to it finds exactly that order and sounds once. */
  lemma OneNewPendingOrder(shown: seq<Order>, x: Order)
    requires x.status == "pending" && !HasId(shown, x.id)
    ensures NewPending(shown, shown + [x]) == [x]
    ensures Deliver(Listener(|shown|, shown), shown + [x]).alert
  {
    var s := shown + [x];
    assert s[..|shown|] == shown;
    assert NewPending(shown, shown) == [] by {
      NothingNewInItself(shown, shown);
    }
  }

  /** A list holds no order that is new with respect to a list containing it. */
  lemma {:induction false} NothingNewInItself(shown: seq<Order>, s: seq<Order>)
    requires forall k | 0 <= k < |s| :: HasId(shown, s[k].id)
    ensures NewPending(shown, s) == []
    decreases |s|
  {
    if s != [] {
      NothingNewInItself(shown, s[..|s| - 1]);
      assert HasId(shown, s[|s| - 1].id);
    }
  }
}

=== FILE: registration.dfy ===
/** The public sign-up form (src/pages/public/RegisterPage.tsx): the field
    checks, the error map the form shows, the record inserted as a pending
    registration request, and the editing of one field. */
module Registration {
  import opened Wrappers
  import opened Text
  import opened Validation

  datatype Field =
    | RestaurantName | OwnerName | Phone | Email | City
    | Address | RestaurantType | HeardFrom | Notes

  /** The form's inputs, as typed. */
  datatype RegistrationForm = RegistrationForm(
    restaurantName: string,
    ownerName: string,
    phone: string,
    email: string,
    city: string,
    address: string,
    restaurantType: string,
    heardFrom: string,
    notes: string)

  const EmptyForm := RegistrationForm("", "", "", "", "", "", "", "", "")

  function Get(form: RegistrationForm, field: Field): string {
    match field
    case RestaurantName => form.restaurantName
    case OwnerName => form.ownerName
    case Phone => form.phone
    case Email => form.email
    case City => form.city
    case Address => form.address
    case RestaurantType => form.restaurantType
    case HeardFrom => form.heardFrom
    case Notes => form.notes
  }

  /** `{ ...prev, [name]: value }`. */
  function Set(form: RegistrationForm, field: Field, value: string): (r: RegistrationForm)
    ensures Get(r, field) == value
    ensures forall other | other != field :: Get(r, other) == Get(form, other)
  {
    match field
    case RestaurantName => form.(restaurantName := value)
    case OwnerName => form.(ownerName := value)
    case Phone => form.(phone := value)
    case Email => form.(email := value)
    case City => form.(city := value)
    case Address => form.(address := value)
    case RestaurantType => form.(restaurantType := value)
    case HeardFrom => form.(heardFrom := value)
    case Notes => form.(notes := value)
  }

  /** The message per field; a field without an entry has no error. */
  type Errors = map<Field, string>

  /** The phone's message: "required" when blank, else the format message when
      `isValidPhone` fails. */
  function PhoneError(phone: string): (e: Option<string>)
    ensures IsBlank(phone) ==> e == Some("Phone number is required")
    ensures !IsBlank(phone) ==> (e.None? <==> IsValidPhone(phone))
    ensures e.Some? ==> !IsValidPhone(phone)
  {
    TrimEmptyIffBlank(phone);
    if Trim(phone) == [] then
      BlankPhoneInvalid(phone);
      Some("Phone number is required")
    else if !IsValidPhone(phone) then Some("Please enter a valid 10-digit phone number")
    else None
  }

  /** The e-mail's message, likewise. */
  function EmailError(email: string): (e: Option<string>)
    ensures IsBlank(email) ==> e == Some("Email is required")
    ensures !IsBlank(email) ==> (e.None? <==> IsValidEmail(email))
    ensures e.Some? ==> !IsValidEmail(email)
  {
    TrimEmptyIffBlank(email);
    if Trim(email) == [] then
      BlankEmailInvalid(email);
      Some("Email is required")
    else if !IsValidEmail(email) then Some("Please enter a valid email address")
    else None
  }

  /** Whitespace alone is never a valid phone number. */
  lemma {:induction false} BlankPhoneInvalid(phone: string)
    requires IsBlank(phone)
    ensures StripPhone(phone) == []
    ensures !IsValidPhone(phone)
    decreases |phone|
  {
    if phone != [] {
      assert IsBlank(phone[1..]) by {
        forall i | 0 <= i < |phone[1..]| ensures IsJsSpace(phone[1..][i]) {
          assert phone[1..][i] == phone[i + 1];
        }
      }
      BlankPhoneInvalid(phone[1..]);
      assert IsJsSpace(phone[0]);
    }
  }

  /** Whitespace alone is never a valid address. */
  lemma BlankEmailInvalid(email: string)
    requires IsBlank(email)
    ensures !IsValidEmail(email)
  {
    if |email| > 0 {
      assert IsJsSpace(email[0]);
    }
  }

  const AllFields: set<Field> :=
    {RestaurantName, OwnerName, Phone, Email, City, Address, RestaurantType, HeardFrom, Notes}

  lemma InAllFields(f: Field)
    ensures f in AllFields
  {
    match f
    case RestaurantName =>
    case OwnerName =>
    case Phone =>
    case Email =>
    case City =>
    case Address =>
    case RestaurantType =>
    case HeardFrom =>
    case Notes =>
  }

  /** The message `validateForm` records for one field, if any: the name, owner
      and city must not be blank, the phone and e-mail must be present and well
      formed, and a restaurant type must be chosen (it is not trimmed); the other
      fields are never checked. */
  function FieldError(form: RegistrationForm, field: Field): (e: Option<string>)
    ensures field == RestaurantName ==> (e.Some? <==> IsBlank(form.restaurantName))
    ensures field == OwnerName ==> (e.Some? <==> IsBlank(form.ownerName))
    ensures field == Phone ==> e == PhoneError(form.phone)
    ensures field == Email ==> e == EmailError(form.email)
    ensures field == City ==> (e.Some? <==> IsBlank(form.city))
    ensures field == RestaurantType ==> (e.Some? <==> form.restaurantType == [])
    ensures field in {Address, HeardFrom, Notes} ==> e.None?
  {
    match field
    case RestaurantName =>
      TrimEmptyIffBlank(form.restaurantName);
      if Trim(form.restaurantName) == [] then Some("Restaurant name is required") else None
    case OwnerName =>
      TrimEmptyIffBlank(form.ownerName);
      if Trim(form.ownerName) == [] then Some("Owner name is required") else None
    case Phone => PhoneError(form.phone)
    case Email => EmailError(form.email)
    case City =>
      TrimEmptyIffBlank(form.city);
      if Trim(form.city) == [] then Some("City is required") else None
    case RestaurantType =>
      if form.restaurantType == [] then Some("Restaurant type is required") else None
    case _ => None
  }

  /** `validateForm`'s `newErrors`: one entry per field with a message. */
  function FormErrors(form: RegistrationForm): (errors: Errors)
    ensures forall f :: f in errors <==> FieldError(form, f).Some?
    ensures forall f | f in errors :: errors[f] == FieldError(form, f).value
  {
    assert forall f: Field :: f in AllFields by {
      forall f: Field ensures f in AllFields {
        InAllFields(f);
      }
    }
    map f | f in AllFields && FieldError(form, f).Some? :: FieldError(form, f).value
  }

  /** The conditions under which the form may be sent. */
  predicate Acceptable(form: RegistrationForm) {
    && !IsBlank(form.restaurantName)
    && !IsBlank(form.ownerName)
    && IsValidPhone(form.phone)
    && IsValidEmail(form.email)
    && !IsBlank(form.city)
    && form.restaurantType != []
  }

  /** `validateForm()`: true exactly when no field error was recorded. */
  function ValidateForm(form: RegistrationForm): (ok: bool)
    ensures ok <==> Acceptable(form)
  {
    var errors := FormErrors(form);
    assert !Acceptable(form) ==> errors != map[] by {
      if IsBlank(form.restaurantName) { assert RestaurantName in errors; }
      if IsBlank(form.ownerName) { assert OwnerName in errors; }
      if !IsValidPhone(form.phone) { assert Phone in errors; }
      if !IsValidEmail(form.email) { assert Email in errors; }
      if IsBlank(form.city) { assert City in errors; }
      if form.restaurantType == [] { assert RestaurantType in errors; }
    }
    assert Acceptable(form) ==> errors == map[] by {
      if Acceptable(form) {
        forall f ensures f !in errors {
          var e := FieldError(form, f);
        }
      }
    }
    |errors.Keys| == 0
  }

  /** The row inserted into `registration_requests`. */
  datatype RegistrationRequest = RegistrationRequest(
    restaurantName: string,
    ownerName: string,
    phone: string,
    email: Option<string>,
    city: string,
    address: Option<string>,
    restaurantType: string,
    heardFrom: Option<string>,
    notes: Option<string>,
    status: string)

  /** The insert payload: text trimmed, the phone stripped of separators, empty
      optional fields as null, `heard_from` as chosen (not trimmed), always
      "pending". */
  function RequestOf(form: RegistrationForm): (r: RegistrationRequest)
    ensures r.status == "pending"
    ensures r.phone == StripPhone(form.phone)
    ensures r.restaurantType == form.restaurantType
    ensures r.heardFrom.None? <==> form.heardFrom == []
    ensures r.email.None? <==> IsBlank(form.email)
    ensures r.address.None? <==> IsBlank(form.address)
    ensures r.notes.None? <==> IsBlank(form.notes)
    ensures r.restaurantName == [] <==> IsBlank(form.restaurantName)
    ensures TrimmedFrom(r.restaurantName, form.restaurantName)
    ensures TrimmedFrom(r.ownerName, form.ownerName)
    ensures TrimmedFrom(r.city, form.city)
    ensures r.email.Some? ==> TrimmedFrom(r.email.value, form.email)
    ensures r.address.Some? ==> TrimmedFrom(r.address.value, form.address)
    ensures r.notes.Some? ==> TrimmedFrom(r.notes.value, form.notes)
    ensures r.heardFrom.Some? ==> r.heardFrom.value == form.heardFrom
  {
    TrimEmptyIffBlank(form.email);
    TrimEmptyIffBlank(form.address);
    TrimEmptyIffBlank(form.notes);
    TrimEmptyIffBlank(form.restaurantName);
    RegistrationRequest(
      Trim(form.restaurantName),
      Trim(form.ownerName),
      StripPhone(form.phone),
      NonEmpty(Trim(form.email)),
      Trim(form.city),
      NonEmpty(Trim(form.address)),
      form.restaurantType,
      NonEmpty(form.heardFrom),
      NonEmpty(Trim(form.notes)),
      "pending")
  }

  /** `handleSubmit`: the field errors, or the request to insert. */
  function Submit(form: RegistrationForm): (r: Result<RegistrationRequest, Errors>)
    ensures r.Success? <==> Acceptable(form)
    ensures r.Failure? ==> r.error == FormErrors(form) && r.error != map[]
    ensures r.Success? ==> r.value == RequestOf(form)
  {
    if ValidateForm(form) then Success(RequestOf(form))
    else
      assert |FormErrors(form).Keys| != 0;
      Failure(FormErrors(form))
  }

  /** A request that gets through carries a ten-digit mobile number, an e-mail
      exactly as typed, and non-blank name, owner and city with no surrounding
      whitespace. */
  lemma AcceptedRequestIsWellFormed(form: RegistrationForm)
    ensures Submit(form).Success? ==>
      var r := Submit(form).value;
      && IsIndianMobile(r.phone)
      && r.email == Some(form.email)
      && r.restaurantName != [] && !IsJsSpace(r.restaurantName[0])
      && r.ownerName != [] && r.city != []
  {
    if Submit(form).Success? {
      TrimEmptyIffBlank(form.restaurantName);
      TrimEmptyIffBlank(form.ownerName);
      TrimEmptyIffBlank(form.city);
      NoSpaceTrimsToItself(form.email);
      assert form.email != [] by {
        assert IndexOf(form.email, '@') > 0;
      }
    }
  }

  /** Text without whitespace is its own trim. */
  lemma NoSpaceTrimsToItself(s: string)
    requires forall i | 0 <= i < |s| :: !IsJsSpace(s[i])
    ensures Trim(s) == s
  {
    assert TrimStart(s) == s by {
      if |s| > 0 { assert !IsJsSpace(s[0]); }
    }
    if |s| > 0 { assert !IsJsSpace(s[|s| - 1]); }
  }

  /** `handleChange(field, value)`: the field takes the value, and an error
      shown for that field (a non-empty message) is blanked; the entry itself
      stays. */
  function HandleChange(form: RegistrationForm, errors: Errors, field: Field, value: string)
    : (r: (RegistrationForm, Errors))
    ensures r.0 == Set(form, field, value)
    ensures r.1.Keys == errors.Keys
    ensures field in r.1 ==> r.1[field] == ""
    ensures forall other | other in errors && other != field :: r.1[other] == errors[other]
  {
    if field in errors && errors[field] != "" then (Set(form, field, value), errors[field := ""])
    else (Set(form, field, value), errors)
  }

  /** Editing one field changes no other field and no other field's message. */
  lemma HandleChangeTouchesOneField(form: RegistrationForm, errors: Errors, field: Field, value: string, other: Field)
    requires other != field
    ensures Get(HandleChange(form, errors, field, value).0, other) == Get(form, other)
    ensures other in errors ==> HandleChange(form, errors, field, value).1[other] == errors[other]
    ensures Get(HandleChange(form, errors, field, value).0, field) == value
  {
  }
}

=== FILE: reports.dfy ===
/** The sales report's figures (src/pages/restaurant/Reports.tsx,
    `fetchReportData`): revenue and average order value, per-item quantities and
    revenue with the top five, revenue per day, and orders per type. An order's
    amount (`total_amount`) and its calendar day (a locale-formatted date) are
    parameters: the record type does not fix the first, and date formatting is
    not modelled. */
module Reports {
  import opened Model
  import opened Seqs
  import opened Sorting
  import opened Tally

  /** The statuses the report query asks for. */
  predicate Reportable(status: string) {
    status in {"completed", "ready", "preparing", "accepted"}
  }

  function ReportableOrder(): Order -> bool {
    (o: Order) => Reportable(o.status)
  }

  /** The orders the query returns from the restaurant's orders in the chosen
      period: those with a reportable status, in order. */
  function Fetched(orders: seq<Order>): (r: seq<Order>)
    ensures forall k | 0 <= k < |r| :: r[k] in orders && Reportable(r[k].status)
    ensures forall k | 0 <= k < |orders| :: Reportable(orders[k].status) ==> orders[k] in r
  {
    var r := Filter(orders, ReportableOrder());
    assert forall k | 0 <= k < |r| :: ReportableOrder()(r[k]);
    assert forall k | 0 <= k < |orders| :: ReportableOrder()(orders[k]) ==> orders[k] in r;
    r
  }

  /** Pending, cancelled and rejected orders never reach the figures. */
  lemma FetchedExcludesUnfinished(orders: seq<Order>, k: nat)
    requires k < |orders|
    requires orders[k].status in {"pending", "cancelled", "rejected"}
    ensures orders[k] !in Fetched(orders)
  {
    var r := Fetched(orders);
    assert forall j | 0 <= j < |r| :: r[j] != orders[k];
  }

  /** `totalRevenue`. */
  function TotalRevenue(orders: seq<Order>, amountOf: Order -> real): (r: real)
    ensures orders == [] ==> r == 0.0
    ensures (forall k | 0 <= k < |orders| :: amountOf(orders[k]) >= 0.0) ==> r >= 0.0
  {
    SumNonNegative(orders, amountOf);
    Sum(orders, amountOf)
  }

  /** `avgOrderValue`: revenue per order, 0 when there are no orders. */
  function AverageOrderValue(orders: seq<Order>, amountOf: Order -> real): (avg: real)
    ensures orders == [] ==> avg == 0.0
    ensures orders != [] ==> avg * |orders| as real == TotalRevenue(orders, amountOf)
  {
    if |orders| > 0 then TotalRevenue(orders, amountOf) / |orders| as real else 0.0
  }

  /** The average lies between the smallest and the largest order amount. */
  lemma AverageWithinBounds(orders: seq<Order>, amountOf: Order -> real, lo: real, hi: real)
    requires orders != []
    requires forall k | 0 <= k < |orders| :: lo <= amountOf(orders[k]) <= hi
    ensures lo <= AverageOrderValue(orders, amountOf) <= hi
  {
    SumBounds(orders, amountOf, lo, hi);
    QuotientBounds(TotalRevenue(orders, amountOf), |orders| as real, lo, hi);
  }

  lemma QuotientBounds(total: real, n: real, lo: real, hi: real)
    requires n > 0.0
    requires lo * n <= total <= hi * n
    ensures lo <= total / n <= hi
  {
    var q := total / n;
    assert q * n == total;
  }

  lemma {:induction false} SumBounds<T>(s: seq<T>, f: T -> real, lo: real, hi: real)
    requires forall k | 0 <= k < |s| :: lo <= f(s[k]) <= hi
    ensures lo * |s| as real <= Sum(s, f) <= hi * |s| as real
    decreases |s|
  {
    if s != [] {
      SumBounds(s[..|s| - 1], f, lo, hi);
    }
  }

  /** Every item line of every order, in order (a missing list counts as empty). */
  function AllItems(orders: seq<Order>): (items: seq<OrderItem>)
    decreases |orders|
  {
    if orders == [] then [] else AllItems(orders[..|orders| - 1]) + orders[|orders| - 1].items
  }

  function ItemName(item: OrderItem): string {
    item.name
  }

  function ItemQuantity(item: OrderItem): int {
    item.quantity
  }

  function ItemRevenue(item: OrderItem): real {
    item.itemTotal
  }

  /** `itemCounts`: per item name, the quantity and the `item_total` summed over
      all item lines of that name (`item_total` is a unit price, so the revenue
      column does not multiply by quantity). */
  function ItemCounts(orders: seq<Order>): (t: Table)
    ensures DistinctKeys(t)
    ensures forall key :: IndexOfKey(t, key) >= 0 <==> HasKey(AllItems(orders), ItemName, key)
  {
    TallyKeySet(AllItems(orders), ItemName, ItemQuantity, ItemRevenue);
    TallyBy(AllItems(orders), ItemName, ItemQuantity, ItemRevenue)
  }

  /** Each name's figures are the sums over the lines with that name. */
  lemma ItemCountsPerName(orders: seq<Order>, name: string)
    ensures CountOf(ItemCounts(orders), name) == IntSum(AllItems(orders), CountFor(ItemName, ItemQuantity, name))
    ensures RevenueOf(ItemCounts(orders), name) == Sum(AllItems(orders), RevenueFor(ItemName, ItemRevenue, name))
    ensures IndexOfKey(ItemCounts(orders), name) >= 0 <==>
      exists k | 0 <= k < |AllItems(orders)| :: AllItems(orders)[k].name == name
  {
    TallyPerKey(AllItems(orders), ItemName, ItemQuantity, ItemRevenue, name);
    TallyKeys(AllItems(orders), ItemName, ItemQuantity, ItemRevenue, name);
  }

  /** Across names, the quantities add up to every unit sold. */
  lemma ItemCountsGrandTotal(orders: seq<Order>)
    ensures IntSum(ItemCounts(orders), EntryCount) == IntSum(AllItems(orders), ItemQuantity)
    ensures Sum(ItemCounts(orders), EntryRevenue) == Sum(AllItems(orders), ItemRevenue)
  {
    TallyGrandTotals(AllItems(orders), ItemName, ItemQuantity, ItemRevenue);
  }

  /** The ascending sort key that orders entries by descending revenue. */
  function NegRevenue(e: Entry): real {
    -e.revenue
  }

  const TopItemsCount := 5

  /** `topItems`: the entries by descending revenue (ties in table order), the
      first five. */
  function TopItems(counts: Table): (top: Table)
    ensures |top| == if |counts| < TopItemsCount then |counts| else TopItemsCount
    ensures forall i, j | 0 <= i < j < |top| :: top[i].revenue >= top[j].revenue
    ensures forall k | 0 <= k < |top| :: top[k] in counts
    ensures multiset(top) <= multiset(counts)
  {
    var n := if |counts| < TopItemsCount then |counts| else TopItemsCount;
    SortedPrefix(counts, n);
    SortBy(counts, NegRevenue)[..n]
  }

  /** Ties are broken by table order: the top entries with a given revenue are
      the first entries of the table with that revenue, in the table's order. */
  lemma TopItemsTiesInTableOrder(counts: Table, revenue: real)
    ensures WithKey(TopItems(counts), NegRevenue, -revenue) <= WithKey(counts, NegRevenue, -revenue)
  {
    var n := if |counts| < TopItemsCount then |counts| else TopItemsCount;
    WithKeyPrefix(SortBy(counts, NegRevenue), n, NegRevenue, -revenue);
    SortStable(counts, NegRevenue, -revenue);
  }

  /** A prefix of the revenue-descending order is itself descending and drawn
      from the table, each entry at most as often as the table holds it. */
  lemma SortedPrefix(counts: Table, n: nat)
    requires n <= |counts|
    ensures forall i, j | 0 <= i < j < n ::
      SortBy(counts, NegRevenue)[..n][i].revenue >= SortBy(counts, NegRevenue)[..n][j].revenue
    ensures forall k | 0 <= k < n :: SortBy(counts, NegRevenue)[..n][k] in counts
    ensures multiset(SortBy(counts, NegRevenue)[..n]) <= multiset(counts)
  {
    var sorted := SortBy(counts, NegRevenue);
    var top := sorted[..n];
    PrefixMultiset(sorted, n);
    forall k | 0 <= k < n ensures top[k] in counts {
      assert top[k] == sorted[k];
      assert sorted[k] in multiset(sorted);
    }
    forall i, j | 0 <= i < j < n ensures top[i].revenue >= top[j].revenue {
      assert top[i] == sorted[i] && top[j] == sorted[j];
      assert NegRevenue(sorted[i]) <= NegRevenue(sorted[j]);
    }
  }

  /** Nothing left out of the top five earned more than anything in it. */
  lemma TopItemsRanking(counts: Table, x: Entry)
    requires x in counts
    ensures x in TopItems(counts) || forall k | 0 <= k < |TopItems(counts)| :: x.revenue <= TopItems(counts)[k].revenue
  {
    var sorted := SortBy(counts, NegRevenue);
    assert x in multiset(sorted);
    var j :| 0 <= j < |sorted| && sorted[j] == x;
    var top := TopItems(counts);
    if j < |top| {
      assert top[j] == x;
    } else {
      forall k | 0 <= k < |top| ensures x.revenue <= top[k].revenue {
        assert top[k] == sorted[k];
        assert NegRevenue(sorted[k]) <= NegRevenue(sorted[j]);
      }
    }
  }

  function OneOrder(o: Order): int {
    1
  }

  /** `dailyData`: per calendar day, the revenue and the number of orders, days
      in order of first appearance. */
  function DailyData(orders: seq<Order>, dayOf: Order -> string, amountOf: Order -> real): (t: Table)
    ensures DistinctKeys(t)
    ensures forall key :: IndexOfKey(t, key) >= 0 <==> HasKey(orders, dayOf, key)
  {
    TallyKeySet(orders, dayOf, OneOrder, amountOf);
    TallyBy(orders, dayOf, OneOrder, amountOf)
  }

  const DailyWindow := 14

  /** `dailyRevenue`: the last fourteen days of `dailyData`. */
  function DailyRevenue(orders: seq<Order>, dayOf: Order -> string, amountOf: Order -> real): (r: Table)
    ensures |r| <= DailyWindow
    ensures var all := DailyData(orders, dayOf, amountOf);
      |r| == (if |all| < DailyWindow then |all| else DailyWindow) && r == all[|all| - |r|..]
  {
    var all := DailyData(orders, dayOf, amountOf);
    if |all| <= DailyWindow then all else all[|all| - DailyWindow..]
  }

  /** Before the cut, the days account for every order and all the revenue. */
  lemma DailyDataTotals(orders: seq<Order>, dayOf: Order -> string, amountOf: Order -> real)
    ensures IntSum(DailyData(orders, dayOf, amountOf), EntryCount) == |orders|
    ensures Sum(DailyData(orders, dayOf, amountOf), EntryRevenue) == TotalRevenue(orders, amountOf)
  {
    TallyGrandTotals(orders, dayOf, OneOrder, amountOf);
    IntSumOfOnes(orders);
  }

  lemma {:induction false} IntSumOfOnes(orders: seq<Order>)
    ensures IntSum(orders, OneOrder) == |orders|
    decreases |orders|
  {
    if orders != [] {
      IntSumOfOnes(orders[..|orders| - 1]);
    }
  }

  /** An order's bucket: its type, or "unknown" when it has none. */
  function TypeKey(o: Order): string {
    if o.orderType == [] then "unknown" else o.orderType
  }

  function NoRevenue(o: Order): real {
    0.0
  }

  /** `typeCounts`: orders per type. */
  function TypeCounts(orders: seq<Order>): (t: Table)
    ensures DistinctKeys(t)
    ensures forall key :: IndexOfKey(t, key) >= 0 <==> HasKey(orders, TypeKey, key)
  {
    TallyKeySet(orders, TypeKey, OneOrder, NoRevenue);
    TallyBy(orders, TypeKey, OneOrder, NoRevenue)
  }

  /** The type buckets account for every order exactly once. */
  lemma TypeCountsCoverEveryOrder(orders: seq<Order>)
    ensures IntSum(TypeCounts(orders), EntryCount) == |orders|
  {
    TallyGrandTotals(orders, TypeKey, OneOrder, NoRevenue);
    IntSumOfOnes(orders);
  }

  /** The "unknown" bucket counts the orders without a type (and any whose type
      is literally "unknown"). */
  lemma UnknownBucket(orders: seq<Order>)
    ensures CountOf(TypeCounts(orders), "unknown")
         == IntSum(orders, CountFor(TypeKey, OneOrder, "unknown"))
    ensures IndexOfKey(TypeCounts(orders), "unknown") >= 0 <==>
      exists k | 0 <= k < |orders| :: orders[k].orderType == [] || orders[k].orderType == "unknown"
  {
    TallyPerKey(orders, TypeKey, OneOrder, NoRevenue, "unknown");
    TallyKeys(orders, TypeKey, OneOrder, NoRevenue, "unknown");
  }

  /** The figures `fetchReportData` stores. */
  datatype ReportData = ReportData(
    totalRevenue: real,
    totalOrders: nat,
    avgOrderValue: real,
    topItems: Table,
    dailyRevenue: Table,
    orderTypes: Table)

  /** All the figures over the fetched orders. */
  function BuildReport(orders: seq<Order>, dayOf: Order -> string, amountOf: Order -> real): (d: ReportData)
    ensures d.totalOrders == |orders|
    ensures |d.topItems| <= TopItemsCount && |d.dailyRevenue| <= DailyWindow
  {
    var total := TotalRevenue(orders, amountOf);
    var avg := AverageOrderValue(orders, amountOf);
    var top := TopItems(ItemCounts(orders));
    var daily := DailyRevenue(orders, dayOf, amountOf);
    ReportData(total, |orders|, avg, top, daily, TypeCounts(orders))
  }

  /** The report's figures agree with one another: the type buckets add up to
      the order count, the days before the cut add up to the revenue, and the
      top items come from the per-item table. */
  lemma ReportFiguresAgree(orders: seq<Order>, dayOf: Order -> string, amountOf: Order -> real)
    ensures var d := BuildReport(orders, dayOf, amountOf);
      && IntSum(d.orderTypes, EntryCount) == d.totalOrders
      && Sum(DailyData(orders, dayOf, amountOf), EntryRevenue) == d.totalRevenue
      && multiset(d.topItems) <= multiset(ItemCounts(orders))
  {
    var d := BuildReport(orders, dayOf, amountOf);
    assert d.orderTypes == TypeCounts(orders);
    TypeCountsCoverEveryOrder(orders);
    assert d.totalRevenue == TotalRevenue(orders, amountOf);
    DailyDataTotals(orders, dayOf, amountOf);
    assert d.topItems == TopItems(ItemCounts(orders));
  }
}

=== FILE: restaurants.dfy ===
/** The platform admin's restaurant list (src/pages/admin/AllRestaurants.tsx):
    the search and status filter, the "active" counter, the status badge and the
    block/unblock dialog's guard, with the call it makes
    (`toggleRestaurantStatus`, src/services/adminService.ts). */
module AdminRestaurants {
  import opened Wrappers
  import opened Model
  import opened Seqs
  import opened Text

  /** An optional text field contains the (already lower-cased) term after
      lower-casing; a missing field never matches. */
  predicate FieldContains(field: Option<string>, term: string) {
    field.Some? && Contains(ToLower(field.value), term)
  }

  /** The search test: the lower-cased term occurs in the name, owner, phone or
      city, each lower-cased. */
  predicate MatchesTerm(r: Restaurant, term: string) {
    var t := ToLower(term);
    || Contains(ToLower(r.name), t)
    || FieldContains(r.ownerName, t)
    || Contains(ToLower(r.phone), t)
    || FieldContains(r.city, t)
  }

  function TermMatch(term: string): Restaurant -> bool {
    (r: Restaurant) => MatchesTerm(r, term)
  }

  function StatusMatch(status: string): Restaurant -> bool {
    (r: Restaurant) => r.status == status
  }

  /** The filter effect: the search applies only when the term is non-empty, the
      status filter only when it is not "all"; each keeps list order. */
  function FilterRestaurants(restaurants: seq<Restaurant>, term: string, statusFilter: string): (r: seq<Restaurant>)
    ensures |r| <= |restaurants|
  {
    var searched := if term != [] then Filter(restaurants, TermMatch(term)) else restaurants;
    if statusFilter != "all" then Filter(searched, StatusMatch(statusFilter)) else searched
  }

  /** Whether the list shows restaurant `r`. */
  predicate Shown(r: Restaurant, term: string, statusFilter: string) {
    (term == [] || MatchesTerm(r, term)) && (statusFilter == "all" || r.status == statusFilter)
  }

  function ShownBy(term: string, statusFilter: string): Restaurant -> bool {
    (r: Restaurant) => Shown(r, term, statusFilter)
  }

  /** The two passes are one order-preserving filter by `Shown`. */
  lemma FilterIsOnePass(restaurants: seq<Restaurant>, term: string, statusFilter: string)
    ensures FilterRestaurants(restaurants, term, statusFilter) == Filter(restaurants, ShownBy(term, statusFilter))
  {
    var shown := ShownBy(term, statusFilter);
    if term != [] && statusFilter != "all" {
      FilterFilter(restaurants, TermMatch(term), StatusMatch(statusFilter), shown);
    } else if term != [] {
      FilterSamePredicate(restaurants, TermMatch(term), shown);
    } else if statusFilter != "all" {
      FilterSamePredicate(restaurants, StatusMatch(statusFilter), shown);
    } else {
      FilterKeepsAll(restaurants, shown);
    }
  }

  /** A restaurant is listed exactly when it passes both filters. */
  lemma FilterMembership(restaurants: seq<Restaurant>, term: string, statusFilter: string, k: nat)
    requires k < |restaurants|
    ensures restaurants[k] in FilterRestaurants(restaurants, term, statusFilter)
        <==> Shown(restaurants[k], term, statusFilter)
  {
    FilterIsOnePass(restaurants, term, statusFilter);
    assert ShownBy(term, statusFilter)(restaurants[k]) == Shown(restaurants[k], term, statusFilter);
  }

  /** The "Active" badge's count. */
  function ActiveCount(restaurants: seq<Restaurant>): (n: nat)
    ensures n <= |restaurants|
  {
    Count(restaurants, StatusMatch("active"))
  }

  /** The counter equals the length of the list under the "active" status filter
      with no search. */
  lemma ActiveCountIsActiveTab(restaurants: seq<Restaurant>)
    ensures ActiveCount(restaurants) == |FilterRestaurants(restaurants, [], "active")|
  {
  }

  /** `getStatusBadge(status)`. */
  function StatusBadge(status: string): (variant: string)
    ensures status == "active" ==> variant == "success"
    ensures status == "blocked" ==> variant == "error"
    ensures status == "trial" ==> variant == "warning"
    ensures variant == "neutral" <==> status != "active" && status != "blocked" && status != "trial"
  {
    if status == "active" then "success"
    else if status == "blocked" then "error"
    else if status == "trial" then "warning"
    else "neutral"
  }

  /** The RPC `toggleRestaurantStatus` makes: the new active flag and the reason
      (null when empty). */
  datatype StatusToggle = StatusToggle(restaurantId: string, isActive: bool, blockReason: Option<string>)

  /** What pressing the dialog's button does. */
  datatype BlockOutcome = ReasonRequired | NoRestaurant | Send(toggle: StatusToggle)

  /** The restaurant is blocked now. */
  predicate IsBlocked(restaurant: Option<Restaurant>) {
    restaurant.Some? && restaurant.value.status == "blocked"
  }

  /** `BlockModal.handleToggle`: blocking needs a non-blank reason, checked
      before the dialog checks it has a restaurant; the current "blocked" state
      is sent as the new active flag, and the reason as typed (or null). */
  function HandleToggle(restaurant: Option<Restaurant>, reason: string): (o: BlockOutcome)
    ensures o == ReasonRequired <==> !IsBlocked(restaurant) && IsBlank(reason)
    ensures o == NoRestaurant <==> restaurant.None? && !IsBlank(reason)
    ensures o.Send? ==>
      && restaurant.Some?
      && o.toggle.restaurantId == restaurant.value.id
      && o.toggle.isActive == IsBlocked(restaurant)
      && o.toggle.blockReason == NonEmpty(reason)
  {
    TrimEmptyIffBlank(reason);
    var blocked := IsBlocked(restaurant);
    if !blocked && Trim(reason) == [] then ReasonRequired
    else if restaurant.None? then NoRestaurant
    else Send(StatusToggle(restaurant.value.id, blocked, NonEmpty(reason)))
  }

  /** Unblocking always goes through and reactivates; blocking with a reason
      deactivates and records the reason. */
  lemma ToggleFlipsActivity(restaurant: Restaurant, reason: string)
    ensures restaurant.status == "blocked" ==>
      HandleToggle(Some(restaurant), reason).Send? && HandleToggle(Some(restaurant), reason).toggle.isActive
    ensures restaurant.status != "blocked" && !IsBlank(reason) ==>
      && HandleToggle(Some(restaurant), reason).Send?
      && !HandleToggle(Some(restaurant), reason).toggle.isActive
      && HandleToggle(Some(restaurant), reason).toggle.blockReason == Some(reason)
  {
    if restaurant.status != "blocked" && !IsBlank(reason) {
      assert reason != [];
    }
  }
}

=== FILE: seqs.dfy ===
/** Sequence operations the source takes from `Array.prototype`: `filter`,
    removal of one index (`splice(i, 1)` and `filter((_, j) => j !== i)`),
    and counting. */
module Seqs {

  /** `s.filter(p)`: the elements satisfying `p`, in their original order. */
  function Filter<T>(s: seq<T>, p: T -> bool): (r: seq<T>)
    ensures |r| <= |s|
    ensures forall i | 0 <= i < |r| :: r[i] in s && p(r[i])
    ensures forall i | 0 <= i < |s| :: p(s[i]) <==> s[i] in r
    ensures forall i | 0 <= i < |s| ::
      multiset(r)[s[i]] == if p(s[i]) then multiset(s)[s[i]] else 0
  {
    if s == [] then []
    else
      var rest := Filter(s[..|s| - 1], p);
      var last := s[|s| - 1];
      assert s == s[..|s| - 1] + [last];
      FilterStep(s[..|s| - 1], last, rest, p);
      if p(last) then rest + [last] else rest
  }

  /** One more element: the filter of `init` extended by `last` when it passes
      is the filter of `init + [last]`. */
  lemma FilterStep<T>(init: seq<T>, last: T, rest: seq<T>, p: T -> bool)
    requires |rest| <= |init|
    requires forall i | 0 <= i < |rest| :: rest[i] in init && p(rest[i])
    requires forall i | 0 <= i < |init| :: p(init[i]) <==> init[i] in rest
    requires forall i | 0 <= i < |init| ::
      multiset(rest)[init[i]] == if p(init[i]) then multiset(init)[init[i]] else 0
    ensures var s, r := init + [last], if p(last) then rest + [last] else rest;
      && |r| <= |s|
      && (forall i | 0 <= i < |r| :: r[i] in s && p(r[i]))
      && (forall i | 0 <= i < |s| :: p(s[i]) <==> s[i] in r)
      && (forall i | 0 <= i < |s| :: multiset(r)[s[i]] == if p(s[i]) then multiset(s)[s[i]] else 0)
  {
    var s := init + [last];
    var r := if p(last) then rest + [last] else rest;
    assert multiset(s) == multiset(init) + multiset{last};
    forall i | 0 <= i < |r| ensures r[i] in s && p(r[i]) {
      if i < |rest| { assert r[i] == rest[i]; }
    }
    forall i | 0 <= i < |s| ensures p(s[i]) <==> s[i] in r {
      if i < |init| {
        assert s[i] == init[i];
      }
    }
    forall i | 0 <= i < |s| ensures multiset(r)[s[i]] == if p(s[i]) then multiset(s)[s[i]] else 0 {
      var x := s[i];
      if x in init {
        var j :| 0 <= j < |init| && init[j] == x;
        assert multiset(rest)[x] == if p(x) then multiset(init)[x] else 0;
      } else {
        assert x == last;
        assert x !in rest;
      }
    }
  }

  /** Filtering distributes over concatenation, so it keeps relative order. */
  lemma {:induction false} FilterConcat<T>(a: seq<T>, b: seq<T>, p: T -> bool)
    ensures Filter(a + b, p) == Filter(a, p) + Filter(b, p)
    decreases |b|
  {
    if b == [] {
      assert a + b == a;
    } else {
      var b' := b[..|b| - 1];
      assert (a + b)[..|a + b| - 1] == a + b';
      FilterConcat(a, b', p);
    }
  }

  /** Filtering twice with the same predicate changes nothing the second time. */
  lemma {:induction false} FilterIdempotent<T>(s: seq<T>, p: T -> bool)
    ensures Filter(Filter(s, p), p) == Filter(s, p)
    decreases |s|
  {
    if s != [] {
      var s' := s[..|s| - 1];
      var last := s[|s| - 1];
      FilterIdempotent(s', p);
      if p(last) {
        FilterConcat(Filter(s', p), [last], p);
        assert Filter([last], p) == [last] by {
          assert [last][..0] == [];
        }
      }
    }
  }

  /** Filtering by a predicate every element meets changes nothing. */
  lemma {:induction false} FilterKeepsAll<T>(s: seq<T>, p: T -> bool)
    requires forall k | 0 <= k < |s| :: p(s[k])
    ensures Filter(s, p) == s
    decreases |s|
  {
    if s != [] {
      var init, last := s[..|s| - 1], s[|s| - 1];
      InitLast(s);
      assert forall k | 0 <= k < |init| :: init[k] == s[k];
      FilterKeepsAll(init, p);
      assert p(last);
    }
  }

  /** A non-empty sequence is its front followed by its last element. */
  lemma InitLast<T>(s: seq<T>)
    requires s != []
    ensures s[..|s| - 1] + [s[|s| - 1]] == s
  {
  }

  /** A prefix holds each element at most as often as the whole sequence. */
  lemma PrefixMultiset<T>(s: seq<T>, n: nat)
    requires n <= |s|
    ensures multiset(s[..n]) <= multiset(s)
  {
    assert s == s[..n] + s[n..];
  }

  /** Two filters in a row are one filter by the conjunction. */
  lemma {:induction false} FilterFilter<T>(s: seq<T>, p: T -> bool, q: T -> bool, both: T -> bool)
    requires forall x :: both(x) == (p(x) && q(x))
    ensures Filter(Filter(s, p), q) == Filter(s, both)
    decreases |s|
  {
    if s != [] {
      var init := s[..|s| - 1];
      var last := s[|s| - 1];
      FilterFilter(init, p, q, both);
      if p(last) {
        FilterConcat(Filter(init, p), [last], q);
        assert Filter([last], q) == (if q(last) then [last] else []) by {
          assert [last][..0] == [];
        }
      }
    }
  }

  /** Filters by predicates that agree everywhere agree. */
  lemma {:induction false} FilterSamePredicate<T>(s: seq<T>, p: T -> bool, q: T -> bool)
    requires forall x :: p(x) == q(x)
    ensures Filter(s, p) == Filter(s, q)
    decreases |s|
  {
    if s != [] {
      FilterSamePredicate(s[..|s| - 1], p, q);
    }
  }

  /** The number of elements satisfying `p`: `s.filter(p).length`. */
  function Count<T>(s: seq<T>, p: T -> bool): (n: nat)
    ensures n <= |s|
    ensures n == |Filter(s, p)|
  {
    if s == [] then 0
    else Count(s[..|s| - 1], p) + (if p(s[|s| - 1]) then 1 else 0)
  }

  /** `s` without its element at index `i`; the others keep their order. */
  function RemoveAt<T>(s: seq<T>, i: nat): (r: seq<T>)
    requires i < |s|
    ensures |r| == |s| - 1
    ensures forall j | 0 <= j < i :: r[j] == s[j]
    ensures forall j | i <= j < |r| :: r[j] == s[j + 1]
    ensures multiset(r) + multiset{s[i]} == multiset(s)
  {
    assert s == s[..i] + [s[i]] + s[i + 1..];
    s[..i] + s[i + 1..]
  }

  /** Removing before the last element commutes with dropping it. */
  lemma RemoveAtInit<T>(s: seq<T>, i: nat)
    requires i < |s| - 1
    ensures RemoveAt(s, i) == RemoveAt(s[..|s| - 1], i) + [s[|s| - 1]]
  {
    var a := RemoveAt(s, i);
    var b := RemoveAt(s[..|s| - 1], i) + [s[|s| - 1]];
    assert |a| == |b|;
    forall j | 0 <= j < |a| ensures a[j] == b[j] {
      if j < i { assert b[j] == s[..|s| - 1][j]; }
      else if j < |a| - 1 { assert b[j] == s[..|s| - 1][j + 1]; }
    }
  }

  /** `s.filter((_, j) => j !== i)`: index `i` dropped when it exists, the
      sequence unchanged otherwise. */
  function RemoveIndex<T>(s: seq<T>, i: int): (r: seq<T>)
    ensures 0 <= i < |s| ==> r == RemoveAt(s, i)
    ensures !(0 <= i < |s|) ==> r == s
  {
    if 0 <= i < |s| then RemoveAt(s, i) else s
  }

  /** The sum of `f` over `s`: `s.reduce((sum, x) => sum + f(x), 0)`. */
  function Sum<T>(s: seq<T>, f: T -> real): real {
    if s == [] then 0.0 else Sum(s[..|s| - 1], f) + f(s[|s| - 1])
  }

  /** Amounts that are never negative add up to a non-negative total. */
  lemma {:induction false} SumNonNegative<T>(s: seq<T>, f: T -> real)
    ensures (forall k | 0 <= k < |s| :: f(s[k]) >= 0.0) ==> Sum(s, f) >= 0.0
    decreases |s|
  {
    if s != [] {
      SumNonNegative(s[..|s| - 1], f);
      assert forall k | 0 <= k < |s| - 1 :: s[..|s| - 1][k] == s[k];
    }
  }

  lemma {:induction false} SumConcat<T>(a: seq<T>, b: seq<T>, f: T -> real)
    ensures Sum(a + b, f) == Sum(a, f) + Sum(b, f)
    decreases |b|
  {
    if b == [] {
      assert a + b == a;
    } else {
      assert (a + b)[..|a + b| - 1] == a + b[..|b| - 1];
      SumConcat(a, b[..|b| - 1], f);
    }
  }

  lemma SumSingleton<T>(x: T, f: T -> real)
    ensures Sum([x], f) == f(x)
  {
    assert [x][..0] == [];
  }

  /** Replacing one element changes the sum by the difference of the two. */
  lemma SumUpdate<T>(s: seq<T>, i: nat, x: T, f: T -> real)
    requires i < |s|
    ensures Sum(s[i := x], f) == Sum(s, f) - f(s[i]) + f(x)
  {
    assert s == s[..i] + [s[i]] + s[i + 1..];
    assert s[i := x] == s[..i] + [x] + s[i + 1..];
    SumConcat(s[..i] + [s[i]], s[i + 1..], f);
    SumConcat(s[..i], [s[i]], f);
    SumConcat(s[..i] + [x], s[i + 1..], f);
    SumConcat(s[..i], [x], f);
    SumSingleton(s[i], f);
    SumSingleton(x, f);
  }

  /** Removing one element takes it out of the sum. */
  lemma {:induction false} SumRemoveAt<T>(s: seq<T>, i: nat, f: T -> real)
    requires i < |s|
    ensures Sum(RemoveAt(s, i), f) == Sum(s, f) - f(s[i])
    decreases |s|
  {
    var init := s[..|s| - 1];
    if i == |s| - 1 {
      assert RemoveAt(s, i) == init;
    } else {
      SumRemoveAt(init, i, f);
      RemoveAtInit(s, i);
      var r := RemoveAt(s, i);
      assert r[..|r| - 1] == RemoveAt(init, i);
    }
  }


  /** The integer sum of `f` over `s`. */
  function IntSum<T>(s: seq<T>, f: T -> int): int {
    if s == [] then 0 else IntSum(s[..|s| - 1], f) + f(s[|s| - 1])
  }

  lemma {:induction false} IntSumConcat<T>(a: seq<T>, b: seq<T>, f: T -> int)
    ensures IntSum(a + b, f) == IntSum(a, f) + IntSum(b, f)
    decreases |b|
  {
    if b == [] {
      assert a + b == a;
    } else {
      assert (a + b)[..|a + b| - 1] == a + b[..|b| - 1];
      IntSumConcat(a, b[..|b| - 1], f);
    }
  }

  lemma IntSumSingleton<T>(x: T, f: T -> int)
    ensures IntSum([x], f) == f(x)
  {
    assert [x][..0] == [];
  }

  lemma IntSumUpdate<T>(s: seq<T>, i: nat, x: T, f: T -> int)
    requires i < |s|
    ensures IntSum(s[i := x], f) == IntSum(s, f) - f(s[i]) + f(x)
  {
    assert s == s[..i] + [s[i]] + s[i + 1..];
    assert s[i := x] == s[..i] + [x] + s[i + 1..];
    IntSumConcat(s[..i] + [s[i]], s[i + 1..], f);
    IntSumConcat(s[..i], [s[i]], f);
    IntSumConcat(s[..i] + [x], s[i + 1..], f);
    IntSumConcat(s[..i], [x], f);
    IntSumSingleton(s[i], f);
    IntSumSingleton(x, f);
  }

  lemma {:induction false} IntSumRemoveAt<T>(s: seq<T>, i: nat, f: T -> int)
    requires i < |s|
    ensures IntSum(RemoveAt(s, i), f) == IntSum(s, f) - f(s[i])
    decreases |s|
  {
    var init := s[..|s| - 1];
    if i == |s| - 1 {
      assert RemoveAt(s, i) == init;
    } else {
      IntSumRemoveAt(init, i, f);
      RemoveAtInit(s, i);
      var r := RemoveAt(s, i);
      assert r[..|r| - 1] == RemoveAt(init, i);
    }
  }

}

=== FILE: slug.dfy ===
/** `generateSlug` (src/utils/helpers.ts): lower-case the name, turn every run of
    characters outside a-z and 0-9 into one '-', strip leading and trailing
    '-', and keep at most 50 characters. */
module Slug {
  import opened Text

  const MaxSlugLength: nat := 50

  /** A character `[a-z0-9]` keeps. */
  predicate IsSlugChar(c: char) {
    IsAsciiLower(c) || IsAsciiDigit(c)
  }

  /** Every character is a-z, 0-9 or '-'. */
  predicate SlugAlphabet(s: string) {
    forall i | 0 <= i < |s| :: IsSlugChar(s[i]) || s[i] == '-'
  }

  /** No two consecutive '-'. */
  predicate NoDoubleDash(s: string) {
    forall i | 0 <= i < |s| - 1 :: !(s[i] == '-' && s[i + 1] == '-')
  }

  /** A slug `generateSlug` leaves as it is. */
  predicate IsCleanSlug(s: string) {
    && SlugAlphabet(s)
    && NoDoubleDash(s)
    && |s| <= MaxSlugLength
    && (s == [] || (s[0] != '-' && s[|s| - 1] != '-'))
  }

  /** `s` without its leading characters outside `[a-z0-9]`. */
  function SkipRun(s: string): (r: string)
    ensures |r| <= |s| && r == s[|s| - |r|..]
    ensures r == [] || IsSlugChar(r[0])
  {
    if s != [] && !IsSlugChar(s[0]) then SkipRun(s[1..]) else s
  }

  /** `s.replace(/[^a-z0-9]+/g, "-")`. */
  function Dashify(s: string): (r: string)
    ensures SlugAlphabet(r)
    ensures NoDoubleDash(r)
    ensures |r| <= |s|
    ensures r == [] <==> s == []
    ensures r != [] ==> (r[0] == '-' <==> !IsSlugChar(s[0]))
    decreases |s|
  {
    if s == [] then []
    else if IsSlugChar(s[0]) then [s[0]] + Dashify(s[1..])
    else
      var rest := Dashify(SkipRun(s[1..]));
      assert rest == [] || rest[0] != '-';
      "-" + rest
  }

  /** `s.replace(/^-+/, "")`. */
  function DropLeadingDashes(s: string): (r: string)
    ensures |r| <= |s| && r == s[|s| - |r|..]
    ensures forall i | 0 <= i < |s| - |r| :: s[i] == '-'
    ensures r == [] || r[0] != '-'
  {
    if s != [] && s[0] == '-' then DropLeadingDashes(s[1..]) else s
  }

  /** `s.replace(/-+$/, "")`. */
  function DropTrailingDashes(s: string): (r: string)
    ensures |r| <= |s| && r == s[..|r|]
    ensures forall i | |r| <= i < |s| :: s[i] == '-'
    ensures r == [] || r[|r| - 1] != '-'
  {
    if s != [] && s[|s| - 1] == '-' then DropTrailingDashes(s[..|s| - 1]) else s
  }

  /** `s.substring(0, n)`. */
  function Take(s: string, n: nat): (r: string)
    ensures |r| <= n && |r| <= |s| && r == s[..|r|]
    ensures |s| <= n ==> r == s
  {
    if |s| <= n then s else s[..n]
  }

  lemma SuffixKeepsShape(s: string, r: string)
    requires SlugAlphabet(s) && NoDoubleDash(s)
    requires |r| <= |s| && r == s[|s| - |r|..]
    ensures SlugAlphabet(r) && NoDoubleDash(r)
  {
    forall i | 0 <= i < |r| ensures r[i] == s[i + |s| - |r|] {}
  }

  lemma PrefixKeepsShape(s: string, r: string)
    requires SlugAlphabet(s) && NoDoubleDash(s)
    requires |r| <= |s| && r == s[..|r|]
    ensures SlugAlphabet(r) && NoDoubleDash(r)
  {
    forall i | 0 <= i < |r| ensures r[i] == s[i] {}
  }

  /** The dashed and stripped name `generateSlug` cuts to length. */
  function Stripped(name: string): (t: string)
    ensures SlugAlphabet(t) && NoDoubleDash(t)
    ensures t == [] || (t[0] != '-' && t[|t| - 1] != '-')
    ensures |t| <= |name|
    ensures SlugChars(t) == SlugChars(ToLower(name))
  {
    var dashed := Dashify(ToLower(name));
    var lead := DropLeadingDashes(dashed);
    DashifyKeepsSlugChars(ToLower(name));
    DropLeadingKeepsSlugChars(dashed);
    DropTrailingKeepsSlugChars(lead);
    SuffixKeepsShape(dashed, lead);
    PrefixKeepsShape(lead, DropTrailingDashes(lead));
    DropTrailingDashes(lead)
  }

  /** `generateSlug(name)`: only a-z, 0-9 and '-', never a leading '-', never
      "--", at most 50 characters, and no trailing '-' unless the 50-character
      cut made one. */
  function GenerateSlug(name: string): (slug: string)
    ensures SlugAlphabet(slug)
    ensures NoDoubleDash(slug)
    ensures slug == [] || slug[0] != '-'
    ensures |slug| <= MaxSlugLength
    ensures |Stripped(name)| <= MaxSlugLength ==> slug == [] || slug[|slug| - 1] != '-'
  {
    var trimmed := Stripped(name);
    var slug := Take(trimmed, MaxSlugLength);
    PrefixKeepsShape(trimmed, slug);
    slug
  }

  /** The letters and digits of `s`, in order. */
  function SlugChars(s: string): (r: string)
    ensures |r| <= |s|
    ensures forall i | 0 <= i < |r| :: IsSlugChar(r[i])
  {
    if s == [] then [] else (if IsSlugChar(s[0]) then [s[0]] else []) + SlugChars(s[1..])
  }

  lemma {:induction false} SlugCharsConcat(a: string, b: string)
    ensures SlugChars(a + b) == SlugChars(a) + SlugChars(b)
    decreases |a|
  {
    if a != [] {
      assert (a + b)[1..] == a[1..] + b;
      SlugCharsConcat(a[1..], b);
    } else {
      assert a + b == b;
    }
  }

  lemma {:induction false} SlugCharsOfNone(s: string)
    requires forall i | 0 <= i < |s| :: !IsSlugChar(s[i])
    ensures SlugChars(s) == []
    decreases |s|
  {
    if s != [] {
      SlugCharsOfNone(s[1..]);
    }
  }

  /** A string starting with a letter or digit has one. */
  lemma SlugCharsOfLeading(s: string)
    requires s != [] && IsSlugChar(s[0])
    ensures SlugChars(s) != []
  {
  }

  /** Skipping a run of other characters skips no letter or digit. */
  lemma {:induction false} SkipRunKeepsSlugChars(s: string)
    ensures SlugChars(SkipRun(s)) == SlugChars(s)
    decreases |s|
  {
    if s != [] && !IsSlugChar(s[0]) {
      SkipRunKeepsSlugChars(s[1..]);
    }
  }

  /** Replacing runs of other characters by '-' keeps every letter and digit,
      in order, and adds none. */
  lemma {:induction false} DashifyKeepsSlugChars(s: string)
    ensures SlugChars(Dashify(s)) == SlugChars(s)
    decreases |s|
  {
    if s != [] {
      if IsSlugChar(s[0]) {
        DashifyKeepsSlugChars(s[1..]);
        assert ([s[0]] + Dashify(s[1..]))[1..] == Dashify(s[1..]);
      } else {
        SkipRunKeepsSlugChars(s[1..]);
        DashifyKeepsSlugChars(SkipRun(s[1..]));
        assert ("-" + Dashify(SkipRun(s[1..])))[1..] == Dashify(SkipRun(s[1..]));
      }
    }
  }

  /** No character of `s` is one `[a-z0-9]` keeps. */
  predicate NoSlugChar(s: string) {
    forall i | 0 <= i < |s| :: !IsSlugChar(s[i])
  }

  /** A run of other characters in front of a letter or digit (or of the end)
      is skipped whole. */
  lemma {:induction false} SkipRunOfSeparator(sep: string, b: string)
    requires NoSlugChar(sep)
    requires b == [] || IsSlugChar(b[0])
    ensures SkipRun(sep + b) == b
    decreases |sep|
  {
    if sep == [] {
      assert sep + b == b;
    } else {
      assert (sep + b)[0] == sep[0];
      assert (sep + b)[1..] == sep[1..] + b;
      SkipRunOfSeparator(sep[1..], b);
    }
  }

  /** Skipping stops inside `x` when `x` holds a letter or digit. */
  lemma {:induction false} SkipRunStopsInside(x: string, y: string, j: nat)
    requires j < |x| && IsSlugChar(x[j])
    ensures SkipRun(x + y) == SkipRun(x) + y
    decreases |x|
  {
    assert (x + y)[0] == x[0];
    if !IsSlugChar(x[0]) {
      assert (x + y)[1..] == x[1..] + y;
      SkipRunStopsInside(x[1..], y, j - 1);
    }
  }

  /** Skipping never passes a letter or digit. */
  lemma {:induction false} SkipRunKeepsFrom(x: string, j: nat)
    requires j < |x| && IsSlugChar(x[j])
    ensures |SkipRun(x)| >= |x| - j
    decreases |x|
  {
    if !IsSlugChar(x[0]) {
      SkipRunKeepsFrom(x[1..], j - 1);
    }
  }

  /** Dashify works piecewise when the first piece ends in a letter or digit:
      no run of other characters straddles the cut. */
  lemma {:induction false} DashifyConcat(x: string, y: string)
    requires x != [] && IsSlugChar(x[|x| - 1])
    ensures Dashify(x + y) == Dashify(x) + Dashify(y)
    decreases |x|, 1
  {
    if IsSlugChar(x[0]) {
      DashifyConcatKept(x, y);
    } else {
      DashifyConcatSkipped(x, y);
    }
  }

  /** DashifyConcat when `x` starts with a letter or digit. */
  lemma {:induction false} DashifyConcatKept(x: string, y: string)
    requires x != [] && IsSlugChar(x[0]) && IsSlugChar(x[|x| - 1])
    ensures Dashify(x + y) == Dashify(x) + Dashify(y)
    decreases |x|, 0
  {
    var xy := x + y;
    assert xy[0] == x[0];
    assert xy[1..] == x[1..] + y;
    if |x| == 1 {
      assert x[1..] + y == y;
      assert Dashify(x) == [x[0]];
    } else {
      DashifyConcat(x[1..], y);
    }
    assert Dashify(xy) == [x[0]] + Dashify(x[1..] + y);
  }

  /** One unfolding of Dashify on `x + y` when `x` starts outside `[a-z0-9]`. */
  lemma DashifySkipStep(x: string, y: string)
    requires x != [] && !IsSlugChar(x[0])
    ensures Dashify(x + y) == "-" + Dashify(SkipRun(x[1..] + y))
  {
    assert (x + y)[0] == x[0];
    assert (x + y)[1..] == x[1..] + y;
  }

  /** DashifyConcat when `x` starts with a run of other characters. */
  lemma {:induction false} DashifyConcatSkipped(x: string, y: string)
    requires x != [] && !IsSlugChar(x[0]) && IsSlugChar(x[|x| - 1])
    ensures Dashify(x + y) == Dashify(x) + Dashify(y)
    decreases |x|, 0
  {
    var t := SkipRun(x[1..]);
    assert t != [] && IsSlugChar(t[|t| - 1]) by {
      SkipRunKeepsFrom(x[1..], |x| - 2);
      assert t[|t| - 1] == x[1..][|x| - 2];
    }
    var dt, dy := Dashify(t), Dashify(y);
    assert Dashify(x + y) == "-" + (dt + dy) by {
      DashifySkipStep(x, y);
      SkipRunStopsInside(x[1..], y, |x| - 2);
      DashifyConcat(t, y);
    }
    assert Dashify(x) == "-" + dt;
    assert "-" + (dt + dy) == ("-" + dt) + dy;
  }

  /** A leading run of other characters in front of a letter or digit becomes
      exactly one '-'. */
  lemma DashifyLeadingSeparator(sep: string, b: string)
    requires sep != [] && NoSlugChar(sep)
    requires b == [] || IsSlugChar(b[0])
    ensures Dashify(sep + b) == "-" + Dashify(b)
  {
    DashifySkipStep(sep, b);
    SkipRunOfSeparator(sep[1..], b);
  }

  /** A run of other characters between two letters or digits becomes exactly
      one '-', and the text on either side is dashed on its own: "ab cd" gives
      "ab-cd", never "abcd". */
  lemma DashifySeparates(a: string, sep: string, b: string)
    requires a != [] && IsSlugChar(a[|a| - 1])
    requires sep != [] && NoSlugChar(sep)
    requires b != [] && IsSlugChar(b[0])
    ensures Dashify(a + sep + b) == Dashify(a) + "-" + Dashify(b)
  {
    assert a + sep + b == a + (sep + b);
    DashifyConcat(a, sep + b);
    DashifyLeadingSeparator(sep, b);
  }

  /** Dashes carry no letter or digit. */
  lemma SlugCharsOfDashes(s: string)
    requires forall i | 0 <= i < |s| :: s[i] == '-'
    ensures SlugChars(s) == []
  {
    SlugCharsOfNone(s);
  }

  /** Stripping leading '-' keeps every letter and digit. */
  lemma DropLeadingKeepsSlugChars(s: string)
    ensures SlugChars(DropLeadingDashes(s)) == SlugChars(s)
  {
    var lead := DropLeadingDashes(s);
    var front := s[..|s| - |lead|];
    assert front + lead == s;
    assert forall i | 0 <= i < |front| :: front[i] == s[i];
    SlugCharsOfDashes(front);
    SlugCharsConcat(front, lead);
  }

  /** Stripping trailing '-' keeps every letter and digit. */
  lemma DropTrailingKeepsSlugChars(s: string)
    ensures SlugChars(DropTrailingDashes(s)) == SlugChars(s)
  {
    var trimmed := DropTrailingDashes(s);
    var back := s[|trimmed|..];
    assert trimmed + back == s;
    assert forall i | 0 <= i < |back| :: back[i] == s[|trimmed| + i];
    SlugCharsOfDashes(back);
    SlugCharsConcat(trimmed, back);
  }

  /** Cutting to `n` characters keeps the leading letters and digits, and all
      of them when nothing is cut. */
  lemma TakeKeepsLeadingSlugChars(t: string, n: nat)
    ensures SlugChars(Take(t, n)) <= SlugChars(t)
    ensures |t| <= n ==> SlugChars(Take(t, n)) == SlugChars(t)
  {
    var r := Take(t, n);
    assert r + t[|r|..] == t;
    SlugCharsConcat(r, t[|r|..]);
  }

  /** The slug's letters and digits are the leading ones of the lower-cased
      name: all of them when the name has at most 50 characters. The slug is
      empty exactly when the name has no letter or digit. */
  lemma SlugKeepsLettersAndDigits(name: string)
    ensures SlugChars(GenerateSlug(name)) <= SlugChars(ToLower(name))
    ensures |name| <= MaxSlugLength ==> SlugChars(GenerateSlug(name)) == SlugChars(ToLower(name))
    ensures GenerateSlug(name) == [] <==> SlugChars(ToLower(name)) == []
  {
    var t := Stripped(name);
    TakeKeepsLeadingSlugChars(t, MaxSlugLength);
    if t != [] {
      SlugCharsOfLeading(t);
    }
  }

  /** Lower-casing leaves a-z, 0-9 and '-' alone. */
  lemma LowerOfSlugAlphabet(s: string)
    requires SlugAlphabet(s)
    ensures ToLower(s) == s
  {
  }

  /** Dashify leaves alone a string over a-z, 0-9, '-' without "--". */
  lemma {:induction false} DashifyOfShaped(s: string)
    requires SlugAlphabet(s) && NoDoubleDash(s)
    ensures Dashify(s) == s
    decreases |s|
  {
    if s != [] {
      assert SlugAlphabet(s[1..]) && NoDoubleDash(s[1..]) by {
        SuffixKeepsShape(s, s[1..]);
      }
      DashifyOfShaped(s[1..]);
      if !IsSlugChar(s[0]) {
        assert s[1..] == [] || IsSlugChar(s[1]);
        assert SkipRun(s[1..]) == s[1..];
        assert "-" + s[1..] == s;
      } else {
        assert [s[0]] + s[1..] == s;
      }
    }
  }

  /** A clean slug is a fixpoint of `generateSlug`. */
  lemma SlugFixpoint(s: string)
    requires IsCleanSlug(s)
    ensures GenerateSlug(s) == s
  {
    LowerOfSlugAlphabet(s);
    DashifyOfShaped(s);
  }

  /** Idempotence, as far as it goes: re-slugging a slug changes nothing unless
      the truncation left a trailing '-'. */
  lemma SlugIdempotentUnlessTrailingDash(name: string)
    requires var s := GenerateSlug(name); s == [] || s[|s| - 1] != '-'
    ensures GenerateSlug(GenerateSlug(name)) == GenerateSlug(name)
  {
    SlugFixpoint(GenerateSlug(name));
  }

  /** The trim runs before the 50-character cut, so a cut that lands just after
      a '-' leaves it at the end: 49 letters, '-', 'b' give 49 letters and '-'. */
  lemma TruncationCanLeaveTrailingDash()
    ensures var name := seq(49, _ => 'a') + "-b";
      GenerateSlug(name) == seq(49, _ => 'a') + "-"
  {
    var a := seq(49, _ => 'a');
    var name := a + "-b";
    assert SlugAlphabet(name);
    assert NoDoubleDash(name) by {
      forall i | 0 <= i < |name| - 1 ensures !(name[i] == '-' && name[i + 1] == '-') {
        if i < 49 { assert name[i] == 'a'; } else { assert name[i + 1] == 'b'; }
      }
    }
    LowerOfSlugAlphabet(name);
    DashifyOfShaped(name);
    assert name[0] == 'a' && name[|name| - 1] == 'b';
    assert name[..50] == a + "-";
  }
}

=== FILE: sorting.dfy ===
/** `Array.prototype.sort` with a numeric comparator `(a, b) => key(a) - key(b)`:
    since ECMAScript 2019 the sort is stable, so the model is a stable insertion
    sort on the key. Descending orders use a negated key. */
module Sorting {
  import opened Seqs

  /** Keys never decrease along `s`. */
  predicate SortedBy<T>(s: seq<T>, key: T -> real) {
    forall i, j | 0 <= i < j < |s| :: key(s[i]) <= key(s[j])
  }

  /** `x` placed in front of the first element of `s` whose key is not smaller. */
  function Insert<T>(x: T, s: seq<T>, key: T -> real): (r: seq<T>)
    requires SortedBy(s, key)
    ensures multiset(r) == multiset(s) + multiset{x}
    ensures |r| == |s| + 1
    ensures SortedBy(r, key)
  {
    if s == [] || key(x) <= key(s[0]) then [x] + s
    else
      var rest := Insert(x, s[1..], key);
      assert s == [s[0]] + s[1..];
      HeadBelowRest(x, s, rest, key);
      ConsSorted(s[0], rest, key);
      [s[0]] + rest
  }

  /** The head of a sorted `s` is no greater than anything in `s[1..]` with a
      larger `x` added. */
  lemma HeadBelowRest<T>(x: T, s: seq<T>, rest: seq<T>, key: T -> real)
    requires SortedBy(s, key) && s != [] && key(s[0]) <= key(x)
    requires multiset(rest) == multiset(s[1..]) + multiset{x}
    ensures forall k | 0 <= k < |rest| :: key(s[0]) <= key(rest[k])
  {
    forall k | 0 <= k < |rest| ensures key(s[0]) <= key(rest[k]) {
      var y := rest[k];
      assert y in multiset(rest);
      if y != x {
        assert y in multiset(s[1..]);
        var m :| 0 <= m < |s[1..]| && s[1..][m] == y;
        assert s[m + 1] == y;
      }
    }
  }

  lemma ConsSorted<T>(h: T, rest: seq<T>, key: T -> real)
    requires SortedBy(rest, key)
    requires forall k | 0 <= k < |rest| :: key(h) <= key(rest[k])
    ensures SortedBy([h] + rest, key)
  {
    var r := [h] + rest;
    forall i, j | 0 <= i < j < |r| ensures key(r[i]) <= key(r[j]) {
      assert r[j] == rest[j - 1];
      if i > 0 { assert r[i] == rest[i - 1]; }
    }
  }

  /** The stable sort of `s` by ascending `key`. */
  function SortBy<T>(s: seq<T>, key: T -> real): (r: seq<T>)
    ensures multiset(r) == multiset(s)
    ensures |r| == |s|
    ensures SortedBy(r, key)
  {
    if s == [] then []
    else
      assert s == [s[0]] + s[1..];
      Insert(s[0], SortBy(s[1..], key), key)
  }

  /** The elements of `s` whose key is `v`, in order. */
  function WithKey<T>(s: seq<T>, key: T -> real, v: real): (r: seq<T>)
    ensures |r| <= |s|
  {
    if s == [] then []
    else (if key(s[0]) == v then [s[0]] else []) + WithKey(s[1..], key, v)
  }

  lemma {:induction false} InsertStable<T>(x: T, s: seq<T>, key: T -> real, v: real)
    requires SortedBy(s, key)
    ensures WithKey(Insert(x, s, key), key, v)
         == (if key(x) == v then [x] else []) + WithKey(s, key, v)
    decreases |s|
  {
    if s == [] || key(x) <= key(s[0]) {
      assert ([x] + s)[1..] == s;
    } else {
      var rest := Insert(x, s[1..], key);
      InsertStable(x, s[1..], key, v);
      assert ([s[0]] + rest)[1..] == rest;
      var hx := if key(x) == v then [x] else [];
      var h0 := if key(s[0]) == v then [s[0]] else [];
      assert hx == [] || h0 == [];
      assert h0 + (hx + WithKey(s[1..], key, v)) == hx + (h0 + WithKey(s[1..], key, v));
    }
  }

  /** Cutting a sequence keeps a leading part of the elements with each key. */
  lemma {:induction false} WithKeyPrefix<T>(s: seq<T>, n: nat, key: T -> real, v: real)
    requires n <= |s|
    ensures WithKey(s[..n], key, v) <= WithKey(s, key, v)
    decreases n
  {
    if n > 0 {
      assert s[..n][0] == s[0];
      assert s[..n][1..] == s[1..][..n - 1];
      WithKeyPrefix(s[1..], n - 1, key, v);
    }
  }

  /** Stability: for every key value, the elements carrying it appear in the
      sorted sequence in the same order as in the input. */
  lemma {:induction false} SortStable<T>(s: seq<T>, key: T -> real, v: real)
    ensures WithKey(SortBy(s, key), key, v) == WithKey(s, key, v)
    decreases |s|
  {
    if s != [] {
      SortStable(s[1..], key, v);
      InsertStable(s[0], SortBy(s[1..], key), key, v);
    }
  }
}

=== FILE: tally.dfy ===
/** An insertion-ordered tally: the `Record<string, {count, revenue}>` objects
    the reports build with `if (!acc[key]) acc[key] = ...; acc[key].x += ...`
    and then read back with `Object.entries`, which lists keys in the order they
    were first added. */
module Tally {
  import opened Seqs

  /** One key's running totals. */
  datatype Entry = Entry(key: string, count: int, revenue: real)

  type Table = seq<Entry>

  /** No key appears twice. */
  predicate DistinctKeys(t: Table) {
    forall i, j | 0 <= i < j < |t| :: t[i].key != t[j].key
  }

  /** The position of `key`, or -1. */
  function IndexOfKey(t: Table, key: string): (i: int)
    ensures -1 <= i < |t|
    ensures i == -1 <==> forall k | 0 <= k < |t| :: t[k].key != key
    ensures i >= 0 ==> t[i].key == key
  {
    if t == [] then -1
    else if t[|t| - 1].key == key then |t| - 1
    else IndexOfKey(t[..|t| - 1], key)
  }

  /** Adds `count` and `revenue` to `key`'s entry, creating it (at the end) on
      first sight. */
  function Add(t: Table, key: string, count: int, revenue: real): (r: Table)
    ensures IndexOfKey(t, key) == -1 ==> r == t + [Entry(key, count, revenue)]
    ensures IndexOfKey(t, key) >= 0 ==>
      var i := IndexOfKey(t, key);
      && |r| == |t|
      && r[i] == Entry(key, t[i].count + count, t[i].revenue + revenue)
      && forall k | 0 <= k < |t| && k != i :: r[k] == t[k]
  {
    var i := IndexOfKey(t, key);
    if i == -1 then t + [Entry(key, count, revenue)]
    else t[i := Entry(key, t[i].count + count, t[i].revenue + revenue)]
  }

  lemma AddKeepsKeysDistinct(t: Table, key: string, count: int, revenue: real)
    requires DistinctKeys(t)
    ensures DistinctKeys(Add(t, key, count, revenue))
  {
  }

  /** `key`'s count, 0 when absent (what `acc[key]?.count ?? 0` reads). */
  function CountOf(t: Table, key: string): int {
    var i := IndexOfKey(t, key);
    if i >= 0 then t[i].count else 0
  }

  /** `key`'s revenue, 0 when absent. */
  function RevenueOf(t: Table, key: string): real {
    var i := IndexOfKey(t, key);
    if i >= 0 then t[i].revenue else 0.0
  }

  /** Adding to one key changes that key's totals by the amounts and leaves
      every other key's totals alone. */
  lemma AddPerKey(t: Table, key: string, count: int, revenue: real, other: string)
    requires DistinctKeys(t)
    ensures CountOf(Add(t, key, count, revenue), other)
         == CountOf(t, other) + (if other == key then count else 0)
    ensures RevenueOf(Add(t, key, count, revenue), other)
         == RevenueOf(t, other) + (if other == key then revenue else 0.0)
  {
    var r := Add(t, key, count, revenue);
    AddKeepsKeysDistinct(t, key, count, revenue);
    var i := IndexOfKey(t, other);
    var ik := IndexOfKey(t, key);
    if other == key {
      if i >= 0 {
        assert r[i].key == other;
        assert IndexOfKey(r, other) == i;
      } else {
        assert r[|t|].key == other;
        assert IndexOfKey(r, other) == |t|;
      }
    } else if i >= 0 {
      assert i != ik;
      assert r[i] == t[i];
      assert IndexOfKey(r, other) == i;
    } else {
      assert forall k | 0 <= k < |r| :: r[k].key != other by {
        forall k | 0 <= k < |r| ensures r[k].key != other {
          if k < |t| && k != ik { assert r[k] == t[k]; }
        }
      }
    }
  }

  function EntryCount(e: Entry): int {
    e.count
  }

  function EntryRevenue(e: Entry): real {
    e.revenue
  }

  /** Adding moves the table's grand totals by exactly the amounts added. */
  lemma AddGrandTotals(t: Table, key: string, count: int, revenue: real)
    ensures IntSum(Add(t, key, count, revenue), EntryCount) == IntSum(t, EntryCount) + count
    ensures Sum(Add(t, key, count, revenue), EntryRevenue) == Sum(t, EntryRevenue) + revenue
  {
    var i := IndexOfKey(t, key);
    var e := Entry(key, count, revenue);
    if i == -1 {
      IntSumConcat(t, [e], EntryCount);
      IntSumSingleton(e, EntryCount);
      SumConcat(t, [e], EntryRevenue);
      SumSingleton(e, EntryRevenue);
    } else {
      var u := Entry(key, t[i].count + count, t[i].revenue + revenue);
      IntSumUpdate(t, i, u, EntryCount);
      SumUpdate(t, i, u, EntryRevenue);
    }
  }

  /** The table built by visiting `xs` in order and adding each element's
      count and revenue under its key. */
  function TallyBy<T>(xs: seq<T>, keyOf: T -> string, countOf: T -> int, revenueOf: T -> real): (t: Table)
    ensures DistinctKeys(t)
    decreases |xs|
  {
    if xs == [] then []
    else
      var last := xs[|xs| - 1];
      var prev := TallyBy(xs[..|xs| - 1], keyOf, countOf, revenueOf);
      AddKeepsKeysDistinct(prev, keyOf(last), countOf(last), revenueOf(last));
      Add(prev, keyOf(last), countOf(last), revenueOf(last))
  }

  /** An element's count when its key is `key`, else 0. */
  function CountFor<T>(keyOf: T -> string, countOf: T -> int, key: string): T -> int {
    (x: T) => if keyOf(x) == key then countOf(x) else 0
  }

  /** An element's revenue when its key is `key`, else 0. */
  function RevenueFor<T>(keyOf: T -> string, revenueOf: T -> real, key: string): T -> real {
    (x: T) => if keyOf(x) == key then revenueOf(x) else 0.0
  }

  /** Each key's totals are the sums over exactly the elements with that key. */
  lemma {:induction false} TallyPerKey<T>(xs: seq<T>, keyOf: T -> string, countOf: T -> int,
                                          revenueOf: T -> real, key: string)
    ensures CountOf(TallyBy(xs, keyOf, countOf, revenueOf), key) == IntSum(xs, CountFor(keyOf, countOf, key))
    ensures RevenueOf(TallyBy(xs, keyOf, countOf, revenueOf), key) == Sum(xs, RevenueFor(keyOf, revenueOf, key))
    decreases |xs|
  {
    if xs != [] {
      var init := xs[..|xs| - 1];
      var last := xs[|xs| - 1];
      TallyPerKey(init, keyOf, countOf, revenueOf, key);
      AddPerKey(TallyBy(init, keyOf, countOf, revenueOf), keyOf(last), countOf(last), revenueOf(last), key);
    }
  }

  /** The table's grand totals are the sums over all elements. */
  lemma {:induction false} TallyGrandTotals<T>(xs: seq<T>, keyOf: T -> string, countOf: T -> int, revenueOf: T -> real)
    ensures IntSum(TallyBy(xs, keyOf, countOf, revenueOf), EntryCount) == IntSum(xs, countOf)
    ensures Sum(TallyBy(xs, keyOf, countOf, revenueOf), EntryRevenue) == Sum(xs, revenueOf)
    decreases |xs|
  {
    if xs != [] {
      var init := xs[..|xs| - 1];
      var last := xs[|xs| - 1];
      TallyGrandTotals(init, keyOf, countOf, revenueOf);
      AddGrandTotals(TallyBy(init, keyOf, countOf, revenueOf), keyOf(last), countOf(last), revenueOf(last));
    }
  }

  /** Adding creates an entry for the added key and for no other. */
  lemma AddKeys(t: Table, key: string, count: int, revenue: real, other: string)
    ensures IndexOfKey(Add(t, key, count, revenue), other) >= 0
        <==> IndexOfKey(t, other) >= 0 || other == key
  {
    var r := Add(t, key, count, revenue);
    var ik := IndexOfKey(t, key);
    if other == key {
      if ik >= 0 {
        assert r[ik].key == key;
      } else {
        assert r[|t|].key == key;
      }
    } else if IndexOfKey(t, other) >= 0 {
      var i := IndexOfKey(t, other);
      assert r[i].key == other;
    } else {
      assert forall k | 0 <= k < |r| :: r[k].key != other by {
        forall k | 0 <= k < |r| ensures r[k].key != other {
          if k < |t| && k != ik { assert r[k] == t[k]; }
        }
      }
    }
  }

  /** The table's keys are exactly the keys of the elements. */
  lemma TallyKeySet<T>(xs: seq<T>, keyOf: T -> string, countOf: T -> int, revenueOf: T -> real)
    ensures forall key :: IndexOfKey(TallyBy(xs, keyOf, countOf, revenueOf), key) >= 0 <==> HasKey(xs, keyOf, key)
  {
    forall key ensures IndexOfKey(TallyBy(xs, keyOf, countOf, revenueOf), key) >= 0 <==> HasKey(xs, keyOf, key) {
      TallyKeys(xs, keyOf, countOf, revenueOf, key);
    }
  }

  lemma {:induction false} TallyKeys<T>(xs: seq<T>, keyOf: T -> string, countOf: T -> int, revenueOf: T -> real, key: string)
    ensures IndexOfKey(TallyBy(xs, keyOf, countOf, revenueOf), key) >= 0 <==> HasKey(xs, keyOf, key)
    decreases |xs|
  {
    if xs != [] {
      var init := xs[..|xs| - 1];
      var last := xs[|xs| - 1];
      TallyKeys(init, keyOf, countOf, revenueOf, key);
      AddKeys(TallyBy(init, keyOf, countOf, revenueOf), keyOf(last), countOf(last), revenueOf(last), key);
      OccursInInitOrLast(xs, keyOf, key);
    }
  }

  /** Some element of `xs` has key `key`. */
  predicate HasKey<T>(xs: seq<T>, keyOf: T -> string, key: string) {
    exists k | 0 <= k < |xs| :: keyOf(xs[k]) == key
  }

  lemma OccursInInitOrLast<T>(xs: seq<T>, keyOf: T -> string, key: string)
    requires xs != []
    ensures HasKey(xs, keyOf, key) <==> HasKey(xs[..|xs| - 1], keyOf, key) || keyOf(xs[|xs| - 1]) == key
  {
    var init := xs[..|xs| - 1];
    if HasKey(xs, keyOf, key) {
      var k :| 0 <= k < |xs| && keyOf(xs[k]) == key;
      if k < |init| { assert init[k] == xs[k]; }
    }
    if HasKey(init, keyOf, key) {
      var k :| 0 <= k < |init| && keyOf(init[k]) == key;
      assert xs[k] == init[k];
    }
  }
}

=== FILE: text.dfy ===
/** String primitives the source takes from the JavaScript runtime: whitespace
    as `\s` and `String.prototype.trim` see it, ASCII lower-casing, substring
    search, and `Array.prototype.join` / `String.prototype.split` on one
    separator character. */
module Text {

  /** The characters JavaScript's `\s` matches and `trim()` removes: the
      WhiteSpace and LineTerminator code points of ECMAScript. */
  predicate IsJsSpace(c: char) {
    || c == '\t' || c == '\n' || c == '\U{000B}' || c == '\U{000C}' || c == '\r'
    || c == ' ' || c == '\U{00A0}' || c == '\U{1680}'
    || ('\U{2000}' <= c <= '\U{200A}')
    || c == '\U{2028}' || c == '\U{2029}' || c == '\U{202F}' || c == '\U{205F}'
    || c == '\U{3000}' || c == '\U{FEFF}'
  }

  predicate IsAsciiDigit(c: char) {
    '0' <= c <= '9'
  }

  predicate IsAsciiLower(c: char) {
    'a' <= c <= 'z'
  }

  /** True when `trim()` would leave nothing: JavaScript's `!s.trim()`. */
  predicate IsBlank(s: string) {
    forall i | 0 <= i < |s| :: IsJsSpace(s[i])
  }

  /** `s.trimStart()`: the longest suffix of `s` that does not start with whitespace. */
  function TrimStart(s: string): (r: string)
    ensures |r| <= |s| && r == s[|s| - |r|..]
    ensures forall i | 0 <= i < |s| - |r| :: IsJsSpace(s[i])
    ensures r == [] || !IsJsSpace(r[0])
    decreases |s|
  {
    if |s| > 0 && IsJsSpace(s[0]) then TrimStart(s[1..]) else s
  }

  /** `s.trimEnd()`: the longest prefix of `s` that does not end with whitespace. */
  function TrimEnd(s: string): (r: string)
    ensures |r| <= |s| && r == s[..|r|]
    ensures forall i | |r| <= i < |s| :: IsJsSpace(s[i])
    ensures r == [] || !IsJsSpace(r[|r| - 1])
    decreases |s|
  {
    if |s| > 0 && IsJsSpace(s[|s| - 1]) then TrimEnd(s[..|s| - 1]) else s
  }

  /** `s` is blank text, then `r` from index `i`, then blank text. */
  predicate TrimmedAt(r: string, s: string, i: int) {
    && 0 <= i <= |s| - |r|
    && s[i..i + |r|] == r
    && IsBlank(s[..i])
    && IsBlank(s[i + |r|..])
  }

  /** `s` is `r` with blank text before and after it, and `r` neither starts nor
      ends with whitespace: the result `s.trim()` is meant to have. */
  predicate TrimmedFrom(r: string, s: string) {
    && (r == [] || (!IsJsSpace(r[0]) && !IsJsSpace(r[|r| - 1])))
    && exists i | 0 <= i <= |s| :: TrimmedAt(r, s, i)
  }

  /** `s.trim()`. */
  function Trim(s: string): (r: string)
    ensures |r| <= |s|
    ensures r == [] || (!IsJsSpace(r[0]) && !IsJsSpace(r[|r| - 1]))
    ensures TrimmedFrom(r, s)
  {
    TrimBothEnds(s);
    TrimEnd(TrimStart(s))
  }

  /** Trimming the start and then the end cuts only blank text from either end. */
  lemma TrimBothEnds(s: string)
    ensures TrimmedAt(TrimEnd(TrimStart(s)), s, |s| - |TrimStart(s)|)
  {
    var t := TrimStart(s);
    TrimStartCutsBlank(s);
    TrimEndCutsBlank(t);
    BlankAround(s, t, TrimEnd(t));
  }

  /** A blank prefix cut from `s`, then a blank suffix cut from what is left. */
  lemma BlankAround(s: string, t: string, r: string)
    requires |t| <= |s| && t == s[|s| - |t|..] && IsBlank(s[..|s| - |t|])
    requires |r| <= |t| && r == t[..|r|] && IsBlank(t[|r|..])
    ensures TrimmedAt(r, s, |s| - |t|)
  {
    var i := |s| - |t|;
    assert s[i..i + |r|] == r;
    assert s[i + |r|..] == t[|r|..];
  }

  lemma TrimStartCutsBlank(s: string)
    ensures IsBlank(s[..|s| - |TrimStart(s)|])
  {
    var head := s[..|s| - |TrimStart(s)|];
    forall k | 0 <= k < |head| ensures IsJsSpace(head[k]) {
      assert head[k] == s[k];
    }
  }

  lemma TrimEndCutsBlank(t: string)
    ensures IsBlank(t[|TrimEnd(t)|..])
  {
    var tail := t[|TrimEnd(t)|..];
    forall k | 0 <= k < |tail| ensures IsJsSpace(tail[k]) {
      assert tail[k] == t[|TrimEnd(t)| + k];
    }
  }

  /** Only one string is trimmed from `s`, so `TrimmedFrom` pins down `trim()`. */
  lemma TrimmedFromUnique(r: string, s: string)
    requires TrimmedFrom(r, s)
    ensures r == Trim(s)
  {
    var i :| 0 <= i <= |s| && TrimmedAt(r, s, i);
    if r == [] {
      BlankConcat(s[..i], s[i..]);
      assert s[..i] + s[i..] == s;
      TrimEmptyIffBlank(s);
    } else {
      var t := s[i..];
      assert s[i] == r[0];
      TrimStartAt(s, i);
      assert t[..|r|] == r;
      assert t[|r|..] == s[i + |r|..];
      TrimEndAt(t, |r|);
    }
  }

  lemma BlankConcat(a: string, b: string)
    requires IsBlank(a) && IsBlank(b)
    ensures IsBlank(a + b)
  {
    forall k | 0 <= k < |a + b| ensures IsJsSpace((a + b)[k]) {
      if k < |a| { assert (a + b)[k] == a[k]; } else { assert (a + b)[k] == b[k - |a|]; }
    }
  }

  /** Blank text up to a non-blank character at `i` is what `trimStart()` cuts. */
  lemma {:induction false} TrimStartAt(s: string, i: nat)
    requires i < |s| && !IsJsSpace(s[i])
    requires IsBlank(s[..i])
    ensures TrimStart(s) == s[i..]
    decreases i
  {
    if i > 0 {
      assert s[0] == s[..i][0];
      assert s[1..][..i - 1] == s[..i][1..];
      assert s[1..][i - 1] == s[i];
      TrimStartAt(s[1..], i - 1);
      assert s[1..][i - 1..] == s[i..];
    }
  }

  /** Blank text after a non-blank character at `n - 1` is what `trimEnd()` cuts. */
  lemma {:induction false} TrimEndAt(t: string, n: nat)
    requires 0 < n <= |t| && !IsJsSpace(t[n - 1])
    requires IsBlank(t[n..])
    ensures TrimEnd(t) == t[..n]
    decreases |t|
  {
    if n < |t| {
      var init := t[..|t| - 1];
      assert t[|t| - 1] == t[n..][|t| - 1 - n];
      assert init[n..] == t[n..][..|t| - 1 - n];
      assert init[n - 1] == t[n - 1];
      TrimEndAt(init, n);
      assert init[..n] == t[..n];
    }
  }

  /** `s.trim()` is empty exactly when every character of `s` is whitespace. */
  lemma TrimEmptyIffBlank(s: string)
    ensures Trim(s) == [] <==> IsBlank(s)
  {
    var t := TrimStart(s);
    if Trim(s) == [] {
      assert t == [];
    } else {
      assert !IsJsSpace(Trim(s)[0]);
      assert Trim(s)[0] == t[0] == s[|s| - |t|];
    }
  }

  /** JavaScript's `toLowerCase` on one character, for the ASCII range. */
  function LowerChar(c: char): char {
    if 'A' <= c <= 'Z' then (c as int + 32) as char else c
  }

  /** `s.toLowerCase()` for ASCII text, character by character. */
  function ToLower(s: string): (r: string)
    ensures |r| == |s|
    ensures forall i | 0 <= i < |s| :: r[i] == LowerChar(s[i])
  {
    seq(|s|, i requires 0 <= i < |s| => LowerChar(s[i]))
  }

  /** `t` occurs in `s` starting at index `i`. */
  predicate OccursAt(s: string, t: string, i: int) {
    0 <= i && i + |t| <= |s| && s[i..i + |t|] == t
  }

  /** `s.includes(t)`. */
  predicate Contains(s: string, t: string) {
    exists i | 0 <= i <= |s| - |t| :: OccursAt(s, t, i)
  }

  /** The empty string is included in every string. */
  lemma ContainsEmpty(s: string)
    ensures Contains(s, [])
  {
    assert OccursAt(s, [], 0);
  }

  /** Whether `c` appears in `s`. */
  predicate HasChar(s: string, c: char) {
    exists i | 0 <= i < |s| :: s[i] == c
  }

  /** `xs.join(sep)` for a one-character separator. */
  function Join(xs: seq<string>, sep: char): (r: string)
    ensures |xs| == 1 ==> r == xs[0]
    ensures forall i | 0 <= i < |xs| :: |xs[i]| <= |r|
  {
    if |xs| == 0 then []
    else if |xs| == 1 then xs[0]
    else xs[0] + [sep] + Join(xs[1..], sep)
  }

  /** A character occurs in a concatenation exactly when it occurs in a part. */
  lemma HasCharConcat(a: string, b: string, c: char)
    ensures HasChar(a + b, c) <==> HasChar(a, c) || HasChar(b, c)
  {
    if HasChar(a + b, c) {
      var i :| 0 <= i < |a + b| && (a + b)[i] == c;
      if i < |a| { assert a[i] == c; } else { assert b[i - |a|] == c; }
    }
    if HasChar(a, c) {
      var i :| 0 <= i < |a| && a[i] == c;
      assert (a + b)[i] == c;
    }
    if HasChar(b, c) {
      var i :| 0 <= i < |b| && b[i] == c;
      assert (a + b)[|a| + i] == c;
    }
  }

  /** Joining pieces free of `c` with a separator other than `c` yields text
      free of `c`. */
  lemma {:induction false} JoinAvoids(xs: seq<string>, sep: char, c: char)
    requires sep != c
    requires forall i | 0 <= i < |xs| :: !HasChar(xs[i], c)
    ensures !HasChar(Join(xs, sep), c)
    decreases |xs|
  {
    if |xs| > 1 {
      JoinAvoids(xs[1..], sep, c);
      HasCharConcat(xs[0], [sep], c);
      HasCharConcat(xs[0] + [sep], Join(xs[1..], sep), c);
    }
  }

  /** `s.split(sep)` for a one-character separator: never empty, and no piece
      holds the separator. */
  function Split(s: string, sep: char): (r: seq<string>)
    ensures |r| >= 1
    ensures forall i | 0 <= i < |r| :: !HasChar(r[i], sep)
  {
    if s == [] then [[]]
    else
      var rest := Split(s[1..], sep);
      if s[0] == sep then [[]] + rest
      else
        assert !HasChar(rest[0], sep);
        [[s[0]] + rest[0]] + rest[1..]
  }

  /** Splitting a piece without separators in front of more text glues the piece
      onto the first part of the rest. */
  lemma {:induction false} SplitPrefix(a: string, b: string, sep: char)
    requires !HasChar(a, sep)
    ensures Split(a + b, sep) == [a + Split(b, sep)[0]] + Split(b, sep)[1..]
    decreases |a|
  {
    if a != [] {
      assert a[0] != sep;
      assert (a + b)[1..] == a[1..] + b;
      assert !HasChar(a[1..], sep) by {
        forall i | 0 <= i < |a[1..]| ensures a[1..][i] != sep {
          assert a[1..][i] == a[i + 1];
        }
      }
      SplitPrefix(a[1..], b, sep);
      assert [a[0]] + (a[1..] + Split(b, sep)[0]) == a + Split(b, sep)[0];
    } else {
      var r := Split(b, sep);
      assert a + b == b;
      assert a + r[0] == r[0];
      assert [r[0]] + r[1..] == r;
    }
  }

  /** Round trip: splitting a joined list gives the list back, provided no
      piece contains the separator. */
  lemma {:induction false} SplitJoin(xs: seq<string>, sep: char)
    requires |xs| >= 1
    requires forall i | 0 <= i < |xs| :: !HasChar(xs[i], sep)
    ensures Split(Join(xs, sep), sep) == xs
    decreases |xs|
  {
    if |xs| == 1 {
      SplitPrefix(xs[0], [], sep);
      assert xs[0] + [] == xs[0];
    } else {
      var tail := Join(xs[1..], sep);
      SplitJoin(xs[1..], sep);
      assert Join(xs, sep) == xs[0] + ([sep] + tail);
      SplitPrefix(xs[0], [sep] + tail, sep);
      assert Split([sep] + tail, sep) == [[]] + Split(tail, sep) by {
        assert ([sep] + tail)[1..] == tail;
      }
      assert xs[0] + [] == xs[0];
      assert [xs[0]] + xs[1..] == xs;
    }
  }

  /** Round trip the other way: joining the pieces of a split restores the text. */
  lemma {:induction false} JoinSplit(s: string, sep: char)
    ensures Join(Split(s, sep), sep) == s
    decreases |s|
  {
    if s != [] {
      var rest := Split(s[1..], sep);
      JoinSplit(s[1..], sep);
      if s[0] == sep {
        assert Split(s, sep) == [[]] + rest;
        assert ([[]] + rest)[1..] == rest;
        assert [sep] + s[1..] == s;
      } else {
        var r := [[s[0]] + rest[0]] + rest[1..];
        assert Split(s, sep) == r;
        if |rest| == 1 {
          assert Join(rest, sep) == rest[0];
          assert [s[0]] + s[1..] == s;
        } else {
          assert r[1..] == rest[1..];
          assert Join(rest, sep) == rest[0] + [sep] + Join(rest[1..], sep);
          assert [s[0]] + s[1..] == s;
        }
      }
    }
  }
}

=== FILE: validation.dfy ===
/** `isValidPhone` and `isValidEmail` (src/utils/helpers.ts), with the regular
    expressions spelled out as predicates on character positions. */
module Validation {
  import opened Text
  import opened Seqs

  /** Characters `[\s\-()]` matches, which phone normalisation deletes. */
  predicate IsPhonePunct(c: char) {
    IsJsSpace(c) || c == '-' || c == '(' || c == ')'
  }

  /** `phone.replace(/[\s\-()]/g, "")`: the characters of `phone` other than
      whitespace, '-', '(' and ')', in order. */
  function StripPhone(phone: string): (r: string)
    ensures |r| <= |phone|
    ensures forall i | 0 <= i < |r| :: !IsPhonePunct(r[i])
  {
    if phone == [] then []
    else (if IsPhonePunct(phone[0]) then [] else [phone[0]]) + StripPhone(phone[1..])
  }

  lemma {:induction false} StripPhoneConcat(a: string, b: string)
    ensures StripPhone(a + b) == StripPhone(a) + StripPhone(b)
    decreases |a|
  {
    if a == [] {
      assert a + b == b;
    } else {
      assert (a + b)[1..] == a[1..] + b;
      StripPhoneConcat(a[1..], b);
    }
  }

  /** Text without separators is left as it is. */
  lemma {:induction false} StripPhoneOfClean(d: string)
    requires forall i | 0 <= i < |d| :: !IsPhonePunct(d[i])
    ensures StripPhone(d) == d
    decreases |d|
  {
    if d != [] {
      StripPhoneOfClean(d[1..]);
      assert [d[0]] + d[1..] == d;
    }
  }

  /** The pattern `^[6-9]\d{9}$`: ten ASCII digits, the first 6 to 9. */
  predicate IsIndianMobile(d: string) {
    && |d| == 10
    && '6' <= d[0] <= '9'
    && forall i | 1 <= i < |d| :: IsAsciiDigit(d[i])
  }

  /** `isValidPhone(phone)`. A number that passes is written with nothing but
      digits and separators, and has exactly ten digits. */
  function IsValidPhone(phone: string): (ok: bool)
    ensures ok ==> forall i | 0 <= i < |phone| :: IsAsciiDigit(phone[i]) || IsPhonePunct(phone[i])
    ensures ok ==> |StripPhone(phone)| == 10
  {
    StripPhoneKeeps(phone);
    IsIndianMobile(StripPhone(phone))
  }

  /** Every character that is not a separator survives normalisation. */
  lemma {:induction false} StripPhoneKeeps(phone: string)
    ensures forall i | 0 <= i < |phone| :: !IsPhonePunct(phone[i]) ==> phone[i] in StripPhone(phone)
    decreases |phone|
  {
    if phone != [] {
      StripPhoneKeeps(phone[1..]);
      assert forall i | 1 <= i < |phone| :: phone[i] == phone[1..][i - 1];
    }
  }

  /** A phone number that passes is, once normalised, exactly ten digits, and
      normalising it again changes nothing. */
  lemma ValidPhoneNormalisesToTenDigits(phone: string)
    requires IsValidPhone(phone)
    ensures |StripPhone(phone)| == 10
    ensures forall i | 0 <= i < 10 :: IsAsciiDigit(StripPhone(phone)[i])
    ensures StripPhone(StripPhone(phone)) == StripPhone(phone)
  {
    StripPhoneOfClean(StripPhone(phone));
  }

  /** Sample inputs for the examples below. */
  const MobileSample: string := "9876543210"
  const ShortPhoneSample: string := "12345"
  const LandlineLikeSample: string := "1234567890"

  /** A ten-digit number starting with 9 passes. */
  lemma MobileAccepted()
    ensures IsValidPhone(MobileSample)
  {
    var d := MobileSample;
    assert forall i | 0 <= i < |d| :: IsAsciiDigit(d[i]) && !IsPhonePunct(d[i]);
    StripPhoneOfClean(d);
    assert IsIndianMobile(d);
  }

  /** Spaces, a hyphen and parentheses are ignored: a valid mobile number
      written as "(ddd) ddd-dddd" passes too. */
  lemma FormattedMobileAccepted(d: string)
    requires IsIndianMobile(d)
    ensures IsValidPhone("(" + d[..3] + ") " + d[3..6] + "-" + d[6..])
  {
    assert forall i | 0 <= i < |d| :: !IsPhonePunct(d[i]);
    StripPhoneOfClean(d[..3]);
    StripPhoneOfClean(d[3..6]);
    StripPhoneOfClean(d[6..]);
    StripFormatted(d[..3], d[3..6], d[6..]);
    assert d[..3] + d[3..6] + d[6..] == d;
  }

  /** Normalising "(a) b-c" leaves `a + b + c` when the parts are clean. */
  lemma StripFormatted(a: string, b: string, c: string)
    requires StripPhone(a) == a && StripPhone(b) == b && StripPhone(c) == c
    ensures StripPhone("(" + a + ") " + b + "-" + c) == a + b + c
  {
    var x1 := "(" + a;
    StripPhoneConcat("(", a);
    StripPunct('(');
    assert StripPhone(x1) == a;
    var x2 := x1 + ") ";
    StripPhoneConcat(x1, ") ");
    StripPunct(')');
    StripPunct(' ');
    StripPhoneConcat(")", " ");
    assert StripPhone(x2) == a;
    var x3 := x2 + b;
    StripPhoneConcat(x2, b);
    var x4 := x3 + "-";
    StripPhoneConcat(x3, "-");
    StripPunct('-');
    assert StripPhone(x4) == a + b;
    StripPhoneConcat(x4, c);
  }

  lemma StripPunct(c: char)
    requires IsPhonePunct(c)
    ensures StripPhone([c]) == []
  {
    assert [c][1..] == [];
  }

  /** Five digits are too few. */
  lemma ShortPhoneRejected()
    ensures !IsValidPhone(ShortPhoneSample)
  {
    StripPhoneOfClean(ShortPhoneSample);
  }

  /** Ten digits starting with 1 are not a mobile number. */
  lemma LandlineLikeRejected()
    ensures !IsValidPhone(LandlineLikeSample)
  {
    var d := LandlineLikeSample;
    assert forall i | 0 <= i < |d| :: !IsPhonePunct(d[i]);
    StripPhoneOfClean(d);
    assert !IsIndianMobile(d);
  }

  /** Characters `[^\s@]` matches. */
  predicate IsEmailChar(c: char) {
    !IsJsSpace(c) && c != '@'
  }

  /** `s[lo..hi]` is a non-empty run of `[^\s@]`. */
  predicate EmailRun(s: string, lo: int, hi: int)
    requires 0 <= lo <= hi <= |s|
  {
    lo < hi && forall i | lo <= i < hi :: IsEmailChar(s[i])
  }

  /** The pattern `^[^\s@]+@[^\s@]+\.[^\s@]+$`, read off the regular expression:
      an '@' at `at` and a '.' at `dot`, with non-empty runs of characters other
      than whitespace and '@' before, between and after them. */
  predicate MatchesEmailPattern(s: string) {
    exists at, dot | 0 <= at < dot < |s| ::
      && s[at] == '@' && s[dot] == '.'
      && EmailRun(s, 0, at) && EmailRun(s, at + 1, dot) && EmailRun(s, dot + 1, |s|)
  }

  /** `s.indexOf(c)`: the first index of `c`, or -1. */
  function IndexOf(s: string, c: char): (i: int)
    ensures -1 <= i < |s|
    ensures i == -1 ==> forall k | 0 <= k < |s| :: s[k] != c
    ensures i >= 0 ==> s[i] == c && forall k | 0 <= k < i :: s[k] != c
  {
    if s == [] then -1
    else if s[0] == c then 0
    else
      var j := IndexOf(s[1..], c);
      if j == -1 then -1 else j + 1
  }

  /** The first occurrence is where the scan stops. */
  lemma IndexOfIs(s: string, c: char, at: int)
    requires 0 <= at < |s| && s[at] == c
    requires forall k | 0 <= k < at :: s[k] != c
    ensures IndexOf(s, c) == at
  {
  }

  /** `isValidEmail(email)`, stated as a reader would check it: no whitespace,
      a first '@' with something before it and no other '@' after it, and a '.'
      in the domain that is neither its first nor its last character. An
      address that passes has at least five characters and exactly one '@',
      at neither end. */
  function IsValidEmail(email: string): (ok: bool)
    ensures ok ==> |email| >= 5
    ensures ok ==> HasChar(email, '@')
    ensures ok ==> forall j, k | 0 <= j < k < |email| :: !(email[j] == '@' && email[k] == '@')
    ensures ok ==> email[0] != '@' && email[|email| - 1] != '@'
  {
    && (forall i | 0 <= i < |email| :: !IsJsSpace(email[i]))
    && var at := IndexOf(email, '@');
       && at > 0
       && (forall k | at < k < |email| :: email[k] != '@')
       && exists dot | at + 1 < dot < |email| - 1 :: email[dot] == '.'
  }

  /** The reader's description and the regular expression accept the same
      addresses. */
  lemma EmailPatternIff(email: string)
    ensures IsValidEmail(email) <==> MatchesEmailPattern(email)
  {
    if IsValidEmail(email) {
      ValidEmailMatches(email);
    }
    if MatchesEmailPattern(email) {
      MatchIsValidEmail(email);
    }
  }

  lemma ValidEmailMatches(email: string)
    requires IsValidEmail(email)
    ensures MatchesEmailPattern(email)
  {
    var at := IndexOf(email, '@');
    var dot :| at + 1 < dot < |email| - 1 && email[dot] == '.';
    assert EmailRun(email, 0, at);
    assert EmailRun(email, at + 1, dot);
    assert EmailRun(email, dot + 1, |email|);
  }

  lemma MatchIsValidEmail(email: string)
    requires MatchesEmailPattern(email)
    ensures IsValidEmail(email)
  {
    var at, dot :| 0 <= at < dot < |email|
      && email[at] == '@' && email[dot] == '.'
      && EmailRun(email, 0, at) && EmailRun(email, at + 1, dot)
      && EmailRun(email, dot + 1, |email|);
    IndexOfIs(email, '@', at);
    RunsCover(email, at, dot);
  }

  /** Outside the '@' and the '.', every character of a match belongs to a run. */
  lemma RunsCover(email: string, at: int, dot: int)
    requires 0 <= at < dot < |email| && email[at] == '@' && email[dot] == '.'
    requires EmailRun(email, 0, at) && EmailRun(email, at + 1, dot) && EmailRun(email, dot + 1, |email|)
    ensures forall i | 0 <= i < |email| && i != at && i != dot :: IsEmailChar(email[i])
  {
    forall i | 0 <= i < |email| && i != at && i != dot ensures IsEmailChar(email[i]) {
      if i < at { assert EmailRun(email, 0, at); }
      else if i < dot { assert EmailRun(email, at + 1, dot); }
      else { assert EmailRun(email, dot + 1, |email|); }
    }
  }

  /** Sample inputs for the examples below. */
  const DotFirstSample: string := "owner@.in"

  /** An address of the form user@host.tld passes whenever the three parts
      are non-empty runs of characters other than whitespace and '@'. */
  lemma WellFormedAddressAccepted(user: string, host: string, tld: string)
    requires user != [] && host != [] && tld != []
    requires forall i | 0 <= i < |user| :: IsEmailChar(user[i])
    requires forall i | 0 <= i < |host| :: IsEmailChar(host[i])
    requires forall i | 0 <= i < |tld| :: IsEmailChar(tld[i])
    ensures IsValidEmail(user + "@" + host + "." + tld)
  {
    var e := user + "@" + host + "." + tld;
    var at := |user|;
    var dot := at + 1 + |host|;
    forall i | 0 <= i < |e| ensures IsEmailChar(e[i]) || i == at || i == dot {
      if i < at { assert e[i] == user[i]; }
      else if at < i < dot { assert e[i] == host[i - at - 1]; }
      else if dot < i { assert e[i] == tld[i - dot - 1]; }
    }
    assert e[at] == '@' && e[dot] == '.';
    IndexOfIs(e, '@', at);
  }

  /** Without an '@' an address fails. */
  lemma NoAtRejected(email: string)
    requires forall i | 0 <= i < |email| :: email[i] != '@'
    ensures !IsValidEmail(email)
  {
    assert IndexOf(email, '@') == -1;
  }

  /** Every address with a second '@' fails. */
  lemma TwoAtRejected(email: string)
    requires exists j, k | 0 <= j < k < |email| :: email[j] == '@' && email[k] == '@'
    ensures !IsValidEmail(email)
  {
  }

  /** Every address containing whitespace fails. */
  lemma SpaceRejected(email: string)
    requires exists i | 0 <= i < |email| :: IsJsSpace(email[i])
    ensures !IsValidEmail(email)
  {
  }

  /** A '.' right after the '@' fails. */
  lemma DotFirstRejected()
    ensures !IsValidEmail(DotFirstSample)
  {
    IndexOfIs(DotFirstSample, '@', 5);
  }
}

=== FILE: wrappers.dfy ===
/** Failure-compatible result types shared by every module of the model. */
module Wrappers {

  /** A value that may be absent: the model's reading of `undefined` / `null`. */
  datatype Option<+T> = None | Some(value: T) {

    /** The value, or `default` when absent (JavaScript's `x ?? default`). */
    function GetOr(default: T): T {
      match this
      case Some(v) => v
      case None => default
    }
  }

  /** The outcome of an operation that either produces a value or is refused. */
  datatype Result<+R, +E> = Success(value: R) | Failure(error: E) {

    predicate IsFailure() {
      Failure?
    }

    function PropagateFailure<U>(): Result<U, E>
      requires Failure?
    {
      Failure(error)
    }

    function Extract(): R
      requires Success?
    {
      value
    }
  }

  /** JavaScript's `s || null` on a string, and `xs.length > 0 ? xs : undefined`
      on a list: the empty one becomes absent. */
  function NonEmpty<T>(xs: seq<T>): (r: Option<seq<T>>)
    ensures r.None? <==> xs == []
    ensures r.Some? ==> r.value == xs
  {
    if xs == [] then None else Some(xs)
  }
}
